=== FILE: README.md ===
# InterPrep AI — a verified model of the bot's deterministic core

InterPrep AI is a Telegram bot for technical-interview practice. Free text goes
to a coordinator agent, which picks one of four specialists: the assessor, the
interviewer, the planner or the code reviewer. Slash commands start guided
dialogues built on aiogram's finite-state machine. The LLM calls, the Chroma
vector store and the SQLAlchemy repositories are glue. Between them sits a fair
amount of deterministic text and dialogue logic, and this project models that
logic in Dafny and proves what it promises.

The model has four parts:

* **Code-review text processing** (`reviewer.dfy`, module `Reviewer`):
  * splitting a chat message into code and prose by triple-backtick fences, with the language tag;
  * the indicator-substring heuristic used when no fence is found;
  * the keyword extractor;
  * the fence stripping and greedy `{…}` span that precede `json.loads`;
  * the decision logic of `review` and `process_message`;
  * the review formatter, which groups issues by type and truncates every list.
* **RAG-side helpers** (`retriever.dfy`, module `Retriever`):
  * the prompt builder with its numbered context chunks and per-agent templates;
  * the agent-to-document-type filter of `retrieve_for_agent` and the `where` filter of `retrieve_context`;
  * the "Вопрос:/Ответ:" line parser of `get_questions_by_topic`;
  * the per-type and per-agent tallies of `check_database_status`.
* **Dialogue handlers as pure transitions**: `planning.dfy`, `review_flow.dfy`, `interview.dfy`, `assessment.dfy`, `start.dfy` and `general.dfy`.
  * Each handler is a function of three inputs: the aiogram state and data (`Flow.Fsm`), the message text, and the agent's outcome (`None` when the call raises).
  * It returns the next state together with its effects: the replies in order, the records saved and the messages stored.
* **Test helpers** (`metrics.dfy` and `scenario_quality.dfy`):
  * the agent-name normalisers `_normalize_agent` and `_extract_agent_name`;
  * `_extract_keywords` and the loading of scenario steps;
  * the per-agent counter bookkeeping of `test_calculate_accuracy`;
  * the scenario-content validation.

Shared support lives in four more files:

* `wrappers.dfy`: `Option`.
* `text.dfy`: Python's `str.strip`, `lower`, `split`, `join`, `in`, `count`, slicing and `str(int)`.
* `collections.dfy`: ordered grouping, de-duplication and dictionary lookup on a list of pairs.
* `flow.dfy`: the aiogram FSM context — a state plus a data record, where `state.clear()` empties both.

Python dictionaries whose iteration order matters are modelled as sequences in
first-insertion order. An LLM, the vector store, `json.loads` or a repository
becomes a function parameter, and a call that raises becomes `None`.

## Model

| member | source | states |
|---|---|---|
| Reviewer.FenceTag | agents/reviewer.py:340-345 | The tag of a fence line is a single whitespace-free word, taken when the text after the backticks is not blank. |
| Reviewer.ScanFencesByIndex | agents/reviewer.py:336-352 | The line loop equals a per-line description. A non-fence line is code exactly when an odd number of fences (counting the starting state) precede it, and prose otherwise. The language is the tag of the last opening fence that had a tag. |
| Reviewer.FencedLinesPartition | agents/reviewer.py:336-352 | A fence line is never copied to code or context. Every other line lands in exactly one of the two. |
| Reviewer.ShiftCodeMask | agents/reviewer.py:340-352 | Consuming the first line shifts the code mask by one and flips the block state exactly when that line is a fence. |
| Reviewer.ShiftContextMask | agents/reviewer.py:340-352 | The same shift for the context mask. |
| Reviewer.ShiftTagSeq | agents/reviewer.py:340-346 | The same shift for the sequence of opening-fence tags. |
| Reviewer.InBlockShift | agents/reviewer.py:346 | Whether line i lies inside a block follows from line i-1 of the remaining lines and the state flipped by the first line. |
| Reviewer.InBlockAtFirst | agents/reviewer.py:333 | The first line is inside a block exactly when the scan starts inside one. |
| Reviewer.OddCountPrefix | agents/reviewer.py:346 | The parity of a prefix of fence flags is the first flag XOR the parity of the rest. |
| Reviewer.CodeStep | agents/reviewer.py:349-350 | The first line contributes to code only when it is not a fence and lies inside a block. |
| Reviewer.ContextStep | agents/reviewer.py:351-352 | The first line contributes to context only when it is not a fence and lies outside any block. |
| Reviewer.TagStep | agents/reviewer.py:341-345 | Only an opening fence with a tag replaces the language carried forward. |
| Reviewer.ExtractCodeFromMessage | agents/reviewer.py:328-362 | With no code line, the result is the heuristic's result. Otherwise code and context are the stripped newline-joins of the fenced lines and the prose lines, and the language is the last opening tag, "python" by default. |
| Reviewer.IndicatorIndex | agents/reviewer.py:382-386 | Finds the first indicator, in table order, that occurs in the line; none means no indicator occurs. |
| Reviewer.LineLanguage | agents/reviewer.py:380-386 | A line has a language exactly when some indicator occurs in it. |
| Reviewer.ScanCodeLines | agents/reviewer.py:380-389 | The heuristic's code lines are exactly the lines containing an indicator, in order. |
| Reviewer.ScanProseLines | agents/reviewer.py:388-391 | The heuristic's context lines are exactly the lines containing no indicator, in order. |
| Reviewer.ScanLanguage | agents/reviewer.py:378-386 | The detected language is that of the first indicator on the last code line, or the starting language. |
| Reviewer.HeuristicScanByLine | agents/reviewer.py:364-397 | Combines the three: code and context partition the lines (their lengths add up), and the language is the last code line's. |
| Reviewer.FilterComplementLength | agents/reviewer.py:388-391 | Lines selected by complementary masks together number the input lines. |
| Reviewer.FindCodeHeuristic | agents/reviewer.py:364-397 | `_find_code_heuristic` joins the code lines and the prose lines with "\n", without stripping. The language is that of the last code line, "python" by default. |
| Reviewer.ClassLineIsPython | agents/reviewer.py:366-386 | Every line containing "class " is classified as Python, because the table's Python entries come before its Java "class " entry. |
| Reviewer.JavaClassShadowed | agents/reviewer.py:366-386 | The Java "class " indicator never decides a line's language: every line it matches reads as Python. |
| Reviewer.LastOrSomesCons | agents/reviewer.py:345 | The last present value of a sequence of options, unrolled by one element. |
| Reviewer.DeclaredNameIsName | agents/reviewer.py:214-219 | A non-empty declared name is stripped. |
| Reviewer.NameThen | agents/reviewer.py:212-219 | A line adds at most its own declared name, in front of the names of later lines. |
| Reviewer.NamesCons | agents/reviewer.py:218-219 | Adding a name to a list of names keeps every entry a name. |
| Reviewer.NamesOnLines | agents/reviewer.py:210-219 | Every name read from the lines is non-empty and stripped. |
| Reviewer.KeywordNames | agents/reviewer.py:206-219 | Every entry contributed by the language's keyword list is a name. |
| Reviewer.PatternHits | agents/reviewer.py:222-235 | Every pattern hit is one of the table's labels. |
| Reviewer.CandidatesAreKeywords | agents/reviewer.py:193-235 | Every candidate is a pattern label or a stripped, non-empty name. |
| Reviewer.ExtractKeywordsFromCode | agents/reviewer.py:237 | Exactly min(10, number of distinct candidates) entries, with no duplicates. Each entry is a candidate and a keyword. When there are at most 10 distinct candidates, every candidate is returned. |
| Reviewer.StripFences | agents/reviewer.py:242-248 | Fence stripping never lengthens the text. |
| Reviewer.CutClosingFence | agents/reviewer.py:247-248 | Cutting a closing fence never lengthens the text. |
| Reviewer.FirstIndexOf | agents/reviewer.py:251 | The first occurrence of a character, or none when it does not occur. |
| Reviewer.LastIndexOf | agents/reviewer.py:251 | The last occurrence of a character, or none when it does not occur. |
| Reviewer.BraceSpan | agents/reviewer.py:251 | The greedy `\{.*\}` match runs from the first '{' to the last '}' after it. There is no match exactly when no '{' precedes any '}'. |
| Reviewer.ExtractJsonOutcome | agents/reviewer.py:250-262 | `_extract_json` raises exactly when neither the brace span nor the whole cleaned text parses. When the span parses, its value wins. |
| Reviewer.StripFencesJsonFence | agents/reviewer.py:242-248 | A text opening with "```json" loses those 7 characters and is stripped before the closing fence is cut. |
| Reviewer.CutClosingFenceOf | agents/reviewer.py:247-248 | A trailing "\n```" after a body with no surrounding blanks is removed, leaving the body. |
| Reviewer.StripLeadingNewline | agents/reviewer.py:243 | Stripping removes the newline left after the opening fence. |
| Reviewer.StripFencesRoundTrip | agents/reviewer.py:242-248 | A body wrapped as "```json\n" + body + "\n```" comes back unchanged. |
| Reviewer.NoFenceNoJsonFence | agents/reviewer.py:242-245 | A text that does not open with "```" does not open with "```json". |
| Reviewer.StripFencesIdentity | agents/reviewer.py:242-248 | A text with no fence at either end is left unchanged. |
| Reviewer.IssueOf | agents/reviewer.py:294-301 | Missing issue fields default: the type to "style" and the severity to "medium". The line and the snippet are copied. |
| Reviewer.ResultOf | agents/reviewer.py:292-312 | One issue per issue object, in order. A missing score defaults to 50 and a missing summary to "Review completed". The RAG flag is the one the prompt choice set. |
| Reviewer.Review | agents/reviewer.py:264-326 | The result is the fallback, or it reports knowledge-base use exactly when the RAG prompt was chosen. |
| Reviewer.ReviewOutcome | agents/reviewer.py:271-326 | The RAG prompt is chosen only when RAG is on and the context names the best practices. A failing LLM call or an unparseable reply gives score 50, no issues and no knowledge-base use. A decoded reply gives that reply's result. |
| Reviewer.GroupViews | agents/reviewer.py:427-431 | Each type group shows its full size and at most its first 3 issues. |
| Reviewer.SumTotalsOfViews | agents/reviewer.py:427-429 | The group headers' counts add up to the sizes of the groups. |
| Reviewer.ViewOfLimits | agents/reviewer.py:410-455 | The first min(3, n) strengths, the first min(3, n) improvements and the first min(2, n) similar solutions are shown, each a prefix of its list of length n. Groups are keyed by issue type in first-seen order. Each group holds exactly the issues of its type, lists at most 3 of them, and the headers add up to the number of issues. |
| Reviewer.Bullets | agents/reviewer.py:412-413 | One bullet line per item. |
| Reviewer.IssueSection | agents/reviewer.py:416-443 | The issue part is the "no problems" pair exactly when there are no groups. |
| Reviewer.RenderLines | agents/reviewer.py:457-458 | The last line is always the follow-up question. |
| Reviewer.FormatReviewShape | agents/reviewer.py:399-460 | The reply ends with the follow-up line. The "no problems" line appears exactly when the review lists no issues. |
| Reviewer.ProcessMessage | agents/reviewer.py:462-488 | `review` is called exactly when the extracted code, stripped, has at least 10 characters, and it is called on that extraction. Otherwise the fixed "code not found" text is returned. After a review, the reply ends with its follow-up line. |
| Retriever.ContextLinesLayout | rag/retriever.py:170-174 | Chunk i (1-based) sits right after the label "[Контекст i]" and is followed by an empty line, in input order. |
| Retriever.ContextBlockShape | rag/retriever.py:176 | The context opens with "[Контекст 1]". It is the joined lines with only the trailing blanks removed. |
| Retriever.TemplateFor | rag/retriever.py:189-227 | "interviewer", "reviewer", "planner" and "assessor" get their own template. Any other value, and no agent at all, gets the base prompt. |
| Retriever.BuildPromptWithContext | rag/retriever.py:154-227 | With no chunks, the question comes back unchanged. Otherwise the result is the agent's template filled with the context block and the question. |
| Retriever.TemplatesDistinct | rag/retriever.py:179-225 | The five templates are pairwise different. |
| Retriever.WhereFilter | rag/retriever.py:65-72 | A non-empty agent name is always added under "agent". The other keys come from `filter_by`. The filter is omitted exactly when both are empty. |
| Retriever.AgentQuery | rag/retriever.py:85-100 | An agent name outside the table gets no type filter: only the agent filter when the name is non-empty, none otherwise. |
| Retriever.TypedAgentQuery | rag/retriever.py:90-98 | Each table agent gets its document type plus the agent filter. Interviewer and assessor map to interview_question, reviewer to code_example and planner to learning_plan. |
| Retriever.RetrieveContext | rag/retriever.py:61-82 | The result is [] when the search raises or returns no documents. Otherwise it is the first document list. |
| Retriever.RetrieveForTableAgent | rag/retriever.py:61-100 | For an agent of the table, `retrieve_for_agent` returns the first document list the store gives for a query filtered on that agent's document type and name, or [] when there is none. |
| Retriever.LastMarked | rag/retriever.py:131-135 | Finds the last line starting with the marker, or reports that none does. |
| Retriever.MarkersExclusive | rag/retriever.py:132-134 | No line starts with both "Вопрос:" and "Ответ:", so the `elif` never hides a match. |
| Retriever.LastValueCons | rag/retriever.py:131-135 | The last marked value, unrolled by one line. |
| Retriever.LastMarkedInTail | rag/retriever.py:131 | A last mark in the tail is the last mark of the whole list, one index later. |
| Retriever.NoMarkAtAll | rag/retriever.py:131 | No mark in the head nor in the tail means no mark at all. |
| Retriever.LastMarkedShift | rag/retriever.py:131-135 | A marked line with no marked line after it is the last marked one. |
| Retriever.LastMarkedNone | rag/retriever.py:131-135 | No marked line means no last mark. |
| Retriever.ScanQAIsLastMarked | rag/retriever.py:127-135 | The overwrite loop yields, for each marker, the last line carrying it, with every marker occurrence removed and the result stripped. |
| Retriever.ParseQuestion | rag/retriever.py:127-145 | A record is emitted only with a non-empty question and answer, and it carries the document's metadata. |
| Retriever.ParseQuestionUsesLastMarks | rag/retriever.py:127-145 | A record exists exactly when the last question line and the last answer line both give non-empty text, and those texts are its question and answer. |
| Retriever.ParseQuestions | rag/retriever.py:125-145 | Documents and metadata entries are zipped. When no metadata entry raises, there are no more records than the shorter list, and each record is complete. |
| Retriever.ParseQuestionsRaises | rag/retriever.py:125-145 | The loop raises exactly when some zipped document yields a question and an answer and its metadata entry is None, because `meta.get` is then called on None. |
| Retriever.ParseQuestionsList | rag/retriever.py:125-145 | When nothing raises, the records are exactly one per zipped pair whose document parses, in zip order, each built from that document and its metadata. |
| Retriever.TopicFilter | rag/retriever.py:108-114 | The filter holds the type interview_question and the topic. It holds the difficulty exactly when one is given and non-empty. |
| Retriever.GetQuestionsByTopic | rag/retriever.py:103-151 | The result is [] when the search raises, when there are no document lists, when the metadata list is missing, or when a parsed document's metadata is None. Otherwise it is exactly the records of `documents[0]` zipped with `metadatas[0]`, in order, each with a non-empty question and answer. |
| Retriever.Tally | rag/retriever.py:241-247 | One count per distinct value, in first-seen order. Each count is the size of that value's group. |
| Retriever.SumCountsOfGroups | rag/retriever.py:246-247 | The counts add up to the group sizes. |
| Retriever.TallyCovers | rag/retriever.py:243-246 | Every record's value, "unknown" when the key is missing, has a count. |
| Retriever.TallyCorrect | rag/retriever.py:241-247 | The counts add up to the number of records. The keys are distinct. Each count is the positive number of records with that value. Every record is counted under its value or "unknown". |
| Retriever.CheckDatabaseStatus | rag/retriever.py:230-263 | The status is the error form exactly when the store raises. Otherwise the type counts and the agent counts each add up to the number of metadata records. |
| Collections.GroupByCorrect | agents/reviewer.py:420-424 | Grouping keeps the keys in first-seen order, distinct and non-empty. Each group holds exactly the members with its key, in order, and the sizes add up to the input length. |
| Collections.GroupByKeys | agents/reviewer.py:420-424 | The group keys are the de-duplicated keys in first-seen order. |
| Collections.GroupByMembers | agents/reviewer.py:420-424 | Each group holds exactly the members with its key, in input order. |
| Collections.GroupBySize | agents/reviewer.py:420-424 | Group sizes add up to the input length. |
| Collections.Dedup | agents/reviewer.py:237 | The result has no duplicates, draws only from the input, keeps every input element, and is no longer than the input. |
| Collections.TakeDedup | agents/reviewer.py:237 | The first n distinct elements number exactly min(n, number of distinct elements) and are distinct. They are all of them when there are no more than n. |
| Collections.Lookup | agents/reviewer.py:206 | `dict.get` on a literal table: the first matching entry, or none when no key matches. |
| Collections.Zip | rag/retriever.py:125 | `zip` pairs the i-th elements up to the shorter length. |
| Collections.WhereMembers | tests/e2e/test_metrics.py:41-42 | The filtered list holds exactly the kept elements. |
| Collections.FlatMapFromMembers | tests/e2e/test_scenario_quality.py:294-327 | An element is in the concatenation exactly when it is in some part. |
| ReviewFlow.CmdReview | bot/handlers/review.py:17-31 | `/review` always waits for code and leaves the data alone. |
| ReviewFlow.ReplyParts | bot/handlers/review.py:73-79 | A reply of up to 4000 characters is sent as is. A longer one goes out as numbered parts, each headed "Часть i". |
| ReviewFlow.LongReviewParts | bot/handlers/review.py:75 | The 4000-character parts concatenate to the original. Each is non-empty and at most 4000 long, all but the last exactly 4000, and a long reply has at least two. |
| ReviewFlow.IssuesFound | bot/handlers/review.py:87 | The issue count is zero exactly when the reply contains neither '❌' nor '⚠️'. |
| ReviewFlow.ProcessCodeReview | bot/handlers/review.py:34-114 | The stored user message is the first 1000 characters. On success: the state moves to analyzing_code, the replies are "analysing", the parts and the question, and the saved review has the first 500 characters of code, the marker count and the first 300 characters of the reply. On failure: the state is cleared and nothing is saved. |
| ReviewFlow.ProcessReviewChoice | bot/handlers/review.py:117-141 | After lowercasing, {✅ еще код, еще, да, yes} waits for code and {❌ закончить, нет, no, стоп} clears. Anything else leaves the state unchanged. Exactly one reply. |
| ReviewFlow.ButtonsRecognised | bot/handlers/review.py:99-100 | The two buttons, in the case they are shown in, are recognised. |
| Planning.CmdPlan | bot/handlers/planning.py:17-28 | `/plan` always waits for the goal. |
| Planning.Stored | bot/handlers/planning.py:94-97 | The stored plan keeps the planner's focus areas, weeks, week count and summary. |
| Planning.ProcessPlanGoal | bot/handlers/planning.py:31-105 | On success: creating_plan, with the plan and the session id stored and nothing else in the data changed. If the planner raises, the state is cleared. Nothing is saved either way. |
| Planning.ShownTopics | bot/handlers/planning.py:127 | The first min(3, n) of a week's n topics are shown, in order. |
| Planning.FirstTask | bot/handlers/planning.py:128 | A week shows its first task, or "Нет". |
| Planning.WeekHours | bot/handlers/planning.py:129 | A week shows its hours, 10 by default. |
| Planning.Truncate | bot/handlers/planning.py:132-133 | Details of more than 4000 characters become their first 4000 characters followed by the fixed suffix. Shorter details are unchanged. |
| Planning.SavedTitleAsWritten | bot/handlers/planning.py:167 | As written, the title raises exactly when the stored focus areas are an empty list. |
| Planning.EmptyFocusAreasRaise | bot/handlers/planning.py:167 | A concrete plan with no focus areas makes the save raise. |
| Planning.SavedTitle | bot/handlers/planning.py:167 | The title is "План: " plus the first focus area, or "План: Обучение" when there is none. |
| Planning.SavedTitleAgrees | bot/handlers/planning.py:167 | Wherever the code as written does not raise, the corrected title agrees with it. |
| Planning.SavedPlanOf | bot/handlers/planning.py:166-174 | Building the record raises (None) exactly when the stored focus list is empty. Otherwise the record holds the title "План: " plus the first focus area (or "Обучение" when the key is missing), the summary (default "План обучения"), the week count (default 4), progress 0.0 and the plan itself. |
| Planning.CorrectedSavedPlan | bot/handlers/planning.py:166-174 | Corrected: a record exists for every stored plan, titled "План: Обучение" when the focus list is empty. |
| Planning.CorrectedSavedPlanAgrees | bot/handlers/planning.py:166-174 | Wherever the code as written saves a record, the corrected record is the same one. Where it raises, the corrected title is "План: Обучение". |
| Planning.ProcessPlanDetails | bot/handlers/planning.py:108-194 | The answer is matched after lowercasing. A show word with a stored plan shows the details and keeps the state; without one it clears. Skip words and "❌ не сохранять" clear without saving. "✅ сохранить план" with no stored plan replies "nothing to save" and clears. With a plan, the saved record is the one SavedPlanOf builds: when it exists, the plan is saved, the reply is sent and the state is cleared; when the empty focus list makes it raise, nothing is saved, nothing is sent and the state stays as it was. Any other text keeps the state and asks again. |
| Planning.AnswersIgnoreCase | bot/handlers/planning.py:116 | "ДА" acts as "да", and the save button in the case it is shown in acts as its lowercase form. |
| Planning.GoalThenSave | bot/handlers/planning.py:94-187 | A goal the planner answers, followed by the save button, saves that plan and clears the state when the plan has a focus area. When it has none, the save raises: nothing is saved or sent, and the dialogue stays in creating_plan. |
| Interview.StoredOf | bot/handlers/interview.py:72-74 | One stored question per generated question, with its text. |
| Interview.CmdInterview | bot/handlers/interview.py:15-83 | When questions are generated: in_interview, with the session id, current question 0, total 3, the questions stored and the first question shown. No questions, or a raising call, clears the state. |
| Interview.PyIndex | bot/handlers/interview.py:128 | Python indexing: defined exactly for -len ≤ i < len, and the ordinary element for a non-negative index. |
| Interview.ProcessInterviewAnswer | bot/handlers/interview.py:86-163 | No session id or no questions clears the state without evaluating. A raising evaluation clears it. Otherwise the index goes up by exactly 1: below the number of questions the state and data are kept with the new index; at or past it, `end_interview` is called and the state is cleared. |
| Interview.AnswersAdvance | bot/handlers/interview.py:125-136 | Before the last question, k answers leave the dialogue on question k, with nothing else changed. |
| Interview.AnswerManyStep | bot/handlers/interview.py:125-158 | The state after k answers is one answer applied to the state after k-1. |
| Interview.LastAnswerClears | bot/handlers/interview.py:138-158 | After n-1 answers the dialogue is on question n-1. The n-th answer clears it. |
| Interview.EarlyAnswerContinues | bot/handlers/interview.py:127-136 | No answer before the last one ends the interview. |
| Interview.LastAnswerSummarises | bot/handlers/interview.py:138-140 | The last answer ends the interview. |
| Interview.InterviewEndsAfterLastAnswer | bot/handlers/interview.py:125-158 | An interview with n questions ends after exactly n answers: only the last calls `end_interview`, and the dialogue is then cleared. |
| Interview.StartedHasSession | bot/handlers/interview.py:36-74 | A started interview has a session, current question 0 and all its questions stored. |
| Interview.StartThenAnswerAll | bot/handlers/interview.py:15-158 | After `/interview` produced n questions, n-1 answers reach the last question and the n-th clears the dialogue. |
| Assessment.CmdAssess | bot/handlers/assessment.py:16-24 | `/assess` always moves to in_assessment. |
| Assessment.ProcessAssessment | bot/handlers/assessment.py:28-72 | The assessor always gets the topics Python, Алгоритмы and Структуры данных. The state is cleared on success and on failure. The replies are "analysing" plus the result or the failure text. |
| Assessment.ReplyReportsEveryScore | bot/handlers/assessment.py:56-64 | The reply has a bullet "• skill: score/100" for every score. It ends with the knowledge-base note. |
| Flow.ScoreBullets | bot/handlers/assessment.py:59 | One bullet line per score, in order. |
| Flow.DotList | bot/handlers/interview.py:66 | One "• " line per item, in order. |
| Start.CmdBegin | bot/handlers/start.py:15-25 | `/begin` always waits for level and track. |
| Start.Tokens | bot/handlers/start.py:31-32 | The tokens are non-empty and contain no whitespace. |
| Start.LevelTrackTurn | bot/handlers/start.py:34-77 | Fewer than 2 tokens, or a level not in the valid list, gives an error with the state unchanged. Otherwise the first two tokens are stored as level and track, the rest are ignored, and the state moves to waiting_experience. The track is not checked. |
| Start.ProcessLevelTrack | bot/handlers/start.py:29-77 | The same, for the message stripped, lowercased and split on whitespace. |
| Start.TokensOfJoin | bot/handlers/start.py:31-32 | Lowercase words joined with single spaces split back into those words. |
| Start.StripJoinedWords | bot/handlers/start.py:31 | Words joined with spaces are already stripped. |
| Start.LevelAndTrackSet | bot/handlers/start.py:38-70 | "level track …" with a valid level stores that level and track and moves on. |
| Start.OneWordRejected | bot/handlers/start.py:34-36 | A single word gets the "both needed" error and changes nothing. |
| General.AssessorTopics | bot/handlers/general.py:45-48 | The assessor is consulted only for ASSESSOR, with the suggested topics or the two defaults. |
| General.HandleGeneralMessage | bot/handlers/general.py:10-139 | Text starting with '/' does nothing. Otherwise the session's agent is the route agent lowercased and its topic the first 50 characters of the context. On success, the one reply is the agent's answer and the stored assistant message its first 500 characters. Any failure gives the help text. |
| General.InterviewerRoute | bot/handlers/general.py:61-72 | INTERVIEWER gets the interviewer hint, with the primary topic or the default question. |
| General.PlannerRoute | bot/handlers/general.py:74-87 | PLANNER gets the planner hint. |
| General.ReviewerRoute | bot/handlers/general.py:89-98 | REVIEWER gets the reviewer hint. |
| General.InterviewerTextNamesCommand | bot/handlers/general.py:63-72 | The interviewer hint names /interview. |
| General.PlannerTextNamesCommand | bot/handlers/general.py:76-87 | The planner hint names /plan. |
| General.ReviewerTextNamesCommand | bot/handlers/general.py:91-98 | The reviewer hint names /review. |
| General.InterviewerReplyNamesCommand | bot/handlers/general.py:61-72 | Routed to the interviewer, the reply names /interview. |
| General.PlannerReplyNamesCommand | bot/handlers/general.py:74-87 | Routed to the planner, the reply names /plan. |
| General.ReviewerReplyNamesCommand | bot/handlers/general.py:89-98 | Routed to the reviewer, the reply names /review. |
| General.QuickAssessmentReportsEveryScore | bot/handlers/general.py:50-59 | The quick assessment shows every score's bullet line. |
| Metrics.BeforeArrow | tests/e2e/test_metrics.py:80-81 | Only the text before the first '→' is kept, stripped. Text without an arrow is unchanged. |
| Metrics.DropHandlerSuffix | tests/e2e/test_metrics.py:102-103 | A trailing "_handler" is removed; other text is unchanged. |
| Metrics.NormalizeAgentAsWritten | tests/e2e/test_metrics.py:74-105 | As written: "unknown" for empty input; otherwise the table's value for the suffix-free clean name, or that name itself. |
| Metrics.CleanNameOfPlain | tests/e2e/test_metrics.py:80-83 | A lowercase name with no arrow and no surrounding blanks is left as is. |
| Metrics.AgentKeyClean | tests/e2e/test_metrics.py:86-99 | Every key of the table survives the arrow cut, lowercasing and stripping. |
| Metrics.AgentKeyMapped | tests/e2e/test_metrics.py:86-99 | Every key of the table has a value. |
| Metrics.AssessmentSuffixCut | tests/e2e/test_metrics.py:101-105 | "assessment_handler" loses its suffix, and "assessment" is not a key. |
| Metrics.AssessmentHandlerMisnamed | tests/e2e/test_metrics.py:86-105 | The table maps "assessment_handler" to "assessor", yet the helper as written returns "assessment". |
| Metrics.NormalizeAgent | tests/e2e/test_metrics.py:74-105 | Corrected: the table is consulted on the clean name before the suffix is dropped. Otherwise the result is as written. |
| Metrics.NormalizeAgentFollowsTable | tests/e2e/test_metrics.py:86-99 | Corrected, every table key normalises to its table value. |
| Metrics.AgentNamesMapToThemselves | tests/e2e/test_metrics.py:94-98 | The five canonical agent names map to themselves. |
| Metrics.NormalizeAgentExamples | tests/e2e/test_metrics.py:86-105 | The canonical names normalise to themselves, and "assessment_handler" to "assessor". |
| Metrics.ListKeywords | tests/e2e/test_metrics.py:109-110 | No more keywords than items, for items of every JSON kind: strings, integers, booleans, null, and floats, lists and objects. |
| Metrics.ListKeywordSource | tests/e2e/test_metrics.py:110 | Every keyword is the lowercased text of a truthy, non-blank item. |
| Metrics.ListKeywordsComplete | tests/e2e/test_metrics.py:110 | Every truthy, non-blank item gives a keyword. |
| Metrics.ExtractKeywords | tests/e2e/test_metrics.py:107-113 | A list gives its kept items lowercased. A non-blank string gives itself lowercased; a blank one gives []. Anything else gives []. |
| Metrics.KeywordsAreLowerAndNonBlank | tests/e2e/test_metrics.py:107-113 | Every keyword is lowercase and non-empty. |
| Metrics.Normalized | tests/e2e/test_metrics.py:33-38 | A step keeps its query. Its agent is normalised by `_normalize_agent` as written, so a missing agent becomes "unknown" and never drops the step. Its keywords are lowercase and non-empty. |
| Metrics.AssessmentHandlerStepSkipped | tests/e2e/test_metrics.py:120-160 | A step expecting "assessment_handler" loads under "assessment", which is not an agent the accuracy test can call, so the step is skipped. |
| Metrics.LoadSteps | tests/e2e/test_metrics.py:30-42 | The loaded steps are no more than the raw ones and all have a query and an agent. |
| Metrics.LoadStepsExact | tests/e2e/test_metrics.py:33-42 | The loaded steps are exactly the normalised steps with a non-empty query and agent. |
| Metrics.AgentsInMembers | tests/e2e/test_metrics.py:145-147 | An agent has a counter exactly when some step names it. |
| Metrics.CounterBounds | tests/e2e/test_metrics.py:140-248 | Per agent, the relevant count is at most the total, which equals the number of detail entries. The tested steps are at most the steps run. |
| Metrics.CountOneMore | tests/e2e/test_metrics.py:145-248 | One step adds its agent, adds one to that agent's total, adds one to its relevant count only on success, appends one detail, and changes no other counter. |
| Metrics.CountedStep | tests/e2e/test_metrics.py:145-248 | One loop iteration keeps the counters equal to the counts over the steps seen, with the step's Metrics.StatusOf status appended to its agent's details. |
| Metrics.TestedOneMore | tests/e2e/test_metrics.py:152-162 | A step is tested exactly when its agent is available. |
| Metrics.ZeroCounter | tests/e2e/test_metrics.py:146-147 | An agent no step names has an empty counter. |
| Metrics.CountersFinal | tests/e2e/test_metrics.py:140-248 | The finished counters cover exactly the agents named, with relevant ≤ total = number of details. |
| Metrics.StatusOf | tests/e2e/test_metrics.py:152-246 | A step is skipped exactly when its agent cannot be called, and succeeds exactly when the call was relevant. It errors exactly when the coordinator's `route` raised; a raising assessor or planner call is recorded as failed, since each sits in its own `try`. |
| Metrics.CountSteps | tests/e2e/test_metrics.py:134-248 | At most 50 steps run. The tested count is at most the executed count. Counters exist exactly for the agents of the executed steps, each equal to its reference count, with relevant ≤ total. Each step's detail is its Metrics.StatusOf status. |
| ScenarioQuality.ExtractAgentNameAsWritten | tests/e2e/test_scenario_quality.py:167-192 | As written: None for empty input; any result is one of the five agents. |
| ScenarioQuality.SpecialistKeysExact | tests/e2e/test_scenario_quality.py:178-186 | The only keys giving a non-coordinator agent are the four specialist handler names. |
| ScenarioQuality.SuffixTwice | tests/e2e/test_scenario_quality.py:189-190 | A name whose suffix-free form still ends in a suffix ends in that suffix twice. |
| ScenarioQuality.CutToHandlerKey | tests/e2e/test_scenario_quality.py:189-192 | A name whose suffix-free form is a specialist key ends in "_handler_handler". |
| ScenarioQuality.SpecialistsNeedDoubleSuffix | tests/e2e/test_scenario_quality.py:167-192 | As written, a non-coordinator agent is recognised only in names ending in "_handler_handler". |
| ScenarioQuality.LoweredNameOfKey | tests/e2e/test_scenario_quality.py:172-175 | The table's keys are unchanged by the arrow cut and lowercasing. |
| ScenarioQuality.AssessmentHandlerUnnamed | tests/e2e/test_scenario_quality.py:178-192 | The table maps "assessment_handler" to "assessor", yet as written the helper returns None for it. |
| ScenarioQuality.ExtractAgentName | tests/e2e/test_scenario_quality.py:167-192 | Corrected: the table is consulted on the lowercased name first, then as written. Any result is one of the five agents. |
| ScenarioQuality.HandlerKeysShared | tests/e2e/test_scenario_quality.py:178-186 | The seven keys shared with the accuracy test's table map to the same agents. |
| ScenarioQuality.ExtractAgentNameFollowsTable | tests/e2e/test_scenario_quality.py:178-192 | Corrected, each shared key gives its table agent, which agrees with the accuracy test's normaliser. |
| ScenarioQuality.StartNamedButUnknown | tests/e2e/test_scenario_quality.py:319-324 | "start" is named "coordinator" by the extractor yet is not a valid agent for the content check. |
| ScenarioQuality.AnyContained | tests/e2e/test_scenario_quality.py:324 | `any(valid in s …)` holds exactly when some listed name occurs in s. |
| ScenarioQuality.ValidAgentsAccepted | tests/e2e/test_scenario_quality.py:319-324 | Every listed name is valid, in lower case and in upper case. |
| ScenarioQuality.ValidAgentsLong | tests/e2e/test_scenario_quality.py:319-321 | Every listed name is longer than "start". |
| ScenarioQuality.CheckStep | tests/e2e/test_scenario_quality.py:308-327 | An empty input, an empty agent and an unknown non-empty agent are each reported exactly when they occur. Every issue names the scenario and is sound. |
| ScenarioQuality.StepsIssuesSound | tests/e2e/test_scenario_quality.py:308-327 | Every step issue is sound and names its scenario. |
| ScenarioQuality.ScenarioIssues | tests/e2e/test_scenario_quality.py:294-327 | A scenario without steps and one with empty steps each get exactly their single issue. Every issue is sound. |
| ScenarioQuality.ScenarioIssuesOfSteps | tests/e2e/test_scenario_quality.py:302-327 | A scenario with steps gets exactly its steps' issues, numbered from 1. |
| ScenarioQuality.ValidateScenariosSound | tests/e2e/test_scenario_quality.py:292-327 | Every reported issue is sound. |
| ScenarioQuality.StepIssueReported | tests/e2e/test_scenario_quality.py:294-327 | Every issue of every step is reported. |
| ScenarioQuality.StepProblemsReported | tests/e2e/test_scenario_quality.py:308-327 | A blank input, a blank agent and an unknown agent of any step are reported under that scenario and step number. |
| Text.Strip | bot/handlers/start.py:31 | `str.strip()` returns a slice with no whitespace at either end, no longer than the input. |
| Text.StripIsSlice | agents/reviewer.py:337 | The stripped text is a slice of the input framed by whitespace. |
| Text.StripIdempotent | agents/reviewer.py:359-360 | Stripping twice is stripping once. |
| Text.StripFramed | rag/retriever.py:176 | Stripping removes exactly blank framing. |
| Text.Lower | bot/handlers/review.py:124 | `str.lower()` maps each character and keeps the length. |
| Text.LowerIdempotent | bot/handlers/planning.py:116 | Lowercasing twice is lowercasing once, and it keeps whitespace in place. |
| Text.LowerUpperRoundTrip | tests/e2e/test_scenario_quality.py:323 | Uppercasing a lowercase text and lowercasing it again gives it back. |
| Text.Contains | agents/reviewer.py:208 | `sub in s` holds exactly when sub occurs at some index. |
| Text.Count | bot/handlers/review.py:87 | `str.count` is zero exactly when the substring does not occur. |
| Text.RemoveAllLength | rag/retriever.py:133 | `str.replace(sub, "")` removes exactly Count copies of sub. |
| Text.Take | bot/handlers/review.py:62 | `s[:n]` is a prefix of length min(len, n). |
| Text.BeforeFirst | tests/e2e/test_metrics.py:81 | `split(sep)[0]` is the prefix before the first occurrence of sep, or the whole text. |
| Text.AfterFirst | agents/reviewer.py:215-217 | `split(sep)[1]`, when sep occurs, is the text between its first and second occurrence, so that before + sep + after rebuilds a prefix of the text. |
| Text.Split | agents/reviewer.py:330 | `split(c)` gives at least one part, and no part contains c. |
| Text.JoinSplit | agents/reviewer.py:330 | Joining the split parts with c gives back the text. |
| Text.SplitJoin | agents/reviewer.py:358-359 | Splitting c-free parts joined with c gives back the parts. |
| Text.Words | bot/handlers/start.py:32 | `split()` with no argument gives non-empty, whitespace-free words. |
| Text.WordsEmptyIffBlank | bot/handlers/start.py:32-34 | There are no words exactly when the text strips to empty. |
| Text.WordsOfJoin | bot/handlers/start.py:32 | Words joined with spaces split back into those words. |
| Text.NatToStringRoundTrip | bot/handlers/review.py:77 | Part numbers print as decimal digits that read back as the number. |
| Text.IntToString | bot/handlers/assessment.py:59 | `str(int)` gives at least one character and a leading '-' exactly for negatives. |
| Text.Chunks | bot/handlers/review.py:75 | `[s[i:i+n] for i in range(0, len(s), n)]` gives non-empty parts of at most n, all but the last exactly n, concatenating to s. |

## Left out

* **Oracles.** These calls are parameters of the model: the LLM calls (`chat`, `assess`, `make_plan`, `route`, `start_interview`, `evaluate_answer`, `end_interview`), `json.loads` and the vector-store queries. A call that raises is `None`.
  * Reviewer.Review: the agent's JSON is decoded by a parameter. A missing `similar_solutions` key is modelled as the empty list, which the formatter shows the same way as Python's `None`.
* **`_get_rag_context_for_review`** (agents/reviewer.py:142-191) is not modelled. Its result enters `review` as the parameter `ragContext`, and only its role in choosing the prompt is modelled. It only assembles text from the store.
* Reviewer.ProcessMessage: the outer `except` of `process_message` (agents/reviewer.py:490-492), with its "an error occurred while analysing the code" reply, is not modelled. `review` catches its own failures, and with typed issues and results neither the extraction nor the formatter can raise, so the model has no input that reaches it.
* **`get_quick_feedback`** (agents/reviewer.py:494-509) is not modelled: it is a single LLM call with a fixed fallback string.
* **Databases.** The SQLAlchemy sessions, repositories and `get_or_create_user` are not modelled. A record handed to a repository is an output of the turn, and every repository call is taken to succeed. The handlers treat a database failure in different ways, and none of them is modelled:
  * ReviewFlow.ProcessCodeReview: the save and the session completion sit inside the handler's `try`, so a failure there gives the failure reply and clears the state.
  * General.HandleGeneralMessage: the session and message writes sit inside its `try`, so a failure gives the help text, possibly after the agent's answer was already sent.
  * Planning, Start, Interview and Assessment: a failing database call outside a `try` propagates out of the handler.
* **aiogram plumbing.** Registration, keyboards, parse modes and the `bot/handlers/__init__.py` stubs are not modelled. Neither is `main.py`.
* **Reply texts in contracts.** Reply texts are modelled exactly, but not every contract restates them.
  * Planning.ProcessPlanDetails: its contract states the transitions and what is saved. The details text is described only through ShownTopics, FirstTask, WeekHours and Truncate.
* **Configuration.** `bot/config.py` is not part of this model. `VALID_LEVELS` is the parameter `validLevels` of Start.ProcessLevelTrack.
* **WaitingExperience.** Start.ProcessLevelTrack moves to `AssessmentStates.waiting_experience`, and no handler among the modelled files reacts to that state. The model stops there.
* **Set order.** ExtractKeywordsFromCode returns `list(set(keywords))[:10]`, whose order Python leaves unspecified. The model keeps first-occurrence order, so the contract speaks about membership, distinctness and the count, min(10, number of distinct candidates), not about order.
* **Character classes.** `str.lower`, `str.upper` and `str.isspace` are modelled for ASCII, basic Cyrillic and Python's whitespace characters only. There is no full Unicode case mapping.
* **Summary values.** Interview.ProcessInterviewAnswer reads `end_interview`'s average score as an integer, not a float. Only its printing depends on it.
* **Test reports.** The accuracy percentages, report files and grade bands of the test modules are not modelled (floating point and file I/O). Neither are the mocks.
  * Metrics.ListKeywords: for a float, a list or an object among the expected keywords, Python's `str()` of the value and its truthiness are given with the item (`JOther`) rather than computed, because the model has no floating point or `repr`.
  * Metrics.LoadSteps: when the scenario file is missing or fails to load, the fixture falls back to `_create_demo_steps()` (tests/e2e/test_metrics.py:45-51). The model takes the parsed scenarios as its input, so file access and that fallback list are not modelled.
  * Metrics.CountSteps: the relevance verdict of each step is given as an `Outcome` per run, because it comes from calling the mocked agents.
* **Issue texts.** ScenarioQuality.CheckStep models the issue strings of `test_validate_scenario_content` as an `IssueKind` datatype carrying the step number and the agent, rather than as formatted Russian text.
* Retriever.CheckDatabaseStatus: a metadata entry that is None makes `meta.get` raise inside the `try`, which gives the error status. The model takes the metadata list as a whole, so a caller passes `None` for a list holding a missing entry.
* **Per-user concurrency.** Not modelled; each handler call is one sequential turn.

## Findings

The handler and the step loader follow the code as written: Planning.ProcessPlanDetails saves through Planning.SavedPlanOf, which raises on an empty focus list, and Metrics.LoadSteps normalises with Metrics.NormalizeAgentAsWritten. The corrected members state the evidently intended behaviour beside them, and lemmas relate each pair.

| source | as written | input that shows it | evidently intended | confidence | as-written member | corrected member |
|---|---|---|---|---|---|---|
| bot/handlers/planning.py:167 | `plan_result.get("focus_areas", ["Обучение"])[0]` indexes the stored list; the default applies only when the key is missing | a plan whose `focus_areas` is `[]` (the planner's record always has the key) makes the save raise `IndexError`, uncaught | title "План: Обучение" when there is no focus area | not executed | Planning.SavedTitleAsWritten, Planning.EmptyFocusAreasRaise | Planning.SavedTitle, Planning.SavedTitleAgrees, Planning.CorrectedSavedPlan, Planning.CorrectedSavedPlanAgrees |
| tests/e2e/test_metrics.py:86-105 | `_handler` is removed before the table lookup, so the table's `..._handler` keys are unreachable | "assessment_handler" normalises to "assessment", while the table says "assessor" | the handler names map through the table | not executed | Metrics.NormalizeAgentAsWritten, Metrics.AssessmentHandlerMisnamed, Metrics.AssessmentHandlerStepSkipped | Metrics.NormalizeAgent, Metrics.NormalizeAgentFollowsTable |
| tests/e2e/test_scenario_quality.py:178-192 | the same early suffix cut, with `None` as the default | "assessment_handler" gives `None`; only names ending in "_handler_handler" reach a specialist | each handler name gives its table agent | not executed | ScenarioQuality.ExtractAgentNameAsWritten, ScenarioQuality.AssessmentHandlerUnnamed, ScenarioQuality.SpecialistsNeedDoubleSuffix | ScenarioQuality.ExtractAgentName, ScenarioQuality.ExtractAgentNameFollowsTable |

=== FILE: assessment.dfy ===
/** The quick assessment: `/assess` asks for a description of what the user
    knows, and the next message is scored by the assessor agent. */
module Assessment {
  import opened Wrappers
  import opened Text
  import opened Flow

  /** One handler call: the next state, the replies, and the topics the
      assessor was asked about (empty when it was not called). */
  datatype AssessTurn = AssessTurn(fsm: Fsm, replies: seq<string>, topics: seq<string>)

  const AssessPrompt: string :=
    "<b>📊 Быстрая оценка знаний</b>\n\nОпишите что вы знаете (2-3 предложения):\n\n<b>Пример:</b>\n"
    + "Знаю Python, ООП, работал со списками и словарями, решал задачи на сортировку."

  const AnalysingReply: string := "🔍 Анализирую..."
  const AssessFailedReply: string := "❌ Ошибка при оценке. Попробуйте позже."
  const AssessTopics: seq<string> := ["Python", "Алгоритмы", "Структуры данных"]

  /** `cmd_assess`. */
  function CmdAssess(fsm: Fsm): (t: AssessTurn)
    ensures t.fsm.state == InAssessment && t.fsm.data == fsm.data
    ensures t.replies == [AssessPrompt] && t.topics == []
  {
    AssessTurn(SetState(fsm, InAssessment), [AssessPrompt], [])
  }

  function KnowledgeBaseNote(used: bool): string
  {
    if used then "✅ Использована" else "❌ Не использована"
  }

  /** The scores as bullets, the recommendation, whether the knowledge base was used. */
  function AssessmentReply(r: AssessResult): string
  {
    "\n<b>⚡ Результаты оценки:</b>\n\n" + Join(ScoreBullets(r.scores), "\n") + AssessmentTail(r)
  }

  /** What follows the score lines: the recommendation and the knowledge-base note. */
  function AssessmentTail(r: AssessResult): string
  {
    "\n\n<b>💡 Рекомендация:</b> " + r.followUp + "\n\nБаза знаний: " + (KnowledgeBaseNote(r.contextUsed) + "\n")
  }

  /** `process_assessment`; `result` is the assessor's answer (None when it raises). */
  function ProcessAssessment(fsm: Fsm, result: Option<AssessResult>): (t: AssessTurn)
    ensures t.fsm == ClearedFsm
    ensures t.topics == AssessTopics
    ensures result.Some? ==> t.replies == [AnalysingReply, AssessmentReply(result.value)]
    ensures result.None? ==> t.replies == [AnalysingReply, AssessFailedReply]
  {
    match result
    case Some(r) => AssessTurn(ClearedFsm, [AnalysingReply, AssessmentReply(r)], AssessTopics)
    case None => AssessTurn(ClearedFsm, [AnalysingReply, AssessFailedReply], AssessTopics)
  }

  /** Every score is reported as its own `• skill: score/100` line, and the
      reply ends by saying whether the knowledge base was used. */
  lemma ReplyReportsEveryScore(r: AssessResult)
    ensures forall i :: 0 <= i < |r.scores| ==>
      Contains(AssessmentReply(r), "• " + r.scores[i].0 + ": " + IntToString(r.scores[i].1) + "/100")
    ensures EndsWith(AssessmentReply(r), KnowledgeBaseNote(r.contextUsed) + "\n")
  {
    forall i | 0 <= i < |r.scores|
      ensures Contains(AssessmentReply(r), ScoreBullets(r.scores)[i])
    {
      JoinedPartInContext("\n<b>⚡ Результаты оценки:</b>\n\n", ScoreBullets(r.scores), "\n", AssessmentTail(r), i);
    }
    var note := KnowledgeBaseNote(r.contextUsed) + "\n";
    var s := AssessmentReply(r);
    var t := AssessmentTail(r);
    assert t[|t| - |note|..] == note;
    assert s[|s| - |note|..] == t[|t| - |note|..];
  }
}

=== FILE: collections.dfy ===
/** Insertion-ordered grouping and de-duplication, the way a Python `dict`
    or `list(dict.fromkeys(...))` built in one pass behaves. */
module Collections {
  import opened Wrappers

  /** One entry of an insertion-ordered `dict[K, list[T]]`. */
  datatype Group<K, T> = Group(key: K, members: seq<T>)

  function Map<T, U>(xs: seq<T>, f: T -> U): (ys: seq<U>)
    ensures |ys| == |xs|
    ensures forall i :: 0 <= i < |xs| ==> ys[i] == f(xs[i])
  {
    seq(|xs|, i requires 0 <= i < |xs| => f(xs[i]))
  }

  /** Mapping commutes with dropping the first element. */
  lemma MapTail<T, U>(xs: seq<T>, f: T -> U)
    requires |xs| > 0
    ensures Map(xs, f)[1..] == Map(xs[1..], f)
  {
    assert forall k :: 0 <= k < |xs| - 1 ==> xs[1..][k] == xs[k + 1];
  }

  /** Mapping a list with one more element in front. */
  lemma MapCons<T, U>(x: T, xs: seq<T>, f: T -> U)
    ensures Map([x] + xs, f) == [f(x)] + Map(xs, f)
  {
    var l, r := Map([x] + xs, f), [f(x)] + Map(xs, f);
    forall k | 0 <= k < |l|
      ensures l[k] == r[k]
    {
      if k > 0 {
        assert ([x] + xs)[k] == xs[k - 1];
      }
    }
  }

  /** `list(zip(xs, ys))`: pairs up to the shorter length. */
  function Zip<A, B>(xs: seq<A>, ys: seq<B>): (zs: seq<(A, B)>)
    ensures |zs| == if |xs| <= |ys| then |xs| else |ys|
    ensures forall i :: 0 <= i < |zs| ==> zs[i] == (xs[i], ys[i])
  {
    var n := if |xs| <= |ys| then |xs| else |ys|;
    seq(n, i requires 0 <= i < n => (xs[i], ys[i]))
  }

  /** Zipping two non-empty lists pairs their heads, then zips their tails. */
  lemma ZipCons<A, B>(xs: seq<A>, ys: seq<B>)
    requires |xs| > 0 && |ys| > 0
    ensures Zip(xs, ys) == [(xs[0], ys[0])] + Zip(xs[1..], ys[1..])
  {
    var z, t := Zip(xs, ys), Zip(xs[1..], ys[1..]);
    assert forall k :: 0 <= k < |t| ==> z[k + 1] == t[k];
  }

  /** `[x for x in xs if keep(x)]`. */
  function Where<T>(xs: seq<T>, keep: T -> bool): (ys: seq<T>)
    ensures |ys| <= |xs|
    ensures forall k :: 0 <= k < |ys| ==> keep(ys[k])
    decreases |xs|
  {
    if |xs| == 0 then []
    else (if keep(xs[0]) then [xs[0]] else []) + Where(xs[1..], keep)
  }

  /** What `Where` keeps is exactly the kept elements of `xs`. */
  lemma {:induction false} WhereMembers<T>(xs: seq<T>, keep: T -> bool)
    ensures forall x :: x in Where(xs, keep) <==> x in xs && keep(x)
    decreases |xs|
  {
    if |xs| > 0 {
      WhereMembers(xs[1..], keep);
      assert xs == [xs[0]] + xs[1..];
    }
  }

  /** The elements of `xs` whose key is `k`, in order. */
  function Select<T, K(==)>(xs: seq<T>, key: T -> K, k: K): seq<T>
    decreases |xs|
  {
    if |xs| == 0 then []
    else
      var x := xs[|xs| - 1];
      Select(xs[..|xs| - 1], key, k) + (if key(x) == k then [x] else [])
  }

  /** First occurrences only, in order of first appearance. */
  function Dedup<T(==)>(xs: seq<T>): (d: seq<T>)
    ensures forall i, j :: 0 <= i < j < |d| ==> d[i] != d[j]
    ensures forall i :: 0 <= i < |d| ==> d[i] in xs
    ensures forall i :: 0 <= i < |xs| ==> xs[i] in d
    ensures |d| <= |xs|
    decreases |xs|
  {
    if |xs| == 0 then []
    else
      var d := Dedup(xs[..|xs| - 1]);
      var x := xs[|xs| - 1];
      assert forall i :: 0 <= i < |xs| - 1 ==> xs[i] == xs[..|xs| - 1][i];
      if x in d then d else d + [x]
  }

  function Keys<K, T>(gs: seq<Group<K, T>>): (ks: seq<K>)
    ensures |ks| == |gs|
    ensures forall i :: 0 <= i < |gs| ==> ks[i] == gs[i].key
    decreases |gs|
  {
    if |gs| == 0 then [] else [gs[0].key] + Keys(gs[1..])
  }

  /** `d.setdefault(k, []).append(x)` on an insertion-ordered dict. */
  function AddToGroup<K(==), T>(gs: seq<Group<K, T>>, k: K, x: T): seq<Group<K, T>>
    decreases |gs|
  {
    if |gs| == 0 then [Group(k, [x])]
    else if gs[0].key == k then [gs[0].(members := gs[0].members + [x])] + gs[1..]
    else [gs[0]] + AddToGroup(gs[1..], k, x)
  }

  /** One pass over `xs`, appending each element to the group of its key. */
  function GroupBy<T, K(==)>(xs: seq<T>, key: T -> K): seq<Group<K, T>>
    decreases |xs|
  {
    if |xs| == 0 then []
    else
      var x := xs[|xs| - 1];
      AddToGroup(GroupBy(xs[..|xs| - 1], key), key(x), x)
  }

  function SumSizes<K, T>(gs: seq<Group<K, T>>): nat
    decreases |gs|
  {
    if |gs| == 0 then 0 else |gs[0].members| + SumSizes(gs[1..])
  }

  function Sum(ns: seq<nat>): nat
    decreases |ns|
  {
    if |ns| == 0 then 0 else ns[0] + Sum(ns[1..])
  }

  lemma {:induction false} AddToGroupKeys<K, T>(gs: seq<Group<K, T>>, k: K, x: T)
    ensures Keys(AddToGroup(gs, k, x)) == if k in Keys(gs) then Keys(gs) else Keys(gs) + [k]
    ensures SumSizes(AddToGroup(gs, k, x)) == SumSizes(gs) + 1
    decreases |gs|
  {
    if |gs| > 0 && gs[0].key != k {
      AddToGroupKeys(gs[1..], k, x);
    }
  }

  lemma {:induction false} AddToGroupMembers<K, T>(gs: seq<Group<K, T>>, k: K, x: T)
    requires forall i, j :: 0 <= i < j < |gs| ==> gs[i].key != gs[j].key
    ensures |AddToGroup(gs, k, x)| >= |gs|
    ensures forall i :: 0 <= i < |gs| ==>
              AddToGroup(gs, k, x)[i].members == gs[i].members + (if gs[i].key == k then [x] else [])
    ensures k !in Keys(gs) ==> |AddToGroup(gs, k, x)| == |gs| + 1 && AddToGroup(gs, k, x)[|gs|] == Group(k, [x])
    decreases |gs|
  {
    if |gs| > 0 {
      var gs' := AddToGroup(gs, k, x);
      if gs[0].key != k {
        AddToGroupMembers(gs[1..], k, x);
        assert gs'[1..] == AddToGroup(gs[1..], k, x);
      } else {
        forall i | 1 <= i < |gs|
          ensures gs[i].key != k
        {
          assert gs[0].key != gs[i].key;
        }
      }
    }
  }

  lemma DedupSnoc<T>(xs: seq<T>, x: T)
    ensures Dedup(xs + [x]) == if x in Dedup(xs) then Dedup(xs) else Dedup(xs) + [x]
  {
    assert (xs + [x])[..|xs|] == xs;
  }

  lemma MapSnoc<T, U>(xs: seq<T>, x: T, f: T -> U)
    ensures Map(xs + [x], f) == Map(xs, f) + [f(x)]
  {
  }

  lemma {:induction false} GroupByKeys<T, K>(xs: seq<T>, key: T -> K)
    ensures Keys(GroupBy(xs, key)) == Dedup(Map(xs, key))
    decreases |xs|
  {
    if |xs| > 0 {
      var xs' := xs[..|xs| - 1];
      var x := xs[|xs| - 1];
      assert xs == xs' + [x];
      GroupByKeys(xs', key);
      AddToGroupKeys(GroupBy(xs', key), key(x), x);
      MapSnoc(xs', x, key);
      DedupSnoc(Map(xs', key), key(x));
    }
  }

  lemma {:induction false} GroupBySize<T, K>(xs: seq<T>, key: T -> K)
    ensures SumSizes(GroupBy(xs, key)) == |xs|
    decreases |xs|
  {
    if |xs| > 0 {
      var xs' := xs[..|xs| - 1];
      GroupBySize(xs', key);
      AddToGroupKeys(GroupBy(xs', key), key(xs[|xs| - 1]), xs[|xs| - 1]);
    }
  }

  lemma SelectSnoc<T, K>(xs: seq<T>, x: T, key: T -> K, k: K)
    ensures Select(xs + [x], key, k) == Select(xs, key, k) + (if key(x) == k then [x] else [])
  {
    assert (xs + [x])[..|xs|] == xs;
  }

  lemma KeysOfDedupDistinct<K, T>(gs: seq<Group<K, T>>, ks: seq<K>)
    requires Keys(gs) == Dedup(ks)
    ensures forall i, j :: 0 <= i < j < |gs| ==> gs[i].key != gs[j].key
  {
    forall i, j | 0 <= i < j < |gs|
      ensures gs[i].key != gs[j].key
    {
      assert Keys(gs)[i] == gs[i].key && Keys(gs)[j] == gs[j].key;
    }
  }

  lemma {:induction false} GroupByMembers<T, K>(xs: seq<T>, key: T -> K)
    ensures var gs := GroupBy(xs, key);
      forall i :: 0 <= i < |gs| ==> gs[i].members == Select(xs, key, gs[i].key)
    decreases |xs|
  {
    if |xs| > 0 {
      var xs' := xs[..|xs| - 1];
      var x := xs[|xs| - 1];
      assert xs == xs' + [x];
      GroupByMembers(xs', key);
      GroupByKeys(xs', key);
      GroupBySnocMembers(GroupBy(xs', key), xs', x, key);
      assert GroupBy(xs, key) == AddToGroup(GroupBy(xs', key), key(x), x);
    }
  }

  /** Adding one more element keeps every group equal to its selection. */
  lemma GroupBySnocMembers<T, K>(gs: seq<Group<K, T>>, xs: seq<T>, x: T, key: T -> K)
    requires Keys(gs) == Dedup(Map(xs, key))
    requires forall i :: 0 <= i < |gs| ==> gs[i].members == Select(xs, key, gs[i].key)
    ensures var gs' := AddToGroup(gs, key(x), x);
      forall i :: 0 <= i < |gs'| ==> gs'[i].members == Select(xs + [x], key, gs'[i].key)
  {
    KeysOfDedupDistinct(gs, Map(xs, key));
    var gs' := AddToGroup(gs, key(x), x);
    OldGroupsSelect(gs, xs, x, key);
    AddToGroupKeys(gs, key(x), x);
    assert |gs'| <= |gs| + 1 by {
      assert |Keys(gs')| == |gs'|;
    }
    forall i | 0 <= i < |gs'|
      ensures gs'[i].members == Select(xs + [x], key, gs'[i].key)
    {
      if i == |gs| {
        NewGroupSelect(gs, xs, x, key);
      }
    }
  }

  /** The groups that were there keep being the selections of their keys. */
  lemma OldGroupsSelect<T, K>(gs: seq<Group<K, T>>, xs: seq<T>, x: T, key: T -> K)
    requires forall i, j :: 0 <= i < j < |gs| ==> gs[i].key != gs[j].key
    requires forall i :: 0 <= i < |gs| ==> gs[i].members == Select(xs, key, gs[i].key)
    ensures |AddToGroup(gs, key(x), x)| >= |gs|
    ensures forall i :: 0 <= i < |gs| ==>
      AddToGroup(gs, key(x), x)[i].members == Select(xs + [x], key, AddToGroup(gs, key(x), x)[i].key)
  {
    AddToGroupMembers(gs, key(x), x);
    forall i | 0 <= i < |gs|
      ensures AddToGroup(gs, key(x), x)[i].members == Select(xs + [x], key, AddToGroup(gs, key(x), x)[i].key)
    {
      OldGroupSelect(gs, xs, x, key, i);
    }
  }

  lemma OldGroupSelect<T, K>(gs: seq<Group<K, T>>, xs: seq<T>, x: T, key: T -> K, i: nat)
    requires forall i, j :: 0 <= i < j < |gs| ==> gs[i].key != gs[j].key
    requires i < |gs| && gs[i].members == Select(xs, key, gs[i].key)
    ensures i < |AddToGroup(gs, key(x), x)|
    ensures AddToGroup(gs, key(x), x)[i].members == Select(xs + [x], key, AddToGroup(gs, key(x), x)[i].key)
  {
    var gs' := AddToGroup(gs, key(x), x);
    AddToGroupKeys(gs, key(x), x);
    AddToGroupMembers(gs, key(x), x);
    assert gs'[i].key == gs[i].key by {
      assert Keys(gs')[i] == Keys(gs)[i];
    }
    SelectSnoc(xs, x, key, gs[i].key);
  }

  lemma NewGroupSelect<T, K>(gs: seq<Group<K, T>>, xs: seq<T>, x: T, key: T -> K)
    requires Keys(gs) == Dedup(Map(xs, key))
    requires forall i, j :: 0 <= i < j < |gs| ==> gs[i].key != gs[j].key
    requires |gs| < |AddToGroup(gs, key(x), x)|
    ensures AddToGroup(gs, key(x), x)[|gs|] == Group(key(x), [x])
    ensures [x] == Select(xs + [x], key, key(x))
  {
    AddToGroupKeys(gs, key(x), x);
    assert key(x) !in Keys(gs) by {
      assert |Keys(AddToGroup(gs, key(x), x))| > |Keys(gs)|;
    }
    AddToGroupMembers(gs, key(x), x);
    SelectSnoc(xs, x, key, key(x));
    SelectAbsent(xs, key, key(x));
  }

  /** Grouping is exact: the keys are the distinct keys of `xs` in order of
      first appearance, every group holds precisely the elements with its
      key in their original order, and together the groups hold every element once. */
  lemma GroupByCorrect<T, K>(xs: seq<T>, key: T -> K)
    ensures var gs := GroupBy(xs, key);
      && Keys(gs) == Dedup(Map(xs, key))
      && (forall i, j :: 0 <= i < j < |gs| ==> gs[i].key != gs[j].key)
      && (forall i :: 0 <= i < |gs| ==> gs[i].members == Select(xs, key, gs[i].key))
      && (forall i :: 0 <= i < |gs| ==> |gs[i].members| > 0)
      && SumSizes(gs) == |xs|
  {
    GroupByKeys(xs, key);
    GroupBySize(xs, key);
    GroupByMembers(xs, key);
    GroupsNonEmpty(xs, key);
  }

  /** No group is empty: every key comes from some element, which it holds. */
  lemma GroupsNonEmpty<T, K>(xs: seq<T>, key: T -> K)
    ensures forall i :: 0 <= i < |GroupBy(xs, key)| ==> |GroupBy(xs, key)[i].members| > 0
  {
    var gs := GroupBy(xs, key);
    GroupByKeys(xs, key);
    GroupByMembers(xs, key);
    forall i | 0 <= i < |gs|
      ensures |gs[i].members| > 0
    {
      assert gs[i].key in Map(xs, key) by { assert Keys(gs)[i] == gs[i].key; }
      var j :| 0 <= j < |xs| && key(xs[j]) == gs[i].key;
      SelectPresent(xs, key, j);
    }
  }

  lemma {:induction false} SelectPresent<T, K>(xs: seq<T>, key: T -> K, j: nat)
    requires j < |xs|
    ensures |Select(xs, key, key(xs[j]))| > 0
    decreases |xs|
  {
    if j < |xs| - 1 {
      SelectPresent(xs[..|xs| - 1], key, j);
    }
  }

  lemma {:induction false} SelectAbsent<T, K>(xs: seq<T>, key: T -> K, k: K)
    requires k !in Dedup(Map(xs, key))
    ensures Select(xs, key, k) == []
    decreases |xs|
  {
    if |xs| > 0 {
      var xs' := xs[..|xs| - 1];
      assert Map(xs, key) == Map(xs', key) + [key(xs[|xs| - 1])];
      assert key(xs[|xs| - 1]) in Map(xs, key);
      assert forall y :: y in Map(xs', key) ==> y in Map(xs, key);
      SelectAbsent(xs', key, k);
    }
  }

  /** The concatenation of `f(n, xs[0])`, `f(n + 1, xs[1])`, ...: a loop
      over `enumerate(xs, n)` that appends each element's items to one list. */
  function FlatMapFrom<T, U>(xs: seq<T>, n: nat, f: (nat, T) -> seq<U>): seq<U>
    decreases |xs|
  {
    if |xs| == 0 then [] else f(n, xs[0]) + FlatMapFrom(xs[1..], n + 1, f)
  }

  /** An item is in the concatenation exactly when some element gives it. */
  lemma {:induction false} FlatMapFromMembers<T, U>(xs: seq<T>, n: nat, f: (nat, T) -> seq<U>, y: U)
    ensures y in FlatMapFrom(xs, n, f) <==> exists j :: 0 <= j < |xs| && y in f(n + j, xs[j])
    decreases |xs|
  {
    if |xs| > 0 {
      FlatMapFromMembers(xs[1..], n + 1, f, y);
      if j :| 0 <= j < |xs| - 1 && y in f(n + 1 + j, xs[1..][j]) {
        assert xs[1..][j] == xs[j + 1];
        assert y in f(n + (j + 1), xs[j + 1]);
      }
      if j :| 0 <= j < |xs| && y in f(n + j, xs[j]) {
        if j > 0 {
          assert xs[j] == xs[1..][j - 1];
          assert y in f(n + 1 + (j - 1), xs[1..][j - 1]);
        }
      }
    }
  }

  /** What the `j`-th element gives is part of the whole. */
  lemma FlatMapFromIncludes<T, U>(xs: seq<T>, n: nat, f: (nat, T) -> seq<U>, j: nat, y: U)
    requires j < |xs| && y in f(n + j, xs[j])
    ensures y in FlatMapFrom(xs, n, f)
  {
    FlatMapFromMembers(xs, n, f, y);
  }

  /** `xs[:n]`. */
  function TakeSeq<T>(xs: seq<T>, n: nat): (ys: seq<T>)
    ensures |ys| == if |xs| <= n then |xs| else n
    ensures ys == xs[..|ys|]
  {
    if |xs| <= n then xs else xs[..n]
  }

  /** The first `n` distinct elements of `xs`: as many as there are, up to
      `n`; distinct, drawn from `xs`, and all of `xs` when it has no more than
      `n` distinct elements. */
  lemma TakeDedup<T>(xs: seq<T>, n: nat)
    ensures var ys := TakeSeq(Dedup(xs), n);
      && |ys| == (if |Dedup(xs)| <= n then |Dedup(xs)| else n)
      && (forall i, j :: 0 <= i < j < |ys| ==> ys[i] != ys[j])
      && (forall i :: 0 <= i < |ys| ==> ys[i] in xs)
      && (|Dedup(xs)| <= n ==> forall x :: x in xs ==> x in ys)
  {
    var d := Dedup(xs);
    var ys := TakeSeq(d, n);
    assert forall i :: 0 <= i < |ys| ==> ys[i] == d[i];
  }

  /** `d.get(k)` on a dict literal written as its (key, value) pairs. */
  function Lookup<K(==), V>(table: seq<(K, V)>, k: K): (r: Option<V>)
    ensures r.None? <==> forall i :: 0 <= i < |table| ==> table[i].0 != k
    ensures r.Some? ==> exists i :: 0 <= i < |table| && table[i] == (k, r.value)
                                    && forall j :: 0 <= j < i ==> table[j].0 != k
    decreases |table|
  {
    if |table| == 0 then None
    else if table[0].0 == k then Some(table[0].1)
    else
      var r := Lookup(table[1..], k);
      LookupShift(table, k, r);
      r
  }

  lemma LookupShift<K, V>(table: seq<(K, V)>, k: K, r: Option<V>)
    requires |table| > 0 && table[0].0 != k
    requires r.Some? ==> exists i :: 0 <= i < |table| - 1 && table[1..][i] == (k, r.value)
                                     && forall j :: 0 <= j < i ==> table[1..][j].0 != k
    ensures r.Some? ==> exists i :: 0 <= i < |table| && table[i] == (k, r.value)
                                    && forall j :: 0 <= j < i ==> table[j].0 != k
  {
    if r.Some? {
      var i :| 0 <= i < |table| - 1 && table[1..][i] == (k, r.value)
               && forall j :: 0 <= j < i ==> table[1..][j].0 != k;
      assert table[i + 1] == (k, r.value);
      assert forall j :: 1 <= j < i + 1 ==> table[j] == table[1..][j - 1];
    }
  }

}

=== FILE: flow.dfy ===
/** The per-chat dialogue state kept by the bot framework: the current
    state of the conversation and the data dictionary stored next to it.
    Each handler is a pure function from this state (plus the user's text and
    the outcome of the agent it calls) to the next state and its effects. */
module Flow {
  import opened Wrappers
  import opened Text

  /** Every state a handler sets, plus `Cleared` (no state). */
  datatype FlowState =
    | Cleared
    | WaitingGoal | CreatingPlan              // planning
    | WaitingCode | AnalyzingCode             // code review
    | InInterview                             // interview
    | WaitingExperience | InAssessment        // assessment
    | WaitingLevelTrack                       // start

  /** One week of a generated plan, as stored in the data dictionary. */
  datatype Week = Week(number: int, title: string, topics: seq<string>, tasks: seq<string>, hours: Option<int>)

  /** A generated plan as stored (`plan_result.dict()`); a key may be missing. */
  datatype Plan = Plan(totalWeeks: Option<int>, totalHours: int, focusAreas: Option<seq<string>>,
                       summary: Option<string>, weeks: Option<seq<Week>>, ragUsed: bool)

  /** One stored interview question. */
  datatype StoredQuestion = StoredQuestion(question: Option<string>)

  /** The data dictionary; `None` is a key that was never written. */
  datatype FlowData = FlowData(
    planResult: Option<Plan>, planSessionId: Option<int>,
    interviewSessionId: Option<int>, currentQuestion: Option<int>, totalQuestions: Option<int>,
    interviewQuestions: Option<seq<StoredQuestion>>,
    level: Option<string>, track: Option<string>, sessionId: Option<int>)

  const EmptyData: FlowData := FlowData(None, None, None, None, None, None, None, None, None)

  /** The state together with its data. */
  datatype Fsm = Fsm(state: FlowState, data: FlowData)

  /** `state.clear()`: no state and an empty data dictionary. */
  const ClearedFsm: Fsm := Fsm(Cleared, EmptyData)

  /** `state.set_state(s)`: the data is kept. */
  function SetState(fsm: Fsm, s: FlowState): (r: Fsm)
    ensures r.state == s && r.data == fsm.data
  {
    fsm.(state := s)
  }

  /** What the assessor agent returns: per-skill scores in order, a
      recommendation, and whether the knowledge base was used. */
  datatype AssessResult = AssessResult(scores: seq<(string, int)>, followUp: string, contextUsed: bool)

  /** One bullet per scored skill: `• skill: score/100`. */
  function ScoreBullets(scores: seq<(string, int)>): (ls: seq<string>)
    ensures |ls| == |scores|
    ensures forall i :: 0 <= i < |scores| ==> ls[i] == "• " + scores[i].0 + ": " + IntToString(scores[i].1) + "/100"
  {
    seq(|scores|, i requires 0 <= i < |scores| => "• " + scores[i].0 + ": " + IntToString(scores[i].1) + "/100")
  }

  /** `[f'• {x}' for x in items]`. */
  function DotList(items: seq<string>): (ls: seq<string>)
    ensures |ls| == |items|
    ensures forall i :: 0 <= i < |items| ==> ls[i] == "• " + items[i]
  {
    seq(|items|, i requires 0 <= i < |items| => "• " + items[i])
  }

  /** A text is truthy in Python when it is not empty. */
  predicate Truthy(s: Option<string>)
  {
    s.Some? && |s.value| > 0
  }
}

=== FILE: general.dfy ===
/** Free text outside any dialogue: the coordinator picks an agent and the
    bot answers with that agent's hint (or, for the assessor, a quick
    assessment). The coordinator, the assessor and the database are oracles. */
module General {
  import opened Wrappers
  import opened Text
  import opened Flow

  /** The coordinator's extra fields; `None` is a missing key. */
  datatype RouteMeta = RouteMeta(suggestedTopics: Option<seq<string>>, primaryTopic: Option<string>)

  /** The coordinator's decision; `metadata` is `None` when the result has no
      such attribute, so reading it raises. */
  datatype RouteResult = RouteResult(agent: string, context: string, metadata: Option<RouteMeta>)

  /** A message stored with the session: its role and its content. */
  datatype StoredMessage = StoredMessage(role: string, content: string)

  /** One call of the handler: the replies, the session opened (its agent and
      topic), the messages stored with it, whether it was completed, and the
      topics the assessor was asked about (None when it was not called). */
  datatype GeneralTurn = GeneralTurn(replies: seq<string>, session: Option<(string, string)>,
                                     stored: seq<StoredMessage>, completed: bool,
                                     assessed: Option<seq<string>>)

  const HelpReply: string :=
    "🤔 Пока не понял запрос.\n\nПопробуйте использовать команды:\n• /begin - начать подготовку\n"
    + "• /assess - оценить знания\n• /interview - пройти собеседование\n• /plan - создать план обучения\n"
    + "• /review - проверить код"

  const DefaultTopics: seq<string> := ["Программирование", "Алгоритмы"]
  const DefaultInterviewTopic: string := "Расскажите о вашем опыте"

  function QuickAssessmentText(r: AssessResult): string
  {
    "\n⚡ *Быстрая оценка*\n\n📊 *Результаты:*\n" + Join(ScoreBullets(r.scores), "\n") + QuickAssessmentTail(r)
  }

  /** What follows the score lines: the recommendation and the knowledge-base note. */
  function QuickAssessmentTail(r: AssessResult): string
  {
    "\n\n💡 *Рекомендация:* " + r.followUp
    + "\n\nБаза знаний: " + (if r.contextUsed then "✅ Использована" else "❌ Не использована") + "\n"
  }

  /** The interviewer hint: the context, `/interview`, and a question to answer. */
  function InterviewerText(context: string, topic: string): string
  {
    ("\n💬 *Координатор определил: нужна практика собеседования*\n\n📝 *Контекст:* " + context + "\n\n*Используйте* ")
    + "/interview"
    + (" *для полноценного собеседования*\n\n*Или ответьте на этот вопрос:*\n«" + topic + "»\n")
  }

  /** The planner hint: the context, `/plan`, and what to describe instead. */
  function PlannerText(context: string): string
  {
    ("\n🗓️ *Координатор определил: нужен план обучения*\n\n📝 *Контекст:* " + context + "\n\n*Используйте* ")
    + "/plan"
    + (" *для создания персонализированного плана*\n\n*Или опишите подробнее:*\n"
       + "1. Что вы хотите изучить?\n2. На каком вы сейчас уровне?\n3. Сколько времени готовы уделять?\n")
  }

  /** The reviewer hint: `/review`, or send the code as text. */
  const ReviewerText: string :=
    "\n🔍 *Координатор определил: нужен анализ кода*\n\n*Используйте* "
    + "/review"
    + " *для code review*\n\n\n*Или просто отправьте код текстом.*\n"

  function OtherAgentText(agent: string, context: string): string
  {
    "\n🤖 *Координатор выбрал:* " + agent + "\n📝 *Контекст:* " + context
    + "\n\n*Для конкретных действий используйте команды:*\n/assess - оценка знаний\n"
    + "/interview - собеседование  \n/plan - план обучения\n/review - анализ кода\n"
  }

  /** The topics the assessor is asked about, when the metadata can be read. */
  function AssessorTopics(rr: RouteResult): (ts: Option<seq<string>>)
    ensures ts.Some? <==> rr.agent == "ASSESSOR" && rr.metadata.Some?
    ensures ts.Some? && rr.metadata.value.suggestedTopics.None? ==> ts.value == DefaultTopics
  {
    if rr.agent == "ASSESSOR" && rr.metadata.Some? then Some(rr.metadata.value.suggestedTopics.GetOr(DefaultTopics))
    else None
  }

  /** The answer for the chosen agent; `None` when building it raises. */
  function AgentResponse(rr: RouteResult, assess: Option<AssessResult>): Option<string>
  {
    if rr.agent == "ASSESSOR" then
      if rr.metadata.None? || assess.None? then None else Some(QuickAssessmentText(assess.value))
    else if rr.agent == "INTERVIEWER" then
      if rr.metadata.None? then None
      else Some(InterviewerText(rr.context, rr.metadata.value.primaryTopic.GetOr(DefaultInterviewTopic)))
    else if rr.agent == "PLANNER" then Some(PlannerText(rr.context))
    else if rr.agent == "REVIEWER" then Some(ReviewerText)
    else Some(OtherAgentText(rr.agent, rr.context))
  }

  /** `handle_general_message`; `route` is the coordinator's decision and
      `assess` the assessor's answer (None when the call raises). */
  function HandleGeneralMessage(message: string, route: Option<RouteResult>, assess: Option<AssessResult>): (t: GeneralTurn)
    ensures StartsWith(message, "/") ==> t == GeneralTurn([], None, [], false, None)
    ensures !StartsWith(message, "/") ==> |t.replies| == 1
    ensures t.session.Some? <==> !StartsWith(message, "/") && route.Some?
    ensures t.session.Some? ==> t.session.value == (Lower(route.value.agent), Take(route.value.context, 50))
    ensures t.assessed.Some? <==> !StartsWith(message, "/") && route.Some? && AssessorTopics(route.value).Some?
    ensures t.assessed.Some? ==> t.assessed == AssessorTopics(route.value)
    ensures t.completed <==> t.session.Some? && AgentResponse(route.value, assess).Some?
    ensures t.completed ==> && t.replies == [AgentResponse(route.value, assess).value]
                            && t.stored == [StoredMessage("user", message), StoredMessage("assistant", Take(t.replies[0], 500))]
    ensures !StartsWith(message, "/") && !t.completed ==> t.replies == [HelpReply]
  {
    if StartsWith(message, "/") then GeneralTurn([], None, [], false, None)
    else match route
      case None => GeneralTurn([HelpReply], None, [], false, None)
      case Some(rr) =>
        var session := Some((Lower(rr.agent), Take(rr.context, 50)));
        var asked := StoredMessage("user", message);
        match AgentResponse(rr, assess)
        case Some(response) =>
          GeneralTurn([response], session, [asked, StoredMessage("assistant", Take(response, 500))], true, AssessorTopics(rr))
        case None => GeneralTurn([HelpReply], session, [asked], false, AssessorTopics(rr))
  }

  lemma InterviewerTextNamesCommand(context: string, topic: string)
    ensures Contains(InterviewerText(context, topic), "/interview")
  {
    ContainsMiddle(
      "\n💬 *Координатор определил: нужна практика собеседования*\n\n📝 *Контекст:* " + context + "\n\n*Используйте* ",
      "/interview",
      " *для полноценного собеседования*\n\n*Или ответьте на этот вопрос:*\n«" + topic + "»\n");
  }

  lemma PlannerTextNamesCommand(context: string)
    ensures Contains(PlannerText(context), "/plan")
  {
    ContainsMiddle(
      "\n🗓️ *Координатор определил: нужен план обучения*\n\n📝 *Контекст:* " + context + "\n\n*Используйте* ",
      "/plan",
      " *для создания персонализированного плана*\n\n*Или опишите подробнее:*\n"
      + "1. Что вы хотите изучить?\n2. На каком вы сейчас уровне?\n3. Сколько времени готовы уделять?\n");
  }

  lemma ReviewerTextNamesCommand()
    ensures Contains(ReviewerText, "/review")
  {
    ContainsMiddle("\n🔍 *Координатор определил: нужен анализ кода*\n\n*Используйте* ", "/review",
                   " *для code review*\n\n\n*Или просто отправьте код текстом.*\n");
  }

  lemma InterviewerRoute(rr: RouteResult, assess: Option<AssessResult>)
    requires rr.agent == "INTERVIEWER" && rr.metadata.Some?
    ensures AgentResponse(rr, assess) == Some(InterviewerText(rr.context, rr.metadata.value.primaryTopic.GetOr(DefaultInterviewTopic)))
  {
    assert rr.agent != "ASSESSOR" by { assert rr.agent[0] == 'I'; }
  }

  lemma PlannerRoute(rr: RouteResult, assess: Option<AssessResult>)
    requires rr.agent == "PLANNER"
    ensures AgentResponse(rr, assess) == Some(PlannerText(rr.context))
  {
    assert rr.agent != "ASSESSOR" && rr.agent != "INTERVIEWER" by { assert rr.agent[0] == 'P'; }
  }

  lemma ReviewerRoute(rr: RouteResult, assess: Option<AssessResult>)
    requires rr.agent == "REVIEWER"
    ensures AgentResponse(rr, assess) == Some(ReviewerText)
  {
    assert rr.agent != "ASSESSOR" && rr.agent != "INTERVIEWER" && rr.agent != "PLANNER" by { assert rr.agent[0] == 'R'; }
  }

  /** Routed to the interviewer, the reply is the interviewer hint, which
      names `/interview`. */
  lemma InterviewerReplyNamesCommand(rr: RouteResult, assess: Option<AssessResult>)
    requires rr.agent == "INTERVIEWER" && rr.metadata.Some?
    ensures var topic := rr.metadata.value.primaryTopic.GetOr(DefaultInterviewTopic);
      && AgentResponse(rr, assess) == Some(InterviewerText(rr.context, topic))
      && Contains(InterviewerText(rr.context, topic), "/interview")
  {
    InterviewerRoute(rr, assess);
    InterviewerTextNamesCommand(rr.context, rr.metadata.value.primaryTopic.GetOr(DefaultInterviewTopic));
  }

  /** Routed to the planner, the reply is the planner hint, which names `/plan`. */
  lemma PlannerReplyNamesCommand(rr: RouteResult, assess: Option<AssessResult>)
    requires rr.agent == "PLANNER"
    ensures AgentResponse(rr, assess) == Some(PlannerText(rr.context))
    ensures Contains(PlannerText(rr.context), "/plan")
  {
    PlannerRoute(rr, assess);
    PlannerTextNamesCommand(rr.context);
  }

  /** Routed to the reviewer, the reply is the reviewer hint, which names `/review`. */
  lemma ReviewerReplyNamesCommand(rr: RouteResult, assess: Option<AssessResult>)
    requires rr.agent == "REVIEWER"
    ensures AgentResponse(rr, assess) == Some(ReviewerText) && Contains(ReviewerText, "/review")
  {
    ReviewerRoute(rr, assess);
    ReviewerTextNamesCommand();
  }

  /** The quick assessment reports every score on its own bullet line. */
  lemma QuickAssessmentReportsEveryScore(r: AssessResult, i: nat)
    requires i < |r.scores|
    ensures Contains(QuickAssessmentText(r), ScoreBullets(r.scores)[i])
  {
    JoinedPartInContext("\n⚡ *Быстрая оценка*\n\n📊 *Результаты:*\n", ScoreBullets(r.scores), "\n", QuickAssessmentTail(r), i);
  }
}

=== FILE: interview.dfy ===
/** The mock interview: `/interview` asks the interviewer agent for
    questions, then every answer is scored and followed by the next question
    until the last one, after which the interview is summarised and the
    dialogue ends. The interviewer agent and the database are oracles. */
module Interview {
  import opened Wrappers
  import opened Text
  import opened Collections
  import opened Flow

  /** One generated question. */
  datatype Question = Question(question: string, expectedConcepts: seq<string>)

  /** What `start_interview` did: raised, or returned (no session or no
      questions are both an empty list). */
  datatype StartOutcome = StartRaised | StartReturned(questions: seq<Question>)

  /** `evaluate_answer`'s result. */
  datatype Score = Score(score: int, comment: string)

  /** `end_interview`'s summary dictionary; `None` is a missing key. */
  datatype Summary = Summary(totalQuestions: Option<int>, averageScore: Option<int>,
                             performanceLevel: Option<string>, strongPoints: Option<seq<string>>)

  /** One handler call: the next state, the replies in order, and which
      interviewer calls were made. */
  datatype InterviewTurn = InterviewTurn(fsm: Fsm, replies: seq<string>, evaluated: bool, ended: bool)

  const GeneratingReply: string := "🔍 Генерирую вопросы..."
  const NoQuestionsReply: string := "❌ Не удалось сгенерировать вопросы"
  const StartFailedReply: string := "❌ Ошибка запуска собеседования"
  const NoSessionReply: string := "❌ Сессия не найдена"
  const EvaluatingReply: string := "📊 Оцениваю ответ..."
  const EvaluationFailedReply: string := "❌ Ошибка оценки"
  const NextStepsReply: string := "Используйте /plan, /assess или /interview"
  const DefaultQuestion: string := "Продолжим?"

  function TitleReply(track: string): string
  {
    "🎙 *Собеседование по " + track + "*"
  }

  /** The first question, with at most three key concepts. */
  function FirstQuestionText(q: Question, total: nat): string
  {
    "\n📝 *Вопрос 1 из " + NatToString(total) + "*\n\n❓ *" + q.question + "*\n\n💡 *Ключевые концепции:*\n"
    + Join(DotList(TakeSeq(q.expectedConcepts, 3)), "\n") + "\n"
  }

  function StoredOf(qs: seq<Question>): (ss: seq<StoredQuestion>)
    ensures |ss| == |qs|
    ensures forall i :: 0 <= i < |qs| ==> ss[i].question == Some(qs[i].question)
  {
    seq(|qs|, i requires 0 <= i < |qs| => StoredQuestion(Some(qs[i].question)))
  }

  /** The data `cmd_interview` writes before it asks for questions. */
  function StartedData(d: FlowData, sessionId: int): FlowData
  {
    d.(interviewSessionId := Some(sessionId), currentQuestion := Some(0), totalQuestions := Some(3))
  }

  /** `cmd_interview`; `sessionId` is the new session's id. */
  function CmdInterview(fsm: Fsm, sessionId: int, track: string, start: StartOutcome): (t: InterviewTurn)
    ensures |t.replies| == 3 && t.replies[..2] == [TitleReply(track), GeneratingReply]
    ensures start.StartReturned? && |start.questions| > 0 ==>
      && t.fsm.state == InInterview
      && t.fsm.data.interviewSessionId == Some(sessionId)
      && t.fsm.data.currentQuestion == Some(0)
      && t.fsm.data.totalQuestions == Some(3)
      && t.fsm.data.interviewQuestions == Some(StoredOf(start.questions))
      && t.replies[2] == FirstQuestionText(start.questions[0], |start.questions|)
    ensures start.StartRaised? ==> t.fsm == ClearedFsm && t.replies[2] == StartFailedReply
    ensures start.StartReturned? && |start.questions| == 0 ==> t.fsm == ClearedFsm && t.replies[2] == NoQuestionsReply
    ensures !t.evaluated && !t.ended
  {
    var started := Fsm(InInterview, StartedData(fsm.data, sessionId));
    var opening := [TitleReply(track), GeneratingReply];
    match start
    case StartRaised => InterviewTurn(ClearedFsm, opening + [StartFailedReply], false, false)
    case StartReturned(qs) =>
      if |qs| > 0 then
        InterviewTurn(started.(data := started.data.(interviewQuestions := Some(StoredOf(qs)))),
                      opening + [FirstQuestionText(qs[0], |qs|)], false, false)
      else InterviewTurn(ClearedFsm, opening + [NoQuestionsReply], false, false)
  }

  function FeedbackText(s: Score): string
  {
    "\n✅ *Оценка:* " + IntToString(s.score) + "/100\n\n📝 *Комментарий:*\n" + s.comment + "\n"
  }

  function NextQuestionText(number: int, total: nat, question: string): string
  {
    "📝 *Вопрос " + IntToString(number) + " из " + NatToString(total) + "*\n\n❓ *" + question + "*"
  }

  /** The closing summary, with at most two strong points. */
  function SummaryText(sm: Summary): string
  {
    "\n🎉 *Собеседование завершено!*\n\n📊 *Итоги:*\n• Вопросов: " + IntToString(sm.totalQuestions.GetOr(0))
    + "\n• Средний балл: " + IntToString(sm.averageScore.GetOr(0))
    + "/100\n• Уровень: " + sm.performanceLevel.GetOr("Нормально")
    + "\n\n💪 *Сильные стороны:*\n" + Join(DotList(TakeSeq(sm.strongPoints.GetOr([]), 2)), "\n") + "\n"
  }

  /** Python's `xs[i]`: a negative index counts from the end, and an index
      out of range raises (`None`). */
  function PyIndex<T>(xs: seq<T>, i: int): (r: Option<T>)
    ensures r.Some? <==> -|xs| <= i < |xs|
    ensures 0 <= i < |xs| ==> r == Some(xs[i])
  {
    if 0 <= i < |xs| then Some(xs[i])
    else if -|xs| <= i < 0 then Some(xs[|xs| + i])
    else None
  }

  /** Whether the data describes an interview in progress: a session id
      that is not 0 and at least one question. */
  predicate HasSession(d: FlowData)
  {
    && d.interviewSessionId.Some? && d.interviewSessionId.value != 0
    && |d.interviewQuestions.GetOr([])| > 0
  }

  /** Where an answer leaves the dialogue: on the next question while one
      remains, cleared otherwise or when the evaluation failed. */
  function AnswerState(fsm: Fsm, evaluation: Option<Score>): Fsm
  {
    var questions := fsm.data.interviewQuestions.GetOr([]);
    var next := fsm.data.currentQuestion.GetOr(0) + 1;
    if !HasSession(fsm.data) || evaluation.None? then ClearedFsm
    else if -|questions| <= next < |questions| then fsm.(data := fsm.data.(currentQuestion := Some(next)))
    else ClearedFsm
  }

  /** `process_interview_answer`; `evaluation` and `summary` are the
      agent's results (None when the call raises). */
  function ProcessInterviewAnswer(fsm: Fsm, evaluation: Option<Score>, summary: Option<Summary>): (t: InterviewTurn)
    ensures !HasSession(fsm.data) ==> t == InterviewTurn(ClearedFsm, [NoSessionReply], false, false)
    ensures HasSession(fsm.data) ==> t.evaluated && |t.replies| >= 2 && t.replies[0] == EvaluatingReply
    ensures HasSession(fsm.data) && evaluation.None? ==>
      t.fsm == ClearedFsm && !t.ended && t.replies == [EvaluatingReply, EvaluationFailedReply]
    ensures HasSession(fsm.data) && evaluation.Some? ==> t.replies[1] == FeedbackText(evaluation.value)
    ensures t.ended ==> (&& HasSession(fsm.data) && evaluation.Some?
                         && fsm.data.currentQuestion.GetOr(0) + 1 >= |fsm.data.interviewQuestions.GetOr([])|)
    ensures HasSession(fsm.data) && evaluation.Some?
            && -|fsm.data.interviewQuestions.value| <= fsm.data.currentQuestion.GetOr(0) + 1 < |fsm.data.interviewQuestions.value| ==>
              && !t.ended
              && t.fsm == fsm.(data := fsm.data.(currentQuestion := Some(fsm.data.currentQuestion.GetOr(0) + 1)))
    ensures HasSession(fsm.data) && evaluation.Some?
            && fsm.data.currentQuestion.GetOr(0) + 1 >= |fsm.data.interviewQuestions.value| ==>
              t.ended && t.fsm == ClearedFsm
    ensures t.fsm == AnswerState(fsm, evaluation)
    ensures t.fsm != ClearedFsm ==> && HasSession(fsm.data) && evaluation.Some?
                                    && t.fsm.state == fsm.state
                                    && t.fsm.data == fsm.data.(currentQuestion := Some(fsm.data.currentQuestion.GetOr(0) + 1))
  {
    var questions := fsm.data.interviewQuestions.GetOr([]);
    if !HasSession(fsm.data) then InterviewTurn(ClearedFsm, [NoSessionReply], false, false)
    else match evaluation
      case None => InterviewTurn(ClearedFsm, [EvaluatingReply, EvaluationFailedReply], true, false)
      case Some(s) =>
        var scored := [EvaluatingReply, FeedbackText(s)];
        var next := fsm.data.currentQuestion.GetOr(0) + 1;
        if next < |questions| then
          match PyIndex(questions, next)
          case Some(q) =>
            InterviewTurn(fsm.(data := fsm.data.(currentQuestion := Some(next))),
                          scored + [NextQuestionText(next + 1, |questions|, q.question.GetOr(DefaultQuestion))], true, false)
          case None => InterviewTurn(ClearedFsm, scored + [EvaluationFailedReply], true, false)
        else match summary
          case Some(sm) => InterviewTurn(ClearedFsm, scored + [SummaryText(sm), NextStepsReply], true, true)
          case None => InterviewTurn(ClearedFsm, scored + [EvaluationFailedReply], true, true)
  }

  /** The state after `k` answers in a row, each scored `s`. */
  function AnswerMany(fsm: Fsm, k: nat, s: Score): Fsm
    decreases k
  {
    if k == 0 then fsm else AnswerState(AnswerMany(fsm, k - 1, s), Some(s))
  }

  lemma AnswerManyStep(fsm: Fsm, k: nat, s: Score)
    requires k > 0
    ensures AnswerMany(fsm, k, s) == AnswerState(AnswerMany(fsm, k - 1, s), Some(s))
  {
  }

  /** Before the last answer, each answer moves to the next question and
      touches nothing else. */
  lemma {:induction false} AnswersAdvance(fsm: Fsm, k: nat, s: Score)
    requires HasSession(fsm.data) && fsm.data.currentQuestion == Some(0)
    requires k < |fsm.data.interviewQuestions.value|
    ensures AnswerMany(fsm, k, s) == fsm.(data := fsm.data.(currentQuestion := Some(k)))
  {
    if k > 0 {
      AnswersAdvance(fsm, k - 1, s);
      var prev := AnswerMany(fsm, k - 1, s);
      assert prev.data.interviewQuestions == fsm.data.interviewQuestions;
      assert HasSession(prev.data) && prev.data.currentQuestion.GetOr(0) + 1 == k;
      AnswerManyStep(fsm, k, s);
    }
  }

  /** The last answer clears the dialogue. */
  lemma LastAnswerClears(fsm: Fsm, s: Score)
    requires HasSession(fsm.data) && fsm.data.currentQuestion == Some(0)
    ensures var n := |fsm.data.interviewQuestions.value|;
      && AnswerMany(fsm, n - 1, s).data.currentQuestion == Some(n - 1)
      && AnswerMany(fsm, n, s) == ClearedFsm
  {
    var n := |fsm.data.interviewQuestions.value|;
    AnswersAdvance(fsm, n - 1, s);
    AnswerManyStep(fsm, n, s);
  }

  /** An answer before the last one does not ask for the summary. */
  lemma EarlyAnswerContinues(fsm: Fsm, k: nat, s: Score, sm: Summary)
    requires HasSession(fsm.data) && fsm.data.currentQuestion == Some(0)
    requires k < |fsm.data.interviewQuestions.value| - 1
    ensures !ProcessInterviewAnswer(AnswerMany(fsm, k, s), Some(s), Some(sm)).ended
  {
    AnswersAdvance(fsm, k, s);
  }

  /** The last answer asks for the summary. */
  lemma LastAnswerSummarises(fsm: Fsm, s: Score, sm: Summary)
    requires HasSession(fsm.data) && fsm.data.currentQuestion == Some(0)
    ensures ProcessInterviewAnswer(AnswerMany(fsm, |fsm.data.interviewQuestions.value| - 1, s), Some(s), Some(sm)).ended
  {
    AnswersAdvance(fsm, |fsm.data.interviewQuestions.value| - 1, s);
  }

  /** An interview with `n` questions ends after exactly `n` answers: the
      summary is asked for by the last answer and by no earlier one, and the
      dialogue is then cleared. */
  lemma InterviewEndsAfterLastAnswer(fsm: Fsm, s: Score, sm: Summary)
    requires HasSession(fsm.data) && fsm.data.currentQuestion == Some(0)
    ensures var n := |fsm.data.interviewQuestions.value|;
      && (forall k :: 0 <= k < n - 1 ==> !ProcessInterviewAnswer(AnswerMany(fsm, k, s), Some(s), Some(sm)).ended)
      && ProcessInterviewAnswer(AnswerMany(fsm, n - 1, s), Some(s), Some(sm)).ended
      && AnswerMany(fsm, n, s) == ClearedFsm
  {
    forall k | 0 <= k < |fsm.data.interviewQuestions.value| - 1
      ensures !ProcessInterviewAnswer(AnswerMany(fsm, k, s), Some(s), Some(sm)).ended
    {
      EarlyAnswerContinues(fsm, k, s, sm);
    }
    LastAnswerSummarises(fsm, s, sm);
    LastAnswerClears(fsm, s);
  }

  /** A started interview meets what the answer handler expects. */
  lemma StartedHasSession(fsm: Fsm, sessionId: int, track: string, qs: seq<Question>)
    requires sessionId > 0 && |qs| > 0
    ensures var started := CmdInterview(fsm, sessionId, track, StartReturned(qs)).fsm;
      && HasSession(started.data) && started.data.currentQuestion == Some(0)
      && |started.data.interviewQuestions.value| == |qs|
  {
  }

  /** A started interview's questions are answered one by one until the
      dialogue is cleared. */
  lemma StartThenAnswerAll(fsm: Fsm, sessionId: int, track: string, qs: seq<Question>, s: Score)
    requires sessionId > 0 && |qs| > 0
    ensures var started := CmdInterview(fsm, sessionId, track, StartReturned(qs)).fsm;
      && AnswerMany(started, |qs| - 1, s).data.currentQuestion == Some(|qs| - 1)
      && AnswerMany(started, |qs|, s) == ClearedFsm
  {
    StartedHasSession(fsm, sessionId, track, qs);
    LastAnswerClears(CmdInterview(fsm, sessionId, track, StartReturned(qs)).fsm, s);
  }
}

=== FILE: metrics.dfy ===
/** The bookkeeping of the end-to-end accuracy test: how scenario steps are
    normalised when loaded (agent names, expected keywords) and how the
    per-agent counters are kept while the first 50 steps are run. The agents
    under test are oracles: each step comes with the outcome of its call. */
module Metrics {
  import opened Wrappers
  import opened Text
  import opened Collections

  // ---------------------------------------------------------------------
  // Agent names
  // ---------------------------------------------------------------------

  const Arrow: string := "→"
  const HandlerSuffix: string := "_handler"

  /** The text before the first arrow (`"review → planner"` names the
      reviewer), stripped; text without an arrow is kept as it is. */
  function BeforeArrow(s: string): (r: string)
    ensures !Contains(s, Arrow) ==> r == s
    ensures Contains(s, Arrow) ==> r == Strip(BeforeFirst(s, Arrow))
  {
    if Contains(s, Arrow) then Strip(BeforeFirst(s, Arrow)) else s
  }

  /** `agent_str[:-8]` after an `endswith("_handler")` test. */
  function DropHandlerSuffix(s: string): (r: string)
    ensures EndsWith(s, HandlerSuffix) ==> r + HandlerSuffix == s
    ensures !EndsWith(s, HandlerSuffix) ==> r == s
  {
    if EndsWith(s, HandlerSuffix) then s[..|s| - |HandlerSuffix|] else s
  }

  /** The table of handler and agent names the accuracy test knows, with
      the agent each stands for. */
  function AgentMapping(name: string): Option<string>
  {
    match name
    case "start_handler" => Some("coordinator")
    case "assessment_handler" => Some("assessor")
    case "planning_handler" => Some("planner")
    case "interview_handler" => Some("interviewer")
    case "review_handler" => Some("reviewer")
    case "general_handler" => Some("coordinator")
    case "start" => Some("coordinator")
    case "coordinator" => Some("coordinator")
    case "assessor" => Some("assessor")
    case "planner" => Some("planner")
    case "interviewer" => Some("interviewer")
    case "reviewer" => Some("reviewer")
    case _ => None
  }

  /** The name after the arrow cut, lower-cased and stripped. */
  function CleanName(s: string): string
  {
    Strip(Lower(BeforeArrow(s)))
  }

  /** `_normalize_agent` as written: the `_handler` suffix is dropped before
      the table is consulted, so the table's `..._handler` keys can only be
      reached by names ending in `_handler_handler`. */
  function NormalizeAgentAsWritten(s: string): (r: string)
    ensures |s| == 0 ==> r == "unknown"
    ensures |s| > 0 ==> r == AgentMapping(DropHandlerSuffix(CleanName(s))).GetOr(DropHandlerSuffix(CleanName(s)))
  {
    if |s| == 0 then "unknown"
    else
      var a := DropHandlerSuffix(CleanName(s));
      AgentMapping(a).GetOr(a)
  }

  /** Names that are already clean are looked up as they are. */
  lemma CleanNameOfPlain(s: string)
    requires |s| > 0 && !IsSpace(s[0]) && !IsSpace(s[|s| - 1])
    requires Arrow[0] !in s && Lower(s) == s
    ensures CleanName(s) == s
  {
    MissingCharNotContained(s, Arrow, 0);
    StripFramed("", s, "");
    assert "" + s + "" == s;
  }

  /** `_normalize_agent` with the table consulted first on the full name and
      only then on the name without its `_handler` suffix; a name found in
      neither place is returned without the suffix, as before. */
  function NormalizeAgent(s: string): (r: string)
    ensures |s| == 0 ==> r == "unknown"
    ensures |s| > 0 && AgentMapping(CleanName(s)).Some? ==> r == AgentMapping(CleanName(s)).value
    ensures |s| > 0 && AgentMapping(CleanName(s)).None? ==> r == NormalizeAgentAsWritten(s)
  {
    if |s| == 0 then "unknown"
    else
      match AgentMapping(CleanName(s))
      case Some(v) => v
      case None => NormalizeAgentAsWritten(s)
  }

  /** The keys of the table, in its order: the handler names, then the agent names. */
  const HandlerKeys: seq<string> := [
    "start_handler", "assessment_handler", "planning_handler", "interview_handler", "review_handler",
    "general_handler"]
  const NameKeys: seq<string> := ["start", "coordinator", "assessor", "planner", "interviewer", "reviewer"]
  const AgentKeys: seq<string> := HandlerKeys + NameKeys

  /** Whether every character lies between `_` and `z`: lower-case letters
      and the underscore. */
  predicate SnakeCase(s: string)
  {
    forall k :: 0 <= k < |s| ==> '_' <= s[k] <= 'z'
  }

  lemma HandlerKeySnakeCase(i: nat)
    requires i < |HandlerKeys|
    ensures |HandlerKeys[i]| > 0 && SnakeCase(HandlerKeys[i])
  {
  }

  lemma NameKeySnakeCase(i: nat)
    requires i < |NameKeys|
    ensures |NameKeys[i]| > 0 && SnakeCase(NameKeys[i])
  {
  }

  lemma AgentKeySnakeCase(i: nat)
    requires i < |AgentKeys|
    ensures |AgentKeys[i]| > 0 && SnakeCase(AgentKeys[i])
  {
    if i < |HandlerKeys| {
      HandlerKeySnakeCase(i);
    } else {
      NameKeySnakeCase(i - |HandlerKeys|);
    }
  }

  lemma AgentKeyLower(i: nat)
    requires i < |AgentKeys|
    ensures Lower(AgentKeys[i]) == AgentKeys[i]
  {
    AgentKeySnakeCase(i);
    LowerOfLowerAscii(AgentKeys[i]);
  }

  lemma AgentKeyMapped(i: nat)
    requires i < |AgentKeys|
    ensures AgentMapping(AgentKeys[i]).Some?
  {
  }

  lemma AgentKeyPlain(i: nat)
    requires i < |AgentKeys|
    ensures AgentMapping(AgentKeys[i]).Some? && Arrow[0] !in AgentKeys[i]
    ensures |AgentKeys[i]| > 0 && !IsSpace(AgentKeys[i][0]) && !IsSpace(AgentKeys[i][|AgentKeys[i]| - 1])
  {
    AgentKeyMapped(i);
    AgentKeySnakeCase(i);
    var key := AgentKeys[i];
    assert Arrow[0] !in key;
  }

  /** The keys of the table are already clean names. */
  lemma AgentKeyClean(i: nat)
    requires i < |AgentKeys|
    ensures CleanName(AgentKeys[i]) == AgentKeys[i]
  {
    AgentKeyLower(i);
    AgentKeyPlain(i);
    CleanNameOfPlain(AgentKeys[i]);
  }

  lemma AssessmentSuffixCut()
    ensures DropHandlerSuffix(AgentKeys[1]) == "assessment"
    ensures AgentMapping("assessment") == None
  {
    assert EndsWith(AgentKeys[1], HandlerSuffix);
  }

  /** A handler name from the table is not mapped to its agent: its suffix
      is cut first and the rest is not in the table. */
  lemma AssessmentHandlerMisnamed()
    ensures AgentMapping(AgentKeys[1]) == Some("assessor")
    ensures NormalizeAgentAsWritten(AgentKeys[1]) == "assessment"
  {
    var name := AgentKeys[1];
    assert name == "assessment_handler";
    AgentKeyClean(1);
    AssessmentSuffixCut();
    assert DropHandlerSuffix(CleanName(name)) == "assessment";
  }

  /** Every name in the table is normalised to the agent it stands for. */
  lemma NormalizeAgentFollowsTable(i: nat)
    requires i < |AgentKeys|
    ensures NormalizeAgent(AgentKeys[i]) == AgentMapping(AgentKeys[i]).value
  {
    AgentKeyClean(i);
    AgentKeyPlain(i);
  }

  /** The agent names map to themselves. */
  lemma AgentNamesMapToThemselves(i: nat)
    requires 7 <= i < |AgentKeys|
    ensures AgentMapping(AgentKeys[i]) == Some(AgentKeys[i])
  {
  }

  /** Normalising leaves the agent names alone and sends
      "assessment_handler" to the assessor. */
  lemma NormalizeAgentExamples(i: nat)
    requires 7 <= i < |AgentKeys|
    ensures NormalizeAgent(AgentKeys[i]) == AgentKeys[i]
    ensures NormalizeAgent(AgentKeys[1]) == "assessor"
  {
    NormalizeAgentFollowsTable(i);
    AgentNamesMapToThemselves(i);
    NormalizeAgentFollowsTable(1);
    AssessmentHandlerMisnamed();
  }

  // ---------------------------------------------------------------------
  // Expected keywords
  // ---------------------------------------------------------------------

  /**
   * A JSON value as it can appear among the expected keywords. A float, a list
   * or an object is a `JOther` carrying its Python `str()` and its truthiness.
   */
  datatype JsonItem = JStr(s: string) | JInt(n: int) | JBool(b: bool) | JNull | JOther(text: string, truthy: bool)

  /** What a scenario gives as its expected response. */
  datatype Expected = ExpectedList(items: seq<JsonItem>) | ExpectedText(text: string) | ExpectedOther

  /** Python truthiness of an item. */
  predicate ItemTruthy(x: JsonItem)
  {
    match x
    case JStr(s) => |s| > 0
    case JInt(n) => n != 0
    case JBool(b) => b
    case JNull => false
    case JOther(_, t) => t
  }

  /** `str(x)`. */
  function ItemText(x: JsonItem): string
  {
    match x
    case JStr(s) => s
    case JInt(n) => IntToString(n)
    case JBool(b) => if b then "True" else "False"
    case JNull => "None"
    case JOther(t, _) => t
  }

  /** Whether an item becomes a keyword: truthy and not blank. */
  predicate KeepsKeyword(x: JsonItem)
  {
    ItemTruthy(x) && |Strip(ItemText(x))| > 0
  }

  /** The keyword an item gives: its text, lower-cased. */
  function KeywordOf(x: JsonItem): string
  {
    Lower(ItemText(x))
  }

  /** The keywords of a list: the lower-cased text of each kept item, in order. */
  function ListKeywords(items: seq<JsonItem>): (ks: seq<string>)
    ensures |ks| <= |items|
  {
    Map(Where(items, KeepsKeyword), KeywordOf)
  }

  /** Each keyword comes from a kept item. */
  lemma ListKeywordSource(items: seq<JsonItem>, k: nat)
    requires k < |ListKeywords(items)|
    ensures exists x :: x in items && KeepsKeyword(x) && ListKeywords(items)[k] == KeywordOf(x)
  {
    var kept := Where(items, KeepsKeyword);
    WhereMembers(items, KeepsKeyword);
    assert kept[k] in kept;
    assert kept[k] in items && KeepsKeyword(kept[k]) && ListKeywords(items)[k] == KeywordOf(kept[k]);
  }

  /** Every kept item gives a keyword. */
  lemma ListKeywordsComplete(items: seq<JsonItem>, x: JsonItem)
    requires x in items && KeepsKeyword(x)
    ensures KeywordOf(x) in ListKeywords(items)
  {
    var kept := Where(items, KeepsKeyword);
    WhereMembers(items, KeepsKeyword);
    assert x in kept;
    var k :| 0 <= k < |kept| && kept[k] == x;
    var ks := Map(kept, KeywordOf);
    assert ks[k] == KeywordOf(x);
    assert ks[k] in ks;
  }

  /** `_extract_keywords`. */
  function ExtractKeywords(e: Expected): (ks: seq<string>)
    ensures e.ExpectedList? ==> ks == ListKeywords(e.items)
    ensures e.ExpectedText? ==> ks == (if |Strip(e.text)| > 0 then [Lower(e.text)] else [])
    ensures e.ExpectedOther? ==> ks == []
  {
    match e
    case ExpectedList(items) => ListKeywords(items)
    case ExpectedText(t) => if |Strip(t)| > 0 then [Lower(t)] else []
    case ExpectedOther => []
  }

  /** One keyword is the lower-cased text of a non-blank source. */
  lemma KeywordIsLowerAndNonBlank(e: Expected, k: nat)
    requires k < |ExtractKeywords(e)|
    ensures Lower(ExtractKeywords(e)[k]) == ExtractKeywords(e)[k] && |ExtractKeywords(e)[k]| > 0
  {
    var ks := ExtractKeywords(e);
    var src: string;
    if e.ExpectedList? {
      ListKeywordSource(e.items, k);
      var x :| x in e.items && KeepsKeyword(x) && ks[k] == KeywordOf(x);
      src := ItemText(x);
    } else {
      src := e.text;
    }
    assert ks[k] == Lower(src) && |Strip(src)| > 0;
    LowerIdempotent(src);
  }

  /** Keywords are lower-case and never blank. */
  lemma KeywordsAreLowerAndNonBlank(e: Expected)
    ensures forall k :: 0 <= k < |ExtractKeywords(e)| ==>
      Lower(ExtractKeywords(e)[k]) == ExtractKeywords(e)[k] && |ExtractKeywords(e)[k]| > 0
  {
    forall k | 0 <= k < |ExtractKeywords(e)|
      ensures Lower(ExtractKeywords(e)[k]) == ExtractKeywords(e)[k] && |ExtractKeywords(e)[k]| > 0
    {
      KeywordIsLowerAndNonBlank(e, k);
    }
  }

  // ---------------------------------------------------------------------
  // Loading the steps
  // ---------------------------------------------------------------------

  /** A scenario step as read from the file; a missing text is "". */
  datatype RawStep = RawStep(userInput: string, expectedAgent: string, expectedResponse: Expected)

  /** A step ready to run. */
  datatype LoadedStep = LoadedStep(query: string, agent: string, keywords: seq<string>)

  /** The loaded form of a raw step, normalised by `_normalize_agent` as
      written: a missing agent becomes "unknown", so it never drops a step,
      and the keywords are lower-case and non-blank. */
  function Normalized(r: RawStep): (s: LoadedStep)
    ensures s.query == r.userInput && s.agent == NormalizeAgentAsWritten(r.expectedAgent)
    ensures |r.expectedAgent| == 0 ==> s.agent == "unknown"
    ensures forall k :: 0 <= k < |s.keywords| ==> Lower(s.keywords[k]) == s.keywords[k] && |s.keywords[k]| > 0
  {
    KeywordsAreLowerAndNonBlank(r.expectedResponse);
    LoadedStep(r.userInput, NormalizeAgentAsWritten(r.expectedAgent), ExtractKeywords(r.expectedResponse))
  }

  /** "assessment" is not an agent the accuracy test can call. */
  lemma AssessmentUnavailable()
    ensures "assessment" !in Available
  {
    assert "assessment"[6] != "assessor"[6] && "assessment"[0] != "planner"[0] && "assessment"[0] != "coordinator"[0];
  }

  /** A step expecting the assessment handler loads under "assessment", an
      agent the accuracy test cannot call, so the step is skipped. */
  lemma AssessmentHandlerStepSkipped(query: string, e: Expected)
    ensures Normalized(RawStep(query, AgentKeys[1], e)).agent == "assessment"
    ensures "assessment" !in Available
  {
    AssessmentHandlerMisnamed();
    AssessmentUnavailable();
  }

  /** Whether a step is kept: a non-empty query and a non-empty agent. */
  predicate Runnable(s: LoadedStep)
  {
    |s.query| > 0 && |s.agent| > 0
  }

  /** The steps of one scenario, normalised; a step with an empty query or an
      empty normalised agent is dropped. */
  function LoadSteps(raw: seq<RawStep>): (steps: seq<LoadedStep>)
    ensures |steps| <= |raw|
    ensures forall k :: 0 <= k < |steps| ==> Runnable(steps[k])
  {
    Where(Map(raw, Normalized), Runnable)
  }

  /** The loaded steps are exactly the runnable normalised raw steps: every
      loaded step is one, and every such step is loaded. */
  lemma LoadStepsExact(raw: seq<RawStep>)
    ensures forall s :: s in LoadSteps(raw) ==> exists i :: 0 <= i < |raw| && s == Normalized(raw[i])
    ensures forall i :: 0 <= i < |raw| && Runnable(Normalized(raw[i])) ==> Normalized(raw[i]) in LoadSteps(raw)
  {
    var all := Map(raw, Normalized);
    WhereMembers(all, Runnable);
    forall s | s in LoadSteps(raw)
      ensures exists i :: 0 <= i < |raw| && s == Normalized(raw[i])
    {
      var i :| 0 <= i < |all| && all[i] == s;
    }
    forall i | 0 <= i < |raw| && Runnable(Normalized(raw[i]))
      ensures Normalized(raw[i]) in LoadSteps(raw)
    {
      assert all[i] in all;
    }
  }

  // ---------------------------------------------------------------------
  // Counters
  // ---------------------------------------------------------------------

  /** The agents the accuracy test can call. */
  const Available: set<string> := {"coordinator", "assessor", "planner"}

  /**
   * How a step's call went: relevant, not relevant, or raised. Only the
   * coordinator's `route` raises into the loop's outer `except`; the assessor's
   * and the planner's calls sit in their own `try`, which reads a raise as not
   * relevant.
   */
  datatype Outcome = Relevant | NotRelevant | Raised

  /** A step to run: its query, its expected agent, and how the call went. */
  datatype Run = Run(query: string, agent: string, outcome: Outcome)

  /** The status recorded in an agent's details for one step. */
  datatype Status = Skipped | Success | Failed | Errored

  /** One agent's counter: steps seen, relevant answers, details in order. */
  datatype Counter = Counter(total: nat, relevant: nat, details: seq<Status>)

  const MaxSteps: nat := 50

  /** The status one step records in its agent's details. */
  function StatusOf(r: Run): (s: Status)
    ensures s == Skipped <==> r.agent !in Available
    ensures s == Success <==> r.agent in Available && r.outcome == Relevant
    ensures s == Errored <==> r.agent == "coordinator" && r.outcome == Raised
  {
    if r.agent !in Available then Skipped
    else match r.outcome
      case Relevant => Success
      case NotRelevant => Failed
      case Raised => if r.agent == "coordinator" then Errored else Failed
  }

  /** The steps expected to go to `a`. */
  function TotalFor(runs: seq<Run>, a: string): nat
  {
    if |runs| == 0 then 0
    else TotalFor(runs[..|runs| - 1], a) + (if runs[|runs| - 1].agent == a then 1 else 0)
  }

  /** The steps of `a` that were run and judged relevant. */
  function RelevantFor(runs: seq<Run>, a: string): nat
  {
    if |runs| == 0 then 0
    else RelevantFor(runs[..|runs| - 1], a) + (if StatusOf(runs[|runs| - 1]) == Success && runs[|runs| - 1].agent == a then 1 else 0)
  }

  /** The statuses of the steps of `a`, in order. */
  function DetailsFor(runs: seq<Run>, a: string): seq<Status>
  {
    if |runs| == 0 then []
    else DetailsFor(runs[..|runs| - 1], a) + (if runs[|runs| - 1].agent == a then [StatusOf(runs[|runs| - 1])] else [])
  }

  /** The steps whose agent could be called. */
  function TestedCount(runs: seq<Run>): nat
  {
    if |runs| == 0 then 0
    else TestedCount(runs[..|runs| - 1]) + (if runs[|runs| - 1].agent in Available then 1 else 0)
  }

  /** The agents the steps name. */
  function AgentsIn(runs: seq<Run>): set<string>
  {
    if |runs| == 0 then {} else AgentsIn(runs[..|runs| - 1]) + {runs[|runs| - 1].agent}
  }

  lemma {:induction false} AgentsInMembers(runs: seq<Run>, a: string)
    ensures a in AgentsIn(runs) <==> exists i :: 0 <= i < |runs| && runs[i].agent == a
    decreases |runs|
  {
    if |runs| > 0 {
      var init := runs[..|runs| - 1];
      AgentsInMembers(init, a);
      if a in AgentsIn(init) {
        var i :| 0 <= i < |init| && init[i].agent == a;
        assert runs[i].agent == a;
      }
      if i :| 0 <= i < |runs| && runs[i].agent == a {
        if i < |init| {
          assert init[i].agent == a;
        }
      }
    }
  }

  /** The counter of `a` after `runs`. */
  function CounterFor(runs: seq<Run>, a: string): Counter
  {
    Counter(TotalFor(runs, a), RelevantFor(runs, a), DetailsFor(runs, a))
  }

  /** An agent never has more relevant answers than steps, and it has one
      detail per step. */
  lemma {:induction false} CounterBounds(runs: seq<Run>, a: string)
    ensures RelevantFor(runs, a) <= TotalFor(runs, a) == |DetailsFor(runs, a)|
    ensures TestedCount(runs) <= |runs|
    decreases |runs|
  {
    if |runs| > 0 {
      CounterBounds(runs[..|runs| - 1], a);
    }
  }

  /** The counter of `r`'s agent after `r` is counted. */
  function Counted(counters: map<string, Counter>, r: Run): map<string, Counter>
  {
    var c := if r.agent in counters then counters[r.agent] else Counter(0, 0, []);
    var status := StatusOf(r);
    counters[r.agent := Counter(c.total + 1, c.relevant + (if status == Success then 1 else 0), c.details + [status])]
  }

  /** Whether `counters` holds exactly the counters of the steps `runs`. */
  predicate CountersOf(counters: map<string, Counter>, runs: seq<Run>)
  {
    && counters.Keys == AgentsIn(runs)
    && forall a :: a in counters ==> counters[a] == CounterFor(runs, a)
  }

  /** Counting one more step keeps the counters exact. */
  lemma CountedStep(counters: map<string, Counter>, runs: seq<Run>, i: nat)
    requires i < |runs| && CountersOf(counters, runs[..i])
    ensures CountersOf(Counted(counters, runs[i]), runs[..i + 1])
  {
    var r := runs[i];
    CountOneMore(runs, i);
    if r.agent !in counters {
      AgentsInMembers(runs[..i], r.agent);
      ZeroCounter(runs[..i], r.agent);
    }
  }

  /** The counters of the accuracy test over the first 50 steps. */
  method CountSteps(runs: seq<Run>) returns (counters: map<string, Counter>, executed: nat, tested: nat)
    ensures executed == if |runs| < MaxSteps then |runs| else MaxSteps
    ensures tested == TestedCount(runs[..executed]) && tested <= executed
    ensures forall a :: a in counters <==> exists i :: 0 <= i < executed && runs[i].agent == a
    ensures forall a :: a in counters ==> counters[a] == CounterFor(runs[..executed], a)
    ensures forall a :: a in counters ==> counters[a].relevant <= counters[a].total == |counters[a].details|
  {
    executed := if |runs| < MaxSteps then |runs| else MaxSteps;
    counters := map[];
    tested := 0;
    var i := 0;
    while i < executed
      invariant 0 <= i <= executed
      invariant tested == TestedCount(runs[..i])
      invariant CountersOf(counters, runs[..i])
    {
      CountedStep(counters, runs, i);
      TestedOneMore(runs, i);
      counters := Counted(counters, runs[i]);
      if runs[i].agent in Available {
        tested := tested + 1;
      }
      i := i + 1;
    }
    assert runs[..executed] == runs[..i];
    CountersFinal(counters, runs, executed);
    CounterBounds(runs[..executed], "");
  }

  /** Exact counters name the agents of the steps and stay within their bounds. */
  lemma CountersFinal(counters: map<string, Counter>, runs: seq<Run>, n: nat)
    requires n <= |runs| && CountersOf(counters, runs[..n])
    ensures forall a :: a in counters <==> exists i :: 0 <= i < n && runs[i].agent == a
    ensures forall a :: a in counters ==> counters[a].relevant <= counters[a].total == |counters[a].details|
  {
    forall a
      ensures a in counters <==> exists i :: 0 <= i < n && runs[i].agent == a
    {
      AgentsInMembers(runs[..n], a);
      if i :| 0 <= i < n && runs[i].agent == a {
        assert runs[..n][i].agent == a;
      }
    }
    forall a | a in counters
      ensures counters[a].relevant <= counters[a].total == |counters[a].details|
    {
      CounterBounds(runs[..n], a);
    }
  }

  lemma TestedOneMore(runs: seq<Run>, i: nat)
    requires i < |runs|
    ensures TestedCount(runs[..i + 1]) == TestedCount(runs[..i]) + (if runs[i].agent in Available then 1 else 0)
  {
    assert runs[..i + 1][..i] == runs[..i];
  }

  /** One more step counts for its own agent only. */
  lemma CountOneMore(runs: seq<Run>, i: nat)
    requires i < |runs|
    ensures var before := runs[..i]; var after := runs[..i + 1]; var r := runs[i];
      && AgentsIn(after) == AgentsIn(before) + {r.agent}
      && CounterFor(after, r.agent)
         == Counter(CounterFor(before, r.agent).total + 1,
                    CounterFor(before, r.agent).relevant + (if StatusOf(r) == Success then 1 else 0),
                    CounterFor(before, r.agent).details + [StatusOf(r)])
      && forall a :: a != r.agent ==> CounterFor(after, a) == CounterFor(before, a)
  {
    assert runs[..i + 1][..i] == runs[..i];
  }

  /** An agent that no step names has an empty counter. */
  lemma {:induction false} ZeroCounter(runs: seq<Run>, a: string)
    requires forall j :: 0 <= j < |runs| ==> runs[j].agent != a
    ensures CounterFor(runs, a) == Counter(0, 0, [])
    decreases |runs|
  {
    if |runs| > 0 {
      ZeroCounter(runs[..|runs| - 1], a);
    }
  }
}

=== FILE: planning.dfy ===
/** The learning-plan dialogue: `/plan`, the goal message, and the
    show/save/skip answers that follow. The planner agent is an oracle. */
module Planning {
  import opened Wrappers
  import opened Text
  import opened Collections
  import opened Flow

  /** What the planner agent returns (all attributes present). */
  datatype PlannerResult = PlannerResult(totalWeeks: int, totalHours: int, focusAreas: seq<string>,
                                         summary: string, weeks: seq<Week>, ragUsed: bool)

  /** `plan_result.dict()`: every key is written. */
  function Stored(p: PlannerResult): (s: Plan)
    ensures s.focusAreas == Some(p.focusAreas) && s.weeks == Some(p.weeks)
    ensures s.totalWeeks == Some(p.totalWeeks) && s.summary == Some(p.summary)
  {
    Plan(Some(p.totalWeeks), p.totalHours, Some(p.focusAreas), Some(p.summary), Some(p.weeks), p.ragUsed)
  }

  /** The plan record handed to the repository. */
  datatype SavedPlan = SavedPlan(title: string, description: string, track: string, level: string,
                                 durationWeeks: int, plan: Plan, progress: real)

  /** What one handler call does: the next state, the replies in order, the plan saved (if any). */
  datatype PlanTurn = PlanTurn(fsm: Fsm, replies: seq<string>, saved: Option<SavedPlan>)

  // =====================================================================
  // /plan and the goal message
  // =====================================================================

  const PlanPrompt: string :=
    "🗓️ *Создание плана обучения*\n\nОпишите, что вы хотите изучить или улучшить:\n\n*Примеры:*\n"
    + "• Хочу освоить Python для backend\n• Нужно улучшить алгоритмы для собеседований\n"
    + "• Хочу изучить микросервисную архитектуру"

  /** `cmd_plan`: always waits for the goal, whatever the state was. */
  function CmdPlan(fsm: Fsm): (t: PlanTurn)
    ensures t.fsm.state == WaitingGoal && t.fsm.data == fsm.data
    ensures t.replies == [PlanPrompt] && t.saved.None?
  {
    PlanTurn(SetState(fsm, WaitingGoal), [PlanPrompt], None)
  }

  const CreatingReply: string := "📝 Создаю персонализированный план..."
  const PlanFailedReply: string := "❌ Не удалось создать план. Попробуйте позже."

  /** The summary message for a fresh plan. */
  function PlanCreatedReply(p: PlannerResult): string
  {
    "\n✅ *План обучения создан!*\n\n📅 *Общая информация:*\n• Недель: " + IntToString(p.totalWeeks)
    + "\n• Всего часов: " + IntToString(p.totalHours)
    + "\n• Фокус: " + Join(TakeSeq(p.focusAreas, 2), ", ")
    + "\n\n📝 *Краткое описание:*\n" + Take(p.summary, 300)
    + "...\n\n*Использована база знаний:* " + (if p.ragUsed then "✅ Да" else "❌ Нет")
    + "\n\n*Показать детали по неделям?* (да/нет)\n"
  }

  /** `process_plan_goal`: `planner` is the agent's answer (None when it raises),
      `sessionId` the id of the session created for this request. */
  function ProcessPlanGoal(fsm: Fsm, sessionId: int, planner: Option<PlannerResult>): (t: PlanTurn)
    ensures planner.Some? ==> t.fsm.state == CreatingPlan
                              && t.fsm.data.planResult == Some(Stored(planner.value))
                              && t.fsm.data.planSessionId == Some(sessionId)
    ensures planner.Some? ==> t.fsm.data.(planResult := fsm.data.planResult, planSessionId := fsm.data.planSessionId)
                              == fsm.data
    ensures planner.None? ==> t.fsm == ClearedFsm && t.replies == [CreatingReply, PlanFailedReply]
    ensures t.saved.None?
  {
    match planner
    case Some(p) =>
      var data := fsm.data.(planResult := Some(Stored(p)), planSessionId := Some(sessionId));
      PlanTurn(Fsm(CreatingPlan, data), [CreatingReply, PlanCreatedReply(p)], None)
    case None =>
      PlanTurn(ClearedFsm, [CreatingReply, PlanFailedReply], None)
  }

  // =====================================================================
  // Showing the details
  // =====================================================================

  /** The first three topics of a week, or all of them when there are fewer. */
  function ShownTopics(w: Week): (ts: seq<string>)
    ensures |ts| == if |w.topics| <= 3 then |w.topics| else 3
    ensures ts == w.topics[..|ts|]
  {
    TakeSeq(w.topics, 3)
  }

  /** The first task, or "Нет" when the week has none. */
  function FirstTask(w: Week): (t: string)
    ensures |w.tasks| > 0 ==> t == w.tasks[0]
    ensures |w.tasks| == 0 ==> t == "Нет"
  {
    if |w.tasks| > 0 then w.tasks[0] else "Нет"
  }

  /** The estimated hours, 10 when the week does not say. */
  function WeekHours(w: Week): (h: int)
    ensures w.hours.Some? ==> h == w.hours.value
    ensures w.hours.None? ==> h == 10
  {
    w.hours.GetOr(10)
  }

  function WeekText(w: Week): string
  {
    "*Неделя " + IntToString(w.number) + ": " + w.title + "*\n"
    + "📚 Темы: " + Join(ShownTopics(w), ", ") + "\n"
    + "✅ Задачи: " + FirstTask(w) + "\n"
    + "⏰ Часов: " + IntToString(WeekHours(w)) + "\n\n"
  }

  function WeeksText(weeks: seq<Week>): string
    decreases |weeks|
  {
    if |weeks| == 0 then "" else WeekText(weeks[0]) + WeeksText(weeks[1..])
  }

  const DetailsLimit: nat := 4000
  const CutSuffix: string := "...\n\n(план сокращен)"

  /** Texts over the limit keep their first `DetailsLimit` characters and get a fixed suffix. */
  function Truncate(s: string): (r: string)
    ensures |s| <= DetailsLimit ==> r == s
    ensures |s| > DetailsLimit ==> |r| == DetailsLimit + |CutSuffix| && r[..DetailsLimit] == s[..DetailsLimit]
                                   && r[DetailsLimit..] == CutSuffix
  {
    if |s| > DetailsLimit then s[..DetailsLimit] + CutSuffix else s
  }

  /** The week-by-week details message. */
  function DetailsText(weeks: seq<Week>): string
  {
    Truncate("📋 *Детали плана:*\n\n" + WeeksText(weeks))
  }

  // =====================================================================
  // The answer after the summary
  // =====================================================================

  const ShowWords: seq<string> := ["да", "yes", "покажи", "детали"]
  const SkipWords: seq<string> := ["нет", "no", "пропустить"]
  const SaveButton: string := "✅ сохранить план"
  const DontSaveButton: string := "❌ не сохранять"

  const SaveQuestion: string := "Сохранить этот план в вашем профиле?"
  const PlanNotFoundReply: string := "❌ План не найден"
  const SkippedReply: string := "✅ Хорошо, план не будет сохранен."
  const SavedReply: string := "✅ *План сохранен!*\n\nВы можете посмотреть его в любой момент через /progress"
  const NothingToSaveReply: string := "❌ Нечего сохранять"
  const NotSavedReply: string := "✅ План не сохранен."
  const AnswerYesNoReply: string := "Пожалуйста, ответьте 'да' или 'нет'"

  /** The title of a saved plan as the source computes it:
      `plan_result.get("focus_areas", ["Обучение"])[0]` raises (None here) on an empty list. */
  function SavedTitleAsWritten(p: Plan): (t: Option<string>)
    ensures t.None? <==> p.focusAreas == Some([])
  {
    var areas := p.focusAreas.GetOr(["Обучение"]);
    if |areas| == 0 then None else Some("План: " + areas[0])
  }

  /** An empty focus list makes the save handler raise instead of saving. */
  lemma EmptyFocusAreasRaise()
    ensures SavedTitleAsWritten(Plan(Some(4), 40, Some([]), Some("s"), Some([]), false)).None?
  {
  }

  /** The title with the default applied to a missing and to an empty focus list alike. */
  function SavedTitle(p: Plan): (t: string)
    ensures p.focusAreas.Some? && |p.focusAreas.value| > 0 ==> t == "План: " + p.focusAreas.value[0]
    ensures p.focusAreas.None? || p.focusAreas == Some([]) ==> t == "План: Обучение"
  {
    var areas := p.focusAreas.GetOr([]);
    "План: " + (if |areas| > 0 then areas[0] else "Обучение")
  }

  /** Wherever the source computes a title, the corrected one agrees with it. */
  lemma SavedTitleAgrees(p: Plan)
    ensures SavedTitleAsWritten(p).Some? ==> SavedTitleAsWritten(p).value == SavedTitle(p)
  {
  }

  /** The record `process_plan_details` builds for the user's current track
      and level; None where building its title raises, so nothing is saved. */
  function SavedPlanOf(p: Plan, track: string, level: string): (s: Option<SavedPlan>)
    ensures s.None? <==> p.focusAreas == Some([])
    ensures s.Some? ==> s.value.title == SavedTitle(p)
    ensures s.Some? ==> s.value.description == p.summary.GetOr("План обучения")
    ensures s.Some? ==> s.value.durationWeeks == (if p.totalWeeks.Some? then p.totalWeeks.value else 4)
    ensures s.Some? ==> s.value.progress == 0.0 && s.value.plan == p && s.value.track == track && s.value.level == level
  {
    match SavedTitleAsWritten(p)
    case None => None
    case Some(title) =>
      SavedTitleAgrees(p);
      Some(SavedPlan(title, p.summary.GetOr("План обучения"), track, level, p.totalWeeks.GetOr(4), p, 0.0))
  }

  /** The record with the corrected title: it exists for every stored plan. */
  function CorrectedSavedPlan(p: Plan, track: string, level: string): (s: SavedPlan)
    ensures p.focusAreas == Some([]) ==> s.title == "План: Обучение"
    ensures s.plan == p && s.track == track && s.level == level && s.progress == 0.0
  {
    SavedPlan(SavedTitle(p), p.summary.GetOr("План обучения"), track, level, p.totalWeeks.GetOr(4), p, 0.0)
  }

  /** Wherever the source saves a plan, the corrected record is the same one. */
  lemma CorrectedSavedPlanAgrees(p: Plan, track: string, level: string)
    ensures SavedPlanOf(p, track, level).Some? ==> SavedPlanOf(p, track, level) == Some(CorrectedSavedPlan(p, track, level))
    ensures SavedPlanOf(p, track, level).None? ==> CorrectedSavedPlan(p, track, level).title == "План: Обучение"
  {
  }

  /** `process_plan_details`; `track` and `level` are the user's current ones. */
  function ProcessPlanDetails(fsm: Fsm, message: string, track: string, level: string): (t: PlanTurn)
    ensures var text := Lower(message);
      var plan := fsm.data.planResult;
      && (text in ShowWords ==>
            if plan.Some? && plan.value.weeks.Some? && |plan.value.weeks.value| > 0
            then t.fsm == fsm && t.replies == [DetailsText(plan.value.weeks.value), SaveQuestion]
            else t.fsm == ClearedFsm && t.replies == [PlanNotFoundReply])
      && (text in SkipWords || text == DontSaveButton ==> t.fsm == ClearedFsm)
      && (text == SaveButton && plan.None? ==> t.fsm == ClearedFsm && t.replies == [NothingToSaveReply] && t.saved.None?)
      && (text == SaveButton && plan.Some? ==> t.saved == SavedPlanOf(plan.value, track, level))
      && (text == SaveButton && plan.Some? && plan.value.focusAreas != Some([]) ==>
            t.fsm == ClearedFsm && t.replies == [SavedReply] && t.saved.Some?)
      && (text == SaveButton && plan.Some? && plan.value.focusAreas == Some([]) ==>
            t.fsm == fsm && t.replies == [] && t.saved.None?)
      && (text !in ShowWords && text !in SkipWords && text != SaveButton && text != DontSaveButton ==>
            t.fsm == fsm && t.replies == [AnswerYesNoReply])
      && (t.saved.Some? ==> text == SaveButton)
  {
    var text := Lower(message);
    var plan := fsm.data.planResult;
    if text in ShowWords then
      if plan.Some? && plan.value.weeks.Some? && |plan.value.weeks.value| > 0 then
        PlanTurn(fsm, [DetailsText(plan.value.weeks.value), SaveQuestion], None)
      else
        PlanTurn(ClearedFsm, [PlanNotFoundReply], None)
    else if text in SkipWords then
      PlanTurn(ClearedFsm, [SkippedReply], None)
    else if text == SaveButton then
      match plan
      case Some(p) =>
        // An empty focus list raises before anything is sent or cleared.
        (match SavedPlanOf(p, track, level)
         case Some(saved) => PlanTurn(ClearedFsm, [SavedReply], Some(saved))
         case None => PlanTurn(fsm, [], None))
      case None => PlanTurn(ClearedFsm, [NothingToSaveReply], None)
    else if text == DontSaveButton then
      PlanTurn(ClearedFsm, [NotSavedReply], None)
    else
      PlanTurn(fsm, [AnswerYesNoReply], None)
  }

  /** The save button, as shown, lowers to the answer the handler expects,
      which is none of the other answers. */
  lemma SaveButtonShown()
    ensures Lower("✅ Сохранить план") == SaveButton
    ensures SaveButton !in ShowWords && SaveButton !in SkipWords && SaveButton != DontSaveButton
  {
  }

  /** The answers are case-insensitive: "Да" and "ДА" act like "да", and the
      save button's text works in any letter case. */
  lemma AnswersIgnoreCase(fsm: Fsm, track: string, level: string)
    ensures ProcessPlanDetails(fsm, "ДА", track, level) == ProcessPlanDetails(fsm, "да", track, level)
    ensures ProcessPlanDetails(fsm, "✅ Сохранить план", track, level) == ProcessPlanDetails(fsm, SaveButton, track, level)
  {
    assert Lower("ДА") == "да";
    assert Lower("да") == "да";
    SaveButtonShown();
  }

  /** A generated plan survives to the save step: after a successful goal
      message, the save button stores exactly that plan and ends the dialogue;
      a plan without focus areas makes the save raise, leaving the dialogue
      where it was and nothing saved. */
  lemma GoalThenSave(fsm: Fsm, sessionId: int, p: PlannerResult, track: string, level: string)
    ensures var t1 := ProcessPlanGoal(fsm, sessionId, Some(p));
      var t2 := ProcessPlanDetails(t1.fsm, "✅ Сохранить план", track, level);
      && (|p.focusAreas| > 0 ==> t2.fsm == ClearedFsm && t2.saved == SavedPlanOf(Stored(p), track, level)
                                 && t2.saved.Some? && t2.saved.value.plan == Stored(p))
      && (|p.focusAreas| == 0 ==> t2.fsm == t1.fsm && t2.fsm.state == CreatingPlan && t2.saved.None? && t2.replies == [])
  {
    SaveButtonShown();
  }
}

=== FILE: retriever.dfy ===
/** The pure parts of the knowledge-base retriever: building the prompt
    around retrieved chunks, the agent-to-document-type filter, reading
    question/answer pairs out of stored documents, and tallying the stored
    metadata. The vector store itself is an oracle. */
module Retriever {
  import opened Wrappers
  import opened Text
  import opened Collections

  // =====================================================================
  // Prompt building
  // =====================================================================

  /** The label put in front of the `n`-th chunk (1-based). */
  function ChunkLabel(n: nat): string
  {
    "[Контекст " + NatToString(n) + "]"
  }

  /** Three lines per chunk: its label, the chunk, an empty separator line. */
  function ContextLines(chunks: seq<string>): (ls: seq<string>)
    decreases |chunks|
  {
    if |chunks| == 0 then []
    else ContextLines(chunks[..|chunks| - 1]) + [ChunkLabel(|chunks|), chunks[|chunks| - 1], ""]
  }

  /** Chunk `k` (0-based) sits right after the label numbered `k + 1`, in input order. */
  lemma {:induction false} ContextLinesLayout(chunks: seq<string>)
    ensures |ContextLines(chunks)| == 3 * |chunks|
    ensures forall k :: 0 <= k < |chunks| ==>
              && ContextLines(chunks)[3 * k] == ChunkLabel(k + 1)
              && ContextLines(chunks)[3 * k + 1] == chunks[k]
              && ContextLines(chunks)[3 * k + 2] == ""
    decreases |chunks|
  {
    if |chunks| > 0 {
      var init := chunks[..|chunks| - 1];
      ContextLinesLayout(init);
      var ls := ContextLines(chunks);
      assert ls == ContextLines(init) + [ChunkLabel(|chunks|), chunks[|chunks| - 1], ""];
      forall k | 0 <= k < |chunks|
        ensures ls[3 * k] == ChunkLabel(k + 1) && ls[3 * k + 1] == chunks[k] && ls[3 * k + 2] == ""
      {
        if k < |chunks| - 1 {
          assert chunks[k] == init[k];
        }
      }
    }
  }

  /** The context block: the lines joined with newlines, then stripped. */
  function ContextBlock(chunks: seq<string>): string
  {
    Strip(Join(ContextLines(chunks), "\n"))
  }

  /** Only trailing blanks are stripped off the joined lines: the block opens
      with the first label and the joined text is the block plus blanks. */
  lemma ContextBlockShape(chunks: seq<string>)
    requires |chunks| > 0
    ensures StartsWith(ContextBlock(chunks), ChunkLabel(1))
    ensures var j := Join(ContextLines(chunks), "\n");
      StartsWith(j, ContextBlock(chunks)) && AllSpace(j[|ContextBlock(chunks)|..])
  {
    var ls := ContextLines(chunks);
    ContextLinesLayout(chunks);
    var j := Join(ls, "\n");
    JoinStartsWithFirst(ls, "\n");
    assert ContextLines(chunks)[3 * 0] == ChunkLabel(0 + 1);
    var first := ChunkLabel(1);
    assert j[0] == first[0] == '[';
    assert TrimLeft(j) == j;
    var b := TrimRight(j);
    assert ContextBlock(chunks) == b;
    assert |first| <= |j| && j[..|first|] == first;
    assert AllSpace(j[|b|..]);
    forall k | |b| <= k < |j|
      ensures IsSpace(j[k])
    {
      assert j[k] == j[|b|..][k - |b|];
    }
    assert j[|first| - 1] == first[|first| - 1] == ']';
    assert b[..|first|] == j[..|first|];
  }

  /** One prompt template: an opening sentence, a heading for the context,
      a label for the question and a label for the answer. */
  datatype Template = Template(intro: string, contextHeading: string, questionLabel: string, answerLabel: string)

  function Render(t: Template, context: string, question: string): string
  {
    t.intro + "\n\n" + t.contextHeading + "\n" + context + "\n\n" + t.questionLabel + " " + question + "\n\n" + t.answerLabel
  }

  const BaseTemplate: Template := Template(
    "Используй информацию ниже для ответа на вопрос.", "КОНТЕКСТ:", "ВОПРОС ПОЛЬЗОВАТЕЛЯ:", "ОТВЕТ:")

  /** The agent-specific templates, keyed by agent name. */
  const AgentTemplates: seq<(string, Template)> := [
    ("interviewer", Template(
      "Ты — технический интервьюер. Используй контекст для создания вопросов или оценки ответов.",
      "КОНТЕКСТ (реальные вопросы и ответы с собеседований):", "ВОПРОС:", "ОТВЕТ ИНТЕРВЬЮЕРА:")),
    ("reviewer", Template(
      "Ты — code reviewer. Используй контекст для анализа кода.",
      "КОНТЕКСТ (лучшие практики и примеры кода):", "КОД ДЛЯ АНАЛИЗА:", "РЕВЬЮ:")),
    ("planner", Template(
      "Ты — планировщик обучения. Используй контекст для создания планов.",
      "КОНТЕКСТ (планы обучения и ресурсы):", "ЗАПРОС ПОЛЬЗОВАТЕЛЯ:", "ПЛАН ОБУЧЕНИЯ:")),
    ("assessor", Template(
      "Ты — оценщик знаний. Используй контекст для оценки ответов.",
      "КОНТЕКСТ (правильные ответы и критерии оценки):", "ОТВЕТ КАНДИДАТА:", "ОЦЕНКА:"))
  ]

  /** `agent_prompts.get(agent, base_prompt)`; `None` stands for Python's `None`. */
  function TemplateFor(agent: Option<string>): (t: Template)
    ensures agent.Some? && agent.value in ["interviewer", "reviewer", "planner", "assessor"] ==>
              (agent.value, t) in AgentTemplates
    ensures agent.None? || agent.value !in ["interviewer", "reviewer", "planner", "assessor"] ==>
              t == BaseTemplate
  {
    match agent
    case None => BaseTemplate
    case Some(a) => Lookup(AgentTemplates, a).GetOr(BaseTemplate)
  }

  /** `build_prompt_with_context`. */
  function BuildPromptWithContext(question: string, chunks: seq<string>, agent: Option<string>): (p: string)
    ensures |chunks| == 0 ==> p == question
    ensures |chunks| > 0 ==> p == Render(TemplateFor(agent), ContextBlock(chunks), question)
  {
    if |chunks| == 0 then question else Render(TemplateFor(agent), ContextBlock(chunks), question)
  }

  /** The four agents get pairwise different templates, all different from the base one. */
  lemma TemplatesDistinct()
    ensures forall i, j :: 0 <= i < j < |AgentTemplates| ==> AgentTemplates[i].1 != AgentTemplates[j].1
    ensures forall i :: 0 <= i < |AgentTemplates| ==> AgentTemplates[i].1 != BaseTemplate
  {
    assert AgentTemplates[0].1.answerLabel == "ОТВЕТ ИНТЕРВЬЮЕРА:";
    assert AgentTemplates[1].1.answerLabel == "РЕВЬЮ:";
    assert AgentTemplates[2].1.answerLabel == "ПЛАН ОБУЧЕНИЯ:";
    assert AgentTemplates[3].1.answerLabel == "ОЦЕНКА:";
  }

  // =====================================================================
  // Filters and the query
  // =====================================================================

  /** A `where` filter: field name to required value. */
  type Filter = map<string, string>

  /** Which stored document type each agent reads. */
  const AgentDocTypes: seq<(string, string)> := [
    ("interviewer", "interview_question"),
    ("reviewer", "code_example"),
    ("planner", "learning_plan"),
    ("assessor", "interview_question")
  ]

  /** The filter `retrieve_context` sends: `filter_by or {}`, plus the agent
      when it is non-empty; `None` when that leaves nothing to filter on. */
  function WhereFilter(filterBy: Option<Filter>, agent: Option<string>): (w: Option<Filter>)
    ensures agent.Some? && |agent.value| > 0 ==> w.Some? && "agent" in w.value && w.value["agent"] == agent.value
    ensures w.Some? ==> |w.value| > 0
    ensures w.None? <==> (filterBy.None? || |filterBy.value| == 0) && (agent.None? || |agent.value| == 0)
    ensures w.Some? ==> forall f :: f in w.value && f != "agent" ==>
                          (filterBy.Some? && f in filterBy.value && w.value[f] == filterBy.value[f])
  {
    var base := if filterBy.Some? then filterBy.value else map[];
    var w := if agent.Some? && |agent.value| > 0 then base["agent" := agent.value] else base;
    if |w| == 0 then None else Some(w)
  }

  /** What `retrieve_for_agent` asks the store for. */
  datatype Query = Query(text: string, k: int, filter: Option<Filter>)

  function AgentQuery(agentName: string, query: string, k: int): (q: Query)
    ensures q.text == query && q.k == k
    ensures (forall i :: 0 <= i < |AgentDocTypes| ==> AgentDocTypes[i].0 != agentName) ==>
              q.filter == if |agentName| > 0 then Some(map["agent" := agentName]) else None
  {
    var docType := Lookup(AgentDocTypes, agentName);
    var filterBy := if docType.Some? && |docType.value| > 0 then Some(map["type" := docType.value]) else None;
    Query(query, k, WhereFilter(filterBy, Some(agentName)))
  }

  /** An agent listed in the table filters on its document type and its name. */
  lemma TypedAgentQuery(i: nat, query: string, k: int)
    requires i < |AgentDocTypes|
    ensures var name := AgentDocTypes[i].0;
      AgentQuery(name, query, k).filter == Some(map["type" := AgentDocTypes[i].1, "agent" := name])
  {
    var name := AgentDocTypes[i].0;
    var docType := Lookup(AgentDocTypes, name);
    assert docType == Some(AgentDocTypes[i].1) by {
      if i == 0 {
      } else if i == 1 {
        assert name[0] == 'r';
      } else if i == 2 {
        assert name[0] == 'p';
      } else {
        assert name[0] == 'a';
      }
    }
  }

  /** `retrieve_context`: the store's `documents` lists for the query (None
      when the store cannot be opened or the query raises); the first list, if any. */
  function RetrieveContext(q: Query, search: Query -> Option<seq<seq<string>>>): (docs: seq<string>)
    ensures search(q).None? ==> docs == []
    ensures search(q).Some? && |search(q).value| == 0 ==> docs == []
    ensures search(q).Some? && |search(q).value| > 0 ==> docs == search(q).value[0]
  {
    match search(q)
    case None => []
    case Some(results) => if |results| > 0 then results[0] else []
  }

  /** `retrieve_for_agent` for an agent of the table: the context is the first
      document list the store returns for that agent's document type and name. */
  lemma RetrieveForTableAgent(i: nat, query: string, k: int, search: Query -> Option<seq<seq<string>>>)
    requires i < |AgentDocTypes|
    ensures var q := Query(query, k, Some(map["type" := AgentDocTypes[i].1, "agent" := AgentDocTypes[i].0]));
      RetrieveContext(AgentQuery(AgentDocTypes[i].0, query, k), search)
        == if search(q).Some? && |search(q).value| > 0 then search(q).value[0] else []
  {
    TypedAgentQuery(i, query, k);
  }

  // =====================================================================
  // Questions stored as "Вопрос: ... / Ответ: ..." text
  // =====================================================================

  const QuestionMarker: string := "Вопрос:"
  const AnswerMarker: string := "Ответ:"

  /** A marked line with every copy of its marker removed, stripped. */
  function Unmark(line: string, marker: string): string
    requires |marker| > 0
  {
    Strip(RemoveAll(line, marker))
  }

  /** The line loop: a question line overwrites the question, otherwise an
      answer line overwrites the answer. */
  function ScanQA(lines: seq<string>, question: string, answer: string): (string, string)
    decreases |lines|
  {
    if |lines| == 0 then (question, answer)
    else if StartsWith(lines[0], QuestionMarker) then ScanQA(lines[1..], Unmark(lines[0], QuestionMarker), answer)
    else if StartsWith(lines[0], AnswerMarker) then ScanQA(lines[1..], question, Unmark(lines[0], AnswerMarker))
    else ScanQA(lines[1..], question, answer)
  }

  /** The index of the last line that starts with `marker`. */
  function LastMarked(lines: seq<string>, marker: string): (i: Option<nat>)
    ensures i.Some? ==> i.value < |lines| && StartsWith(lines[i.value], marker)
                        && forall k :: i.value < k < |lines| ==> !StartsWith(lines[k], marker)
    ensures i.None? ==> forall k :: 0 <= k < |lines| ==> !StartsWith(lines[k], marker)
    decreases |lines|
  {
    if |lines| == 0 then None
    else if StartsWith(lines[|lines| - 1], marker) then Some(|lines| - 1)
    else LastMarked(lines[..|lines| - 1], marker)
  }

  /** The value the last marked line gives, or `default` when there is none. */
  function LastValue(lines: seq<string>, marker: string, default: string): string
    requires |marker| > 0
  {
    match LastMarked(lines, marker)
    case Some(i) => Unmark(lines[i], marker)
    case None => default
  }

  /** No line starts with both markers. */
  lemma MarkersExclusive(line: string)
    ensures !(StartsWith(line, QuestionMarker) && StartsWith(line, AnswerMarker))
  {
    if |line| > 0 {
      assert QuestionMarker[0] != AnswerMarker[0];
    }
  }

  lemma LastValueCons(lines: seq<string>, marker: string, default: string)
    requires |marker| > 0 && |lines| > 0
    ensures LastValue(lines, marker, default)
         == LastValue(lines[1..], marker, if StartsWith(lines[0], marker) then Unmark(lines[0], marker) else default)
  {
    var rest := lines[1..];
    match LastMarked(rest, marker)
    case Some(i) =>
      LastMarkedInTail(lines, marker, i);
    case None =>
      if StartsWith(lines[0], marker) {
        LastMarkedShift(lines, marker, 0);
      } else {
        NoMarkAtAll(lines, marker);
      }
  }

  /** A marked line in the tail is the last marked line of the whole. */
  lemma LastMarkedInTail(lines: seq<string>, marker: string, i: nat)
    requires |lines| > 0 && LastMarked(lines[1..], marker) == Some(i)
    ensures LastMarked(lines, marker) == Some(i + 1)
  {
    var rest := lines[1..];
    assert lines[i + 1] == rest[i];
    forall k | i + 1 < k < |lines|
      ensures !StartsWith(lines[k], marker)
    {
      assert lines[k] == rest[k - 1];
    }
    LastMarkedShift(lines, marker, i + 1);
  }

  /** No marked line in the tail and none in front: none at all. */
  lemma NoMarkAtAll(lines: seq<string>, marker: string)
    requires |lines| > 0 && LastMarked(lines[1..], marker).None? && !StartsWith(lines[0], marker)
    ensures LastMarked(lines, marker).None?
  {
    var rest := lines[1..];
    forall k | 0 <= k < |lines|
      ensures !StartsWith(lines[k], marker)
    {
      if k > 0 {
        assert lines[k] == rest[k - 1];
      }
    }
    LastMarkedNone(lines, marker);
  }

  /** The last marked line is determined by the markedness of all lines. */
  lemma LastMarkedShift(lines: seq<string>, marker: string, i: nat)
    requires i < |lines| && StartsWith(lines[i], marker)
    requires forall k :: i < k < |lines| ==> !StartsWith(lines[k], marker)
    ensures LastMarked(lines, marker) == Some(i)
  {
    var r := LastMarked(lines, marker);
    assert r.Some?;
  }

  lemma LastMarkedNone(lines: seq<string>, marker: string)
    requires forall k :: 0 <= k < |lines| ==> !StartsWith(lines[k], marker)
    ensures LastMarked(lines, marker) == None
  {
  }

  /** The loop ends with the values of the last question line and the last
      answer line (the initial values when there is none). */
  lemma {:induction false} ScanQAIsLastMarked(lines: seq<string>, question: string, answer: string)
    ensures ScanQA(lines, question, answer)
         == (LastValue(lines, QuestionMarker, question), LastValue(lines, AnswerMarker, answer))
    decreases |lines|
  {
    if |lines| > 0 {
      MarkersExclusive(lines[0]);
      LastValueCons(lines, QuestionMarker, question);
      LastValueCons(lines, AnswerMarker, answer);
      var q' := if StartsWith(lines[0], QuestionMarker) then Unmark(lines[0], QuestionMarker) else question;
      var a' := if StartsWith(lines[0], AnswerMarker) then Unmark(lines[0], AnswerMarker) else answer;
      ScanQAIsLastMarked(lines[1..], q', a');
    }
  }

  /** Stored metadata of one document. */
  type Meta = map<string, string>

  datatype QuestionRecord = QuestionRecord(question: string, answer: string, topic: string,
                                           difficulty: string, level: string, metadata: Meta)

  function MetaGet(meta: Meta, key: string, default: string): string
  {
    if key in meta then meta[key] else default
  }

  /** The last question and answer values of a document. */
  function QA(doc: string): (string, string)
  {
    ScanQA(Split(doc, '\n'), "", "")
  }

  /** Whether a document yields a record: both values are non-empty. */
  predicate HasQA(doc: string)
  {
    |QA(doc).0| > 0 && |QA(doc).1| > 0
  }

  /** The record of a document whose metadata is present. */
  function RecordOf(doc: string, meta: Meta): QuestionRecord
  {
    QuestionRecord(QA(doc).0, QA(doc).1, MetaGet(meta, "topic", ""), MetaGet(meta, "difficulty", ""),
                   MetaGet(meta, "level", ""), meta)
  }

  /** One document: a record when both a question and an answer were found. */
  function ParseQuestion(doc: string, meta: Meta): (r: Option<QuestionRecord>)
    ensures r.Some? ==> |r.value.question| > 0 && |r.value.answer| > 0 && r.value.metadata == meta
  {
    if HasQA(doc) then Some(RecordOf(doc, meta)) else None
  }

  /** A document gives a record exactly when it has a question line and an
      answer line with something after the marker; the record holds the
      values of the last such lines. */
  lemma ParseQuestionUsesLastMarks(doc: string, meta: Meta)
    ensures var lines := Split(doc, '\n');
      var q := LastValue(lines, QuestionMarker, "");
      var a := LastValue(lines, AnswerMarker, "");
      var r := ParseQuestion(doc, meta);
      && (r.Some? <==> |q| > 0 && |a| > 0)
      && (r.Some? ==> r.value.question == q && r.value.answer == a)
  {
    ScanQAIsLastMarked(Split(doc, '\n'), "", "");
  }

  /** A zipped pair whose document parses. */
  predicate ParsesPair(p: (string, Option<Meta>))
  {
    HasQA(p.0)
  }

  /** The record of a parsed pair (its metadata is present whenever the call
      does not raise). */
  function PairRecord(p: (string, Option<Meta>)): QuestionRecord
  {
    RecordOf(p.0, p.1.GetOr(map[]))
  }

  /** The reference list: one record per zipped pair whose document parses,
      in zip order. */
  function QuestionsOf(docs: seq<string>, metas: seq<Option<Meta>>): seq<QuestionRecord>
  {
    Map(Where(Zip(docs, metas), ParsesPair), PairRecord)
  }

  /** Whether reading the metadata raises: a parsed document's metadata is None. */
  predicate MissingMetaParsed(docs: seq<string>, metas: seq<Option<Meta>>)
  {
    exists i :: 0 <= i < |docs| && i < |metas| && HasQA(docs[i]) && metas[i].None?
  }

  /** The documents zipped with their metadata, keeping the parsed ones; None
      when `meta.get` is called on a missing metadata entry and raises. */
  function ParseQuestions(docs: seq<string>, metas: seq<Option<Meta>>): (rs: Option<seq<QuestionRecord>>)
    ensures rs.Some? ==> |rs.value| <= |docs| && |rs.value| <= |metas|
    ensures rs.Some? ==> forall i :: 0 <= i < |rs.value| ==> |rs.value[i].question| > 0 && |rs.value[i].answer| > 0
    decreases |docs|
  {
    if |docs| == 0 || |metas| == 0 then Some([])
    else
      var rest := ParseQuestions(docs[1..], metas[1..]);
      if !HasQA(docs[0]) then rest
      else match metas[0]
        case None => None
        case Some(meta) => if rest.None? then None else Some([RecordOf(docs[0], meta)] + rest.value)
  }

  /** The parse raises exactly when a parsed document has no metadata. */
  lemma {:induction false} ParseQuestionsRaises(docs: seq<string>, metas: seq<Option<Meta>>)
    ensures ParseQuestions(docs, metas).None? <==> MissingMetaParsed(docs, metas)
    decreases |docs|
  {
    if |docs| > 0 && |metas| > 0 {
      ParseQuestionsRaises(docs[1..], metas[1..]);
      if MissingMetaParsed(docs[1..], metas[1..]) {
        var i :| 0 <= i < |docs[1..]| && i < |metas[1..]| && HasQA(docs[1..][i]) && metas[1..][i].None?;
        assert HasQA(docs[i + 1]) && metas[i + 1].None?;
      }
      if MissingMetaParsed(docs, metas) {
        var i :| 0 <= i < |docs| && i < |metas| && HasQA(docs[i]) && metas[i].None?;
        if i > 0 {
          assert docs[1..][i - 1] == docs[i] && metas[1..][i - 1] == metas[i];
        }
      }
    }
  }

  /** When the parse does not raise, it yields exactly the reference list:
      every zipped pair whose document parses gives its record, in zip order. */
  lemma {:induction false} ParseQuestionsList(docs: seq<string>, metas: seq<Option<Meta>>)
    ensures ParseQuestions(docs, metas).Some? ==> ParseQuestions(docs, metas).value == QuestionsOf(docs, metas)
    decreases |docs|
  {
    if |docs| == 0 || |metas| == 0 {
      assert Zip(docs, metas) == [];
    } else {
      ParseQuestionsList(docs[1..], metas[1..]);
      ZipCons(docs, metas);
      var z := Zip(docs, metas);
      var zt := Zip(docs[1..], metas[1..]);
      assert z[1..] == zt;
      assert Where(z, ParsesPair) == (if ParsesPair(z[0]) then [z[0]] else []) + Where(zt, ParsesPair);
      if HasQA(docs[0]) && metas[0].Some? && ParseQuestions(docs[1..], metas[1..]).Some? {
        MapCons(z[0], Where(zt, ParsesPair), PairRecord);
      }
    }
  }

  /** What the store returns for a query: documents and metadatas, one list
      per query text; a metadata entry may be missing (None). */
  datatype QueryResult = QueryResult(documents: seq<seq<string>>, metadatas: seq<seq<Option<Meta>>>)

  /** The filter of `get_questions_by_topic`. */
  function TopicFilter(topic: string, difficulty: Option<string>): (f: Filter)
    ensures "type" in f && f["type"] == "interview_question"
    ensures "topic" in f && f["topic"] == topic
    ensures "difficulty" in f <==> difficulty.Some? && |difficulty.value| > 0
  {
    var f := map["type" := "interview_question", "topic" := topic];
    if difficulty.Some? && |difficulty.value| > 0 then f["difficulty" := difficulty.value] else f
  }

  /** `get_questions_by_topic`: the first document list zipped with the first
      metadata list; any exception (a failing search, a missing metadata list,
      a missing metadata entry of a parsed document) gives no questions. */
  function GetQuestionsByTopic(topic: string, difficulty: Option<string>, limit: int,
                               search: Query -> Option<QueryResult>): (rs: seq<QuestionRecord>)
    ensures forall i :: 0 <= i < |rs| ==> |rs[i].question| > 0 && |rs[i].answer| > 0
    ensures var res := search(Query(topic, limit, Some(TopicFilter(topic, difficulty))));
      && (res.None? || |res.value.documents| == 0 || |res.value.metadatas| == 0 ==> rs == [])
      && (res.Some? && |res.value.documents| > 0 && |res.value.metadatas| > 0 ==>
            var docs, metas := res.value.documents[0], res.value.metadatas[0];
            && (MissingMetaParsed(docs, metas) ==> rs == [])
            && (!MissingMetaParsed(docs, metas) ==> rs == QuestionsOf(docs, metas)))
  {
    match search(Query(topic, limit, Some(TopicFilter(topic, difficulty))))
    case None => []
    case Some(res) =>
      if |res.documents| == 0 then []
      else if |res.metadatas| == 0 then []
      else
        ParseQuestionsRaises(res.documents[0], res.metadatas[0]);
        ParseQuestionsList(res.documents[0], res.metadatas[0]);
        ParseQuestions(res.documents[0], res.metadatas[0]).GetOr([])
  }

  // =====================================================================
  // Database status
  // =====================================================================

  /** The value of `field`, or "unknown" when the record lacks it. */
  function FieldOrUnknown(field: string): Meta -> string
  {
    (m: Meta) => MetaGet(m, field, "unknown")
  }

  /** Per-value counts of `field`, in order of first appearance. */
  function Tally(metas: seq<Meta>, field: string): (counts: seq<(string, nat)>)
    ensures var gs := GroupBy(metas, FieldOrUnknown(field));
      && |counts| == |gs|
      && forall i :: 0 <= i < |counts| ==> counts[i] == (gs[i].key, |gs[i].members|)
  {
    var gs := GroupBy(metas, FieldOrUnknown(field));
    seq(|gs|, i requires 0 <= i < |gs| => (gs[i].key, |gs[i].members|))
  }

  function SumCounts(counts: seq<(string, nat)>): nat
    decreases |counts|
  {
    if |counts| == 0 then 0 else counts[0].1 + SumCounts(counts[1..])
  }

  lemma {:induction false} SumCountsOfGroups(gs: seq<Group<string, Meta>>, counts: seq<(string, nat)>)
    requires |counts| == |gs|
    requires forall i :: 0 <= i < |counts| ==> counts[i] == (gs[i].key, |gs[i].members|)
    ensures SumCounts(counts) == SumSizes(gs)
    decreases |gs|
  {
    if |gs| > 0 {
      SumCountsOfGroups(gs[1..], counts[1..]);
    }
  }

  /** Every record's value is one of the tallied values. */
  lemma TallyCovers(metas: seq<Meta>, field: string, i: nat)
    requires i < |metas|
    ensures exists j :: 0 <= j < |Tally(metas, field)| && Tally(metas, field)[j].0 == MetaGet(metas[i], field, "unknown")
  {
    var key := FieldOrUnknown(field);
    var gs := GroupBy(metas, key);
    var counts := Tally(metas, field);
    GroupByKeys(metas, key);
    var v := key(metas[i]);
    assert Map(metas, key)[i] == v;
    assert v in Keys(gs);
    var j :| 0 <= j < |gs| && Keys(gs)[j] == v;
    assert counts[j].0 == v;
  }

  /** The tally is exact: each value appears once, in order of first
      appearance, with the number of records carrying it (records without
      the field count as "unknown"), and the counts add up to the number of records. */
  lemma TallyCorrect(metas: seq<Meta>, field: string)
    ensures var counts := Tally(metas, field);
      && SumCounts(counts) == |metas|
      && (forall i, j :: 0 <= i < j < |counts| ==> counts[i].0 != counts[j].0)
      && (forall i :: 0 <= i < |counts| ==>
            counts[i].1 == |Select(metas, FieldOrUnknown(field), counts[i].0)| > 0)
      && (forall i :: 0 <= i < |metas| ==>
            exists j :: 0 <= j < |counts| && counts[j].0 == MetaGet(metas[i], field, "unknown"))
  {
    var gs := GroupBy(metas, FieldOrUnknown(field));
    var counts := Tally(metas, field);
    GroupByCorrect(metas, FieldOrUnknown(field));
    SumCountsOfGroups(gs, counts);
    forall i | 0 <= i < |metas|
      ensures exists j :: 0 <= j < |counts| && counts[j].0 == MetaGet(metas[i], field, "unknown")
    {
      TallyCovers(metas, field, i);
    }
  }

  /** `check_database_status`: ready with the document count and both
      tallies, or an error when the store cannot be opened. */
  datatype Status =
    | Ready(documents: int, types: seq<(string, nat)>, agents: seq<(string, nat)>)
    | Error

  /** `count` and `metadatas` are what the store reports (None when it raises). */
  function CheckDatabaseStatus(count: Option<int>, metadatas: Option<seq<Meta>>): (s: Status)
    ensures count.None? || metadatas.None? <==> s == Error
    ensures s.Ready? ==> SumCounts(s.types) == |metadatas.value| && SumCounts(s.agents) == |metadatas.value|
  {
    if count.None? || metadatas.None? then Error
    else
      TallyCorrect(metadatas.value, "type");
      TallyCorrect(metadatas.value, "agent");
      Ready(count.value, Tally(metadatas.value, "type"), Tally(metadatas.value, "agent"))
  }
}

=== FILE: review_flow.dfy ===
/** The code-review dialogue: `/review`, the code message, and the
    "more code / finish" choice. The reviewer agent is an oracle. */
module ReviewFlow {
  import opened Wrappers
  import opened Text
  import opened Flow

  /** The review record handed to the repository. */
  datatype ReviewRecord = ReviewRecord(language: string, snippet: string, context: string, score: int,
                                       issuesFound: nat, details: string, feedback: string)

  /** What one handler call does: the next state, the replies in order, the
      user message stored with the session, the review saved (if any). */
  datatype ReviewTurn = ReviewTurn(fsm: Fsm, replies: seq<string>, storedMessage: Option<string>,
                                   saved: Option<ReviewRecord>)

  const ReviewPrompt: string :=
    "🔍 *Code Review*\n\nОтправьте код для анализа:\n\n*Формат:*\n```python\ndef your_function():\n"
    + "    # ваш код\n```\n\nИли просто отправьте код текстом.\nУкажите язык и задачу если нужно."

  /** `cmd_review`: always waits for code. */
  function CmdReview(fsm: Fsm): (t: ReviewTurn)
    ensures t.fsm.state == WaitingCode && t.fsm.data == fsm.data
    ensures t.replies == [ReviewPrompt] && t.saved.None? && t.storedMessage.None?
  {
    ReviewTurn(SetState(fsm, WaitingCode), [ReviewPrompt], None, None)
  }

  const PartLimit: nat := 4000
  const AnalyzingReply: string := "🔎 Анализирую код..."
  const MoreQuestion: string := "Проанализировать еще код?"
  const ReviewFailedReply: string := "❌ Не удалось проанализировать код.\nПроверьте формат и попробуйте снова."

  /** The header put in front of the `n`-th part (1-based). */
  function PartHeader(n: nat): string
  {
    "*Часть " + NatToString(n) + ":*\n\n"
  }

  /** How the review text is sent: as is, or split into 4000-character parts. */
  function ReplyParts(review: string): (ps: seq<string>)
    ensures |review| <= PartLimit ==> ps == [review]
    ensures |review| > PartLimit ==> |ps| == |Chunks(review, PartLimit)|
    ensures |review| > PartLimit ==> forall i :: 0 <= i < |ps| ==> ps[i] == PartHeader(i + 1) + Chunks(review, PartLimit)[i]
  {
    if |review| > PartLimit then
      var cs := Chunks(review, PartLimit);
      seq(|cs|, i requires 0 <= i < |cs| => PartHeader(i + 1) + cs[i])
    else [review]
  }

  /** A long review is sent in parts of at most 4000 characters, all but the
      last exactly that long, which together are the whole review. */
  lemma LongReviewParts(review: string)
    requires |review| > PartLimit
    ensures var cs := Chunks(review, PartLimit);
      && Concat(cs) == review
      && (forall i :: 0 <= i < |cs| ==> 0 < |cs[i]| <= PartLimit)
      && (forall i :: 0 <= i < |cs| - 1 ==> |cs[i]| == PartLimit)
      && |cs| >= 2
  {
    var rest := Chunks(review[PartLimit..], PartLimit);
    assert Chunks(review, PartLimit) == [review[..PartLimit]] + rest;
    assert |rest| > 0 by {
      assert Concat(rest) == review[PartLimit..];
    }
  }

  /** The number of problem markers in the review: its '❌' plus its '⚠️'. */
  function IssuesFound(review: string): (n: nat)
    ensures n == 0 <==> !Contains(review, "❌") && !Contains(review, "⚠️")
  {
    Count(review, "❌") + Count(review, "⚠️")
  }

  /** `process_code_review`; `review` is the agent's reply (None when it raises). */
  function ProcessCodeReview(fsm: Fsm, message: string, review: Option<string>): (t: ReviewTurn)
    ensures t.storedMessage == Some(Take(message, 1000))
    ensures review.Some? ==> && t.fsm == SetState(fsm, AnalyzingCode)
                             && t.replies == [AnalyzingReply] + ReplyParts(review.value) + [MoreQuestion]
                             && t.saved.Some?
                             && t.saved.value.snippet == Take(message, 500)
                             && t.saved.value.issuesFound == IssuesFound(review.value)
                             && t.saved.value.details == Take(review.value, 300)
    ensures review.None? ==> t.fsm == ClearedFsm && t.saved.None? && t.replies == [AnalyzingReply, ReviewFailedReply]
  {
    var stored := Take(message, 1000);
    match review
    case Some(r) =>
      var record := ReviewRecord("python", Take(message, 500), "Code review request", 70, IssuesFound(r),
                                 Take(r, 300), "Code review completed");
      ReviewTurn(SetState(fsm, AnalyzingCode), [AnalyzingReply] + ReplyParts(r) + [MoreQuestion], Some(stored), Some(record))
    case None =>
      ReviewTurn(ClearedFsm, [AnalyzingReply, ReviewFailedReply], Some(stored), None)
  }

  const MoreWords: seq<string> := ["✅ еще код", "еще", "да", "yes"]
  const FinishWords: seq<string> := ["❌ закончить", "нет", "no", "стоп"]
  const NextCodeReply: string := "Отправьте следующий код:"
  const FinishedReply: string := "✅ Code review завершен!"
  const UseButtonsReply: string := "Используйте кнопки или напишите 'еще' или 'закончить'"

  /** `process_review_choice`. */
  function ProcessReviewChoice(fsm: Fsm, message: string): (t: ReviewTurn)
    ensures Lower(message) in MoreWords ==> t.fsm == SetState(fsm, WaitingCode)
    ensures Lower(message) in FinishWords ==> t.fsm == ClearedFsm
    ensures Lower(message) !in MoreWords && Lower(message) !in FinishWords ==> t.fsm == fsm
    ensures t.saved.None? && t.storedMessage.None? && |t.replies| == 1
  {
    var text := Lower(message);
    if text in MoreWords then ReviewTurn(SetState(fsm, WaitingCode), [NextCodeReply], None, None)
    else if text in FinishWords then ReviewTurn(ClearedFsm, [FinishedReply], None, None)
    else ReviewTurn(fsm, [UseButtonsReply], None, None)
  }

  /** The buttons work in the letter case they are shown in. */
  lemma ButtonsRecognised(fsm: Fsm)
    ensures ProcessReviewChoice(fsm, "✅ Еще код").fsm.state == WaitingCode
    ensures ProcessReviewChoice(fsm, "❌ Закончить").fsm == ClearedFsm
  {
    assert Lower("✅ Еще код") == MoreWords[0];
    assert Lower("❌ Закончить") == FinishWords[0];
  }
}

=== FILE: reviewer.dfy ===
/** The deterministic text handling of the code-review agent: splitting a
    chat message into code and prose, the keyword extractor, the JSON
    pre-processing before `json.loads`, the decision logic of a review and
    the formatter of its result. The LLM and the JSON parser are parameters. */
module Reviewer {
  import opened Wrappers
  import opened Text
  import opened Collections

  /** What `extract_code_from_message` returns: the code, the surrounding text, the language. */
  datatype Extraction = Extraction(code: string, context: string, language: string)

  const Fence: string := "```"
  const DefaultLanguage: string := "python"

  // =====================================================================
  // Fenced code blocks
  // =====================================================================

  /** A line whose stripped form opens or closes a fenced block. */
  predicate IsFence(line: string)
  {
    StartsWith(Strip(line), Fence)
  }

  /** The first word of the tag after the backticks, when there is a tag. */
  function FenceTag(line: string): (tag: Option<string>)
    requires IsFence(line)
    ensures tag.Some? ==> IsWord(tag.value)
  {
    var rest := Strip(Strip(line)[|Fence|..]);
    if |rest| == 0 then None
    else
      StripIdempotent(Strip(line)[|Fence|..]);
      WordsEmptyIffBlank(rest);
      Some(Words(rest)[0])
  }

  /** The line-by-line scan: fence lines toggle the block, every other line
      goes to code inside a block and to context outside one; an opening fence
      with a tag sets the language. */
  datatype Scan = Scan(code: seq<string>, context: seq<string>, language: string)

  function ScanFences(lines: seq<string>, inBlock: bool, language: string): Scan
    decreases |lines|
  {
    if |lines| == 0 then Scan([], [], language)
    else
      var line := lines[0];
      if IsFence(line) then
        var language' := if !inBlock && FenceTag(line).Some? then FenceTag(line).value else language;
        ScanFences(lines[1..], !inBlock, language')
      else
        var r := ScanFences(lines[1..], inBlock, language);
        if inBlock then r.(code := [line] + r.code) else r.(context := [line] + r.context)
  }

  // ---- an index-based description of the same scan -------------------

  /** Which of `lines` are fence lines. */
  function FenceFlags(lines: seq<string>): (fs: seq<bool>)
    ensures |fs| == |lines|
  {
    Map(lines, IsFence)
  }

  /** Whether an odd number of flags are set. */
  function OddCount(bs: seq<bool>): bool
    decreases |bs|
  {
    if |bs| == 0 then false else bs[0] != OddCount(bs[1..])
  }

  /** Line `i` lies inside a block: an odd number of fences precede it
      (counted from a scan that started inside a block when `start` holds). */
  predicate InBlockAt(lines: seq<string>, start: bool, i: nat)
    requires i <= |lines|
  {
    start != OddCount(FenceFlags(lines)[..i])
  }

  function CodeMask(lines: seq<string>, start: bool): (m: seq<bool>)
    ensures |m| == |lines|
  {
    seq(|lines|, i requires 0 <= i < |lines| => !IsFence(lines[i]) && InBlockAt(lines, start, i))
  }

  function ContextMask(lines: seq<string>, start: bool): (m: seq<bool>)
    ensures |m| == |lines|
  {
    seq(|lines|, i requires 0 <= i < |lines| => !IsFence(lines[i]) && !InBlockAt(lines, start, i))
  }

  /** The language carried by line `i`: the tag of an opening fence. */
  function TagAt(lines: seq<string>, start: bool, i: nat): Option<string>
    requires i < |lines|
  {
    if IsFence(lines[i]) && !InBlockAt(lines, start, i) then FenceTag(lines[i]) else None
  }

  function TagSeq(lines: seq<string>, start: bool): (ts: seq<Option<string>>)
    ensures |ts| == |lines|
  {
    seq(|lines|, i requires 0 <= i < |lines| => TagAt(lines, start, i))
  }

  /** The elements of `xs` whose flag is set, in order. */
  function Filter<T>(xs: seq<T>, mask: seq<bool>): seq<T>
    requires |mask| == |xs|
    decreases |xs|
  {
    if |xs| == 0 then [] else (if mask[0] then [xs[0]] else []) + Filter(xs[1..], mask[1..])
  }

  /** The values of the `Some` entries, in order. */
  function Somes<T>(xs: seq<Option<T>>): seq<T>
    decreases |xs|
  {
    if |xs| == 0 then [] else (if xs[0].Some? then [xs[0].value] else []) + Somes(xs[1..])
  }

  /** The last element, or `default` for an empty sequence. */
  function LastOr<T>(xs: seq<T>, default: T): T
  {
    if |xs| == 0 then default else xs[|xs| - 1]
  }

  lemma OddCountPrefix(bs: seq<bool>, i: nat)
    requires 0 < i <= |bs|
    ensures OddCount(bs[..i]) == (bs[0] != OddCount(bs[1..][..i - 1]))
  {
    assert bs[..i][1..] == bs[1..][..i - 1];
  }

  lemma InBlockShift(lines: seq<string>, start: bool, i: nat)
    requires 1 <= i < |lines|
    ensures InBlockAt(lines, start, i)
         == InBlockAt(lines[1..], if IsFence(lines[0]) then !start else start, i - 1)
  {
    MapTail(lines, IsFence);
    OddCountPrefix(FenceFlags(lines), i);
  }

  /** Dropping the first line shifts every index by one and flips the
      starting parity exactly when that line is a fence. */
  lemma ShiftCodeMask(lines: seq<string>, start: bool)
    requires |lines| > 0
    ensures CodeMask(lines, start)[1..] == CodeMask(lines[1..], if IsFence(lines[0]) then !start else start)
  {
    var start' := if IsFence(lines[0]) then !start else start;
    forall i | 1 <= i < |lines|
      ensures CodeMask(lines, start)[i] == CodeMask(lines[1..], start')[i - 1]
    {
      InBlockShift(lines, start, i);
    }
  }

  lemma ShiftContextMask(lines: seq<string>, start: bool)
    requires |lines| > 0
    ensures ContextMask(lines, start)[1..] == ContextMask(lines[1..], if IsFence(lines[0]) then !start else start)
  {
    var start' := if IsFence(lines[0]) then !start else start;
    forall i | 1 <= i < |lines|
      ensures ContextMask(lines, start)[i] == ContextMask(lines[1..], start')[i - 1]
    {
      InBlockShift(lines, start, i);
    }
  }

  lemma ShiftTagSeq(lines: seq<string>, start: bool)
    requires |lines| > 0
    ensures TagSeq(lines, start)[1..] == TagSeq(lines[1..], if IsFence(lines[0]) then !start else start)
  {
    var start' := if IsFence(lines[0]) then !start else start;
    forall i | 1 <= i < |lines|
      ensures TagSeq(lines, start)[i] == TagSeq(lines[1..], start')[i - 1]
    {
      InBlockShift(lines, start, i);
      assert lines[1..][i - 1] == lines[i];
      assert TagSeq(lines, start)[i] == TagAt(lines, start, i);
      assert TagSeq(lines[1..], start')[i - 1] == TagAt(lines[1..], start', i - 1);
    }
  }

  /** The first line is inside a block exactly when the scan starts inside one. */
  lemma InBlockAtFirst(lines: seq<string>, start: bool)
    requires |lines| > 0
    ensures InBlockAt(lines, start, 0) == start
  {
    assert FenceFlags(lines)[..0] == [];
  }

  /** The code lines of `lines` in terms of those of `lines[1..]`. */
  lemma CodeStep(lines: seq<string>, start: bool)
    requires |lines| > 0
    ensures Filter(lines, CodeMask(lines, start))
         == (if !IsFence(lines[0]) && start then [lines[0]] else [])
            + Filter(lines[1..], CodeMask(lines[1..], if IsFence(lines[0]) then !start else start))
  {
    ShiftCodeMask(lines, start);
    InBlockAtFirst(lines, start);
  }

  /** The context lines of `lines` in terms of those of `lines[1..]`. */
  lemma ContextStep(lines: seq<string>, start: bool)
    requires |lines| > 0
    ensures Filter(lines, ContextMask(lines, start))
         == (if !IsFence(lines[0]) && !start then [lines[0]] else [])
            + Filter(lines[1..], ContextMask(lines[1..], if IsFence(lines[0]) then !start else start))
  {
    ShiftContextMask(lines, start);
    InBlockAtFirst(lines, start);
  }

  /** The language of `lines` in terms of that of `lines[1..]`. */
  lemma TagStep(lines: seq<string>, start: bool, language: string)
    requires |lines| > 0
    ensures var line := lines[0];
      var language' := if IsFence(line) && !start && FenceTag(line).Some? then FenceTag(line).value else language;
      LastOr(Somes(TagSeq(lines, start)), language)
      == LastOr(Somes(TagSeq(lines[1..], if IsFence(line) then !start else start)), language')
  {
    var ts := TagSeq(lines, start);
    ShiftTagSeq(lines, start);
    InBlockAtFirst(lines, start);
    assert ts[0] == TagAt(lines, start, 0);
    LastOrSomesCons(ts, language);
  }

  /** The scan agrees with the index-based description: a non-fence line is
      code exactly when an odd number of fences precede it (context
      otherwise), fence lines are dropped, and the language is the tag of
      the last opening fence that had one. */
  lemma {:induction false} ScanFencesByIndex(lines: seq<string>, start: bool, language: string)
    ensures var r := ScanFences(lines, start, language);
      && r.code == Filter(lines, CodeMask(lines, start))
      && r.context == Filter(lines, ContextMask(lines, start))
      && r.language == LastOr(Somes(TagSeq(lines, start)), language)
    decreases |lines|
  {
    if |lines| > 0 {
      var line := lines[0];
      CodeStep(lines, start);
      ContextStep(lines, start);
      TagStep(lines, start, language);
      if IsFence(line) {
        var language' := if !start && FenceTag(line).Some? then FenceTag(line).value else language;
        ScanFencesByIndex(lines[1..], !start, language');
      } else {
        ScanFencesByIndex(lines[1..], start, language);
      }
    }
  }

  lemma LastOrSomesCons<T>(ts: seq<Option<T>>, default: T)
    requires |ts| > 0
    ensures LastOr(Somes(ts), default)
         == LastOr(Somes(ts[1..]), if ts[0].Some? then ts[0].value else default)
  {
  }

  /** `extract_code_from_message`: fenced code first, the heuristic when no
      line ended up inside a block. */
  function ExtractCodeFromMessage(message: string): (e: Extraction)
    ensures var lines := Split(message, '\n');
      var code := Filter(lines, CodeMask(lines, false));
      && (|code| == 0 ==> e == FindCodeHeuristic(message))
      && (|code| > 0 ==>
            && e.code == Strip(Join(code, "\n"))
            && e.context == Strip(Join(Filter(lines, ContextMask(lines, false)), "\n"))
            && e.language == LastOr(Somes(TagSeq(lines, false)), DefaultLanguage))
  {
    var lines := Split(message, '\n');
    var r := ScanFences(lines, false, DefaultLanguage);
    ScanFencesByIndex(lines, false, DefaultLanguage);
    if |r.code| == 0 then FindCodeHeuristic(message)
    else Extraction(Strip(Join(r.code, "\n")), Strip(Join(r.context, "\n")), r.language)
  }

  /** Every line of the message is accounted for exactly once: it is a fence,
      or it is code, or it is context. */
  lemma FencedLinesPartition(lines: seq<string>, start: bool, i: nat)
    requires i < |lines|
    ensures IsFence(lines[i]) ==> !CodeMask(lines, start)[i] && !ContextMask(lines, start)[i]
    ensures !IsFence(lines[i]) ==> CodeMask(lines, start)[i] != ContextMask(lines, start)[i]
  {
  }

  // =====================================================================
  // Heuristic code detection
  // =====================================================================

  /** Substring indicators and the language each one suggests, in the order tried. */
  const CodeIndicators: seq<(string, string)> := [
    ("def ", "python"), ("class ", "python"), ("import ", "python"),
    ("function ", "javascript"), ("const ", "javascript"), ("let ", "javascript"),
    ("public ", "java"), ("private ", "java"), ("class ", "java"),
    ("#include ", "cpp"), ("using ", "cpp"),
    ("<?php", "php"), ("echo ", "php"),
    ("SELECT ", "sql"), ("INSERT ", "sql"), ("UPDATE ", "sql")
  ]

  /** The index of the first indicator (from `from` on) that occurs in `line`. */
  function IndicatorIndex(line: string, from: nat): (k: Option<nat>)
    requires from <= |CodeIndicators|
    ensures k.Some? ==> from <= k.value < |CodeIndicators| && Contains(line, CodeIndicators[k.value].0)
    ensures k.Some? ==> forall j :: from <= j < k.value ==> !Contains(line, CodeIndicators[j].0)
    ensures k.None? ==> forall j :: from <= j < |CodeIndicators| ==> !Contains(line, CodeIndicators[j].0)
    decreases |CodeIndicators| - from
  {
    if from == |CodeIndicators| then None
    else if Contains(line, CodeIndicators[from].0) then Some(from)
    else IndicatorIndex(line, from + 1)
  }

  /** A line counts as code when some indicator occurs in it. */
  predicate IsCodeLine(line: string)
  {
    exists j :: 0 <= j < |CodeIndicators| && Contains(line, CodeIndicators[j].0)
  }

  /** The language of the first indicator in table order, for a code line. */
  function LineLanguage(line: string): (l: Option<string>)
    ensures l.Some? <==> IsCodeLine(line)
  {
    match IndicatorIndex(line, 0)
    case Some(k) => Some(CodeIndicators[k].1)
    case None => None
  }

  function HeuristicScan(lines: seq<string>, language: string): Scan
    decreases |lines|
  {
    if |lines| == 0 then Scan([], [], language)
    else
      match LineLanguage(lines[0])
      case Some(l) =>
        var r := HeuristicScan(lines[1..], l);
        r.(code := [lines[0]] + r.code)
      case None =>
        var r := HeuristicScan(lines[1..], language);
        r.(context := [lines[0]] + r.context)
  }

  function CodeLineMask(lines: seq<string>): (m: seq<bool>)
    ensures |m| == |lines|
  {
    seq(|lines|, i requires 0 <= i < |lines| => IsCodeLine(lines[i]))
  }

  function ProseLineMask(lines: seq<string>): (m: seq<bool>)
    ensures |m| == |lines|
  {
    seq(|lines|, i requires 0 <= i < |lines| => !IsCodeLine(lines[i]))
  }

  function LanguageSeq(lines: seq<string>): (ls: seq<Option<string>>)
    ensures |ls| == |lines|
  {
    seq(|lines|, i requires 0 <= i < |lines| => LineLanguage(lines[i]))
  }

  lemma FilterComplementLength<T>(xs: seq<T>, m: seq<bool>, m': seq<bool>)
    requires |m| == |xs| && |m'| == |xs|
    requires forall i :: 0 <= i < |xs| ==> m'[i] == !m[i]
    ensures |Filter(xs, m)| + |Filter(xs, m')| == |xs|
    decreases |xs|
  {
    if |xs| > 0 {
      FilterComplementLength(xs[1..], m[1..], m'[1..]);
    }
  }

  /** The scan's code lines are the lines that contain some indicator. */
  lemma {:induction false} ScanCodeLines(lines: seq<string>, language: string)
    ensures HeuristicScan(lines, language).code == Filter(lines, CodeLineMask(lines))
    decreases |lines|
  {
    if |lines| > 0 {
      assert CodeLineMask(lines)[1..] == CodeLineMask(lines[1..]);
      match LineLanguage(lines[0])
      case Some(l) => ScanCodeLines(lines[1..], l);
      case None => ScanCodeLines(lines[1..], language);
    }
  }

  /** The scan's prose lines are the lines that contain no indicator. */
  lemma {:induction false} ScanProseLines(lines: seq<string>, language: string)
    ensures HeuristicScan(lines, language).context == Filter(lines, ProseLineMask(lines))
    decreases |lines|
  {
    if |lines| > 0 {
      assert ProseLineMask(lines)[1..] == ProseLineMask(lines[1..]);
      match LineLanguage(lines[0])
      case Some(l) => ScanProseLines(lines[1..], l);
      case None => ScanProseLines(lines[1..], language);
    }
  }

  /** The scan's language is that of the last code line, or `language`. */
  lemma {:induction false} ScanLanguage(lines: seq<string>, language: string)
    ensures HeuristicScan(lines, language).language == LastOr(Somes(LanguageSeq(lines)), language)
    decreases |lines|
  {
    if |lines| > 0 {
      assert LanguageSeq(lines)[1..] == LanguageSeq(lines[1..]);
      LastOrSomesCons(LanguageSeq(lines), language);
      match LineLanguage(lines[0])
      case Some(l) => ScanLanguage(lines[1..], l);
      case None => ScanLanguage(lines[1..], language);
    }
  }

  /** The heuristic scan agrees with a per-line description: a line is code
      iff it contains some indicator, every line lands on exactly one side,
      and the language is that of the last code line (default otherwise). */
  lemma HeuristicScanByLine(lines: seq<string>, language: string)
    ensures var r := HeuristicScan(lines, language);
      && r.code == Filter(lines, CodeLineMask(lines))
      && r.context == Filter(lines, ProseLineMask(lines))
      && |r.code| + |r.context| == |lines|
      && r.language == LastOr(Somes(LanguageSeq(lines)), language)
  {
    ScanCodeLines(lines, language);
    ScanProseLines(lines, language);
    ScanLanguage(lines, language);
    FilterComplementLength(lines, CodeLineMask(lines), ProseLineMask(lines));
  }

  /** `_find_code_heuristic`: code and prose lines re-joined, not stripped. */
  function FindCodeHeuristic(message: string): (e: Extraction)
    ensures var lines := Split(message, '\n');
      && e.code == Join(Filter(lines, CodeLineMask(lines)), "\n")
      && e.context == Join(Filter(lines, ProseLineMask(lines)), "\n")
      && e.language == LastOr(Somes(LanguageSeq(lines)), DefaultLanguage)
  {
    var lines := Split(message, '\n');
    var r := HeuristicScan(lines, DefaultLanguage);
    HeuristicScanByLine(lines, DefaultLanguage);
    Extraction(Join(r.code, "\n"), Join(r.context, "\n"), r.language)
  }

  /** "class " is listed for both Python and Java; the Python entries come
      first, so every line containing "class " reads as Python. */
  lemma ClassLineIsPython(line: string)
    requires Contains(line, "class ")
    ensures LineLanguage(line) == Some("python")
  {
    assert CodeIndicators[1] == ("class ", "python");
    var k := IndicatorIndex(line, 0);
    assert k.Some? && k.value <= 1;
    assert CodeIndicators[0].1 == "python";
  }

  /** The Java "class " indicator never decides a line's language: every line
      it matches has already matched the Python entry. */
  lemma JavaClassShadowed(line: string)
    requires Contains(line, CodeIndicators[8].0)
    ensures LineLanguage(line) == Some("python") && CodeIndicators[8].1 == "java"
  {
    ClassLineIsPython(line);
  }

  // =====================================================================
  // Keywords
  // =====================================================================

  /** Keywords looked for, per lower-cased language name. */
  const LanguageKeywords: seq<(string, seq<string>)> := [
    ("python", ["def ", "class ", "import ", "from ", "try:", "except ", "with ", "async ", "await "]),
    ("javascript", ["function ", "const ", "let ", "var ", "class ", "import ", "export ", "async ", "await "]),
    ("java", ["public ", "private ", "class ", "interface ", "import ", "try ", "catch "]),
    ("cpp", ["#include ", "using ", "namespace ", "class ", "public:", "private:"])
  ]

  /** The keywords after which a declared name is read. */
  const NameKeywords: seq<string> := ["def ", "class ", "function "]

  /** Substring patterns and the label each adds. */
  const PatternLabels: seq<(string, string)> := [
    ("for ", "цикл"), ("while ", "цикл"), ("if ", "условие"), ("else", "условие"),
    ("return ", "возврат"), ("print(", "вывод"), ("console.log", "вывод"), ("System.out", "вывод")
  ]

  /** The name after `keyword` on `line`: the text up to the next `keyword`,
      then up to the first '(' and the first ':', stripped. */
  function DeclaredName(line: string, keyword: string): string
    requires |keyword| > 0
  {
    Strip(BeforeFirst(BeforeFirst(BeforeFirst(AfterFirst(line, keyword), keyword), "("), ":"))
  }

  /** A declared name as the extractor keeps it: non-empty, with nothing to
      strip at either end. */
  predicate IsName(n: string)
  {
    |n| > 0 && !IsSpace(n[0]) && !IsSpace(n[|n| - 1])
  }

  /** The declared name of `line`, put in front of `rest` when the line
      contains `keyword` and the name is not empty. */
  function NameThen(line: string, keyword: string, rest: seq<string>): (ns: seq<string>)
    requires |keyword| > 0
    ensures ns == rest || (|ns| > 0 && ns == [ns[0]] + rest && IsName(ns[0]))
  {
    var name := DeclaredName(line, keyword);
    if Contains(line, keyword) && |name| > 0 then
      DeclaredNameIsName(line, keyword);
      [name] + rest
    else rest
  }

  /** A non-empty declared name has been stripped. */
  lemma DeclaredNameIsName(line: string, keyword: string)
    requires |keyword| > 0 && |DeclaredName(line, keyword)| > 0
    ensures IsName(DeclaredName(line, keyword))
  {
  }

  lemma NamesCons(name: string, rest: seq<string>)
    requires IsName(name) && forall i :: 0 <= i < |rest| ==> IsName(rest[i])
    ensures forall i :: 0 <= i < |[name] + rest| ==> IsName(([name] + rest)[i])
  {
    var ns := [name] + rest;
    assert forall i :: 1 <= i < |ns| ==> ns[i] == rest[i - 1];
  }

  /** The non-empty declared names on the lines that contain `keyword`. */
  function NamesOnLines(lines: seq<string>, keyword: string): (ns: seq<string>)
    requires |keyword| > 0
    ensures forall i :: 0 <= i < |ns| ==> IsName(ns[i])
    decreases |lines|
  {
    if |lines| == 0 then []
    else
      var rest := NamesOnLines(lines[1..], keyword);
      var ns := NameThen(lines[0], keyword, rest);
      if ns == rest then ns
      else NamesCons(ns[0], rest); ns
  }

  /** The names contributed by the language's keyword list, in list order. */
  function KeywordNames(code: string, keys: seq<string>): (ns: seq<string>)
    ensures forall i :: 0 <= i < |ns| ==> IsName(ns[i])
    decreases |keys|
  {
    if |keys| == 0 then []
    else
      var rest := KeywordNames(code, keys[1..]);
      var k := keys[0];
      if |k| > 0 && Contains(code, k) && k in NameKeywords then NamesOnLines(Split(code, '\n'), k) + rest
      else rest
  }

  /** The labels of the patterns that occur in `code`, in table order. */
  function PatternHits(code: string, from: nat): (ls: seq<string>)
    requires from <= |PatternLabels|
    ensures forall i :: 0 <= i < |ls| ==> exists j :: from <= j < |PatternLabels| && ls[i] == PatternLabels[j].1
    decreases |PatternLabels| - from
  {
    if from == |PatternLabels| then []
    else
      var rest := PatternHits(code, from + 1);
      if Contains(code, PatternLabels[from].0) then [PatternLabels[from].1] + rest else rest
  }

  /** Everything the extractor collects before de-duplication. */
  function KeywordCandidates(code: string, language: string): seq<string>
  {
    KeywordNames(code, Lookup(LanguageKeywords, Lower(language)).GetOr([])) + PatternHits(code, 0)
  }

  /** A keyword is either a pattern label or a stripped, non-empty declared name. */
  predicate IsKeyword(w: string)
  {
    (exists j :: 0 <= j < |PatternLabels| && w == PatternLabels[j].1) || IsName(w)
  }

  lemma CandidatesAreKeywords(code: string, language: string)
    ensures forall c :: c in KeywordCandidates(code, language) ==> IsKeyword(c)
  {
    var n := KeywordNames(code, Lookup(LanguageKeywords, Lower(language)).GetOr([]));
    var h := PatternHits(code, 0);
    assert KeywordCandidates(code, language) == n + h;
    forall k | 0 <= k < |n| + |h|
      ensures IsKeyword((n + h)[k])
    {
      if k >= |n| {
        assert (n + h)[k] == h[k - |n|];
      }
    }
  }

  /** `_extract_keywords_from_code`: at most ten distinct candidates. Python
      takes them from a `set`, whose order is unspecified; the model keeps
      first-occurrence order. */
  function ExtractKeywordsFromCode(code: string, language: string): (ks: seq<string>)
    ensures |ks| == if |Dedup(KeywordCandidates(code, language))| <= 10
                    then |Dedup(KeywordCandidates(code, language))| else 10
    ensures forall i, j :: 0 <= i < j < |ks| ==> ks[i] != ks[j]
    ensures forall i :: 0 <= i < |ks| ==> ks[i] in KeywordCandidates(code, language) && IsKeyword(ks[i])
    ensures |Dedup(KeywordCandidates(code, language))| <= 10 ==>
              forall c :: c in KeywordCandidates(code, language) ==> c in ks
  {
    var cs := KeywordCandidates(code, language);
    CandidatesAreKeywords(code, language);
    TakeDedup(cs, 10);
    TakeSeq(Dedup(cs), 10)
  }

  // =====================================================================
  // JSON pre-processing
  // =====================================================================

  /** Drops one leading "```json" (otherwise one leading "```"), then one
      trailing "```", stripping after each cut. */
  function StripFences(text: string): (t: string)
    ensures |t| <= |text|
  {
    var t := if StartsWith(text, "```json") then Strip(text[7..])
             else if StartsWith(text, Fence) then Strip(text[3..])
             else text;
    CutClosingFence(t)
  }

  /** The first index of `c` in `s`. */
  function FirstIndexOf(s: string, c: char): (i: Option<nat>)
    ensures i.Some? ==> i.value < |s| && s[i.value] == c && forall k :: 0 <= k < i.value ==> s[k] != c
    ensures i.None? ==> forall k :: 0 <= k < |s| ==> s[k] != c
    decreases |s|
  {
    if |s| == 0 then None
    else if s[0] == c then Some(0)
    else match FirstIndexOf(s[1..], c)
      case Some(i) => Some(i + 1)
      case None => None
  }

  /** The last index of `c` in `s`. */
  function LastIndexOf(s: string, c: char): (i: Option<nat>)
    ensures i.Some? ==> i.value < |s| && s[i.value] == c && forall k :: i.value < k < |s| ==> s[k] != c
    ensures i.None? ==> forall k :: 0 <= k < |s| ==> s[k] != c
    decreases |s|
  {
    if |s| == 0 then None
    else if s[|s| - 1] == c then Some(|s| - 1)
    else LastIndexOf(s[..|s| - 1], c)
  }

  /** Where `re.search(r'\{.*\}', text, re.DOTALL)` matches: from the first
      '{' to the last '}', when some '{' precedes some '}'. */
  function BraceSpan(text: string): (r: Option<(nat, nat)>)
    ensures r.Some? ==> var (i, j) := r.value;
      && i < j < |text| && text[i] == '{' && text[j] == '}'
      && (forall k :: 0 <= k < i ==> text[k] != '{')
      && (forall k :: j < k < |text| ==> text[k] != '}')
    ensures r.None? ==> forall i, j :: 0 <= i < j < |text| && text[i] == '{' ==> text[j] != '}'
  {
    match (FirstIndexOf(text, '{'), LastIndexOf(text, '}'))
    case (Some(i), Some(j)) => if i < j then Some((i, j)) else None
    case _ => None
  }

  /** The text the regex match selects. */
  function SpanText(text: string): Option<string>
  {
    match BraceSpan(text)
    case Some((i, j)) => Some(text[i..j + 1])
    case None => None
  }

  /** `_extract_json` with `json.loads` as the oracle `parse` (None when it raises). */
  function ExtractJson<J>(text: string, parse: string -> Option<J>): Option<J>
  {
    var t := StripFences(text);
    match SpanText(t)
    case Some(span) => if parse(span).Some? then parse(span) else parse(t)
    case None => parse(t)
  }

  /** `_extract_json` raises exactly when neither the brace span nor the
      whole cleaned text parses; the span wins when it parses. */
  lemma ExtractJsonOutcome<J>(text: string, parse: string -> Option<J>)
    ensures var t := StripFences(text);
      && (ExtractJson(text, parse).None? <==>
            (SpanText(t).None? || parse(SpanText(t).value).None?) && parse(t).None?)
      && (SpanText(t).Some? && parse(SpanText(t).value).Some? ==>
            ExtractJson(text, parse) == parse(SpanText(t).value))
  {
  }

  /** Cutting a closing fence off `t`, then stripping. */
  function CutClosingFence(t: string): (r: string)
    ensures |r| <= |t|
  {
    if EndsWith(t, Fence) then Strip(t[..|t| - 3]) else t
  }

  lemma StripFencesJsonFence(rest: string)
    ensures StripFences("```json" + rest) == CutClosingFence(Strip(rest))
  {
    var text := "```json" + rest;
    assert StartsWith(text, "```json") by { assert text[..7] == "```json"; }
    assert text[7..] == rest;
    assert StripFences(text) == CutClosingFence(Strip(text[7..]));
  }

  lemma CutClosingFenceOf(body: string)
    requires |body| > 0 && !IsSpace(body[0]) && !IsSpace(body[|body| - 1])
    ensures CutClosingFence(body + "\n```") == body
  {
    var framed := body + "\n```";
    assert EndsWith(framed, Fence) by { assert framed[|framed| - 3..] == Fence; }
    assert framed[..|framed| - 3] == "" + body + "\n";
    assert AllSpace("\n") && AllSpace("");
    StripFramed("", body, "\n");
  }

  lemma StripLeadingNewline(framed: string)
    requires |framed| > 0 && !IsSpace(framed[0]) && !IsSpace(framed[|framed| - 1])
    ensures Strip("\n" + framed) == framed
  {
    assert AllSpace("\n") && AllSpace("");
    assert "\n" + framed + "" == "\n" + framed;
    StripFramed("\n", framed, "");
  }

  /** A JSON body wrapped in a "```json" fence comes back out unchanged. */
  lemma StripFencesRoundTrip(body: string)
    requires |body| > 0 && !IsSpace(body[0]) && !IsSpace(body[|body| - 1])
    ensures StripFences("```json\n" + body + "\n```") == body
  {
    var framed := body + "\n```";
    assert framed[0] == body[0] && framed[|framed| - 1] == '`';
    calc {
      StripFences("```json\n" + body + "\n```");
      { assert "```json\n" + body + "\n```" == "```json" + ("\n" + framed); }
      StripFences("```json" + ("\n" + framed));
      { StripFencesJsonFence("\n" + framed); }
      CutClosingFence(Strip("\n" + framed));
      { StripLeadingNewline(framed); }
      CutClosingFence(framed);
      { CutClosingFenceOf(body); }
      body;
    }
  }

  /** A text that does not open with "```" does not open with "```json". */
  lemma NoFenceNoJsonFence(s: string)
    requires !StartsWith(s, Fence)
    ensures !StartsWith(s, "```json")
  {
    if |s| >= 7 {
      assert s[..7][..3] == s[..3];
      assert "```json"[..3] == Fence;
    }
  }

  /** A bare JSON body (no fences around it) is left untouched. */
  lemma StripFencesIdentity(body: string)
    requires !StartsWith(body, Fence) && !EndsWith(body, Fence)
    ensures StripFences(body) == body
  {
    NoFenceNoJsonFence(body);
  }

  // =====================================================================
  // Review
  // =====================================================================

  datatype Issue = Issue(kind: string, line: Option<int>, description: string, recommendation: string,
                         severity: string, snippet: Option<string>)

  /** `ReviewResult`; an absent `similar_solutions` is kept as the empty list,
      which the formatter treats the same way. */
  datatype ReviewResult = ReviewResult(summary: string, issues: seq<Issue>, score: int, followUp: string,
                                       strengths: seq<string>, improvements: seq<string>,
                                       similar: seq<string>, ragUsed: bool)

  /** One issue object of the parsed JSON: each key may be missing. */
  datatype IssueData = IssueData(kind: Option<string>, line: Option<int>, description: Option<string>,
                                 recommendation: Option<string>, severity: Option<string>,
                                 snippet: Option<string>)

  /** The parsed JSON object, with each key possibly missing. */
  datatype ReviewData = ReviewData(summary: Option<string>, issues: Option<seq<IssueData>>, score: Option<int>,
                                   followUp: Option<string>, strengths: Option<seq<string>>,
                                   improvements: Option<seq<string>>, similar: Option<seq<string>>)

  /** Which prompt template the LLM receives and what is filled into it. */
  datatype ReviewPrompt =
    | WithRag(code: string, context: string, language: string, ragContext: string)
    | WithoutRag(code: string, context: string, language: string)

  const RagMarker: string := "Лучшие практики"

  /** The knowledge-base prompt is used only when RAG is on and its context
      mentions best practices. */
  predicate UsesRag(useRag: bool, ragContext: string)
  {
    useRag && |ragContext| > 0 && Contains(ragContext, RagMarker)
  }

  function IssueOf(d: IssueData): (i: Issue)
    ensures d.kind.None? ==> i.kind == "style"
    ensures d.severity.None? ==> i.severity == "medium"
    ensures i.line == d.line && i.snippet == d.snippet
  {
    Issue(d.kind.GetOr("style"), d.line, d.description.GetOr(""), d.recommendation.GetOr(""),
          d.severity.GetOr("medium"), d.snippet)
  }

  /** The result built from a parsed object, with the documented defaults. */
  function ResultOf(d: ReviewData, ragUsed: bool): (r: ReviewResult)
    ensures |r.issues| == |d.issues.GetOr([])|
    ensures forall k :: 0 <= k < |r.issues| ==> r.issues[k] == IssueOf(d.issues.value[k])
    ensures d.score.None? ==> r.score == 50
    ensures d.summary.None? ==> r.summary == "Review completed"
    ensures r.ragUsed == ragUsed
  {
    var issues := d.issues.GetOr([]);
    ReviewResult(d.summary.GetOr("Review completed"),
                 seq(|issues|, k requires 0 <= k < |issues| => IssueOf(issues[k])),
                 d.score.GetOr(50), d.followUp.GetOr("Any specific concerns?"),
                 d.strengths.GetOr([]), d.improvements.GetOr([]), d.similar.GetOr([]), ragUsed)
  }

  /** The result returned when anything in the review raises. */
  const FallbackResult: ReviewResult :=
    ReviewResult("Basic code analysis completed", [], 50, "Could you provide more context about this code?",
                 ["Code structure is readable"], ["Add more comments", "Consider error handling"], [], false)

  /** `review`: choose the prompt, ask the LLM (`chat`, None when it raises),
      extract and parse the JSON (`parse`, `decode`), and fall back on any failure. */
  function Review<J>(code: string, context: string, language: string, useRag: bool, ragContext: string,
                     chat: ReviewPrompt -> Option<string>, parse: string -> Option<J>,
                     decode: J -> Option<ReviewData>): (r: ReviewResult)
    ensures r == FallbackResult || r.ragUsed == UsesRag(useRag, ragContext)
  {
    var rag := UsesRag(useRag, ragContext);
    var prompt := if rag then WithRag(code, context, language, ragContext) else WithoutRag(code, context, language);
    match chat(prompt)
    case None => FallbackResult
    case Some(reply) =>
      match ExtractJson(reply, parse)
      case None => FallbackResult
      case Some(j) =>
        match decode(j)
        case None => FallbackResult
        case Some(d) => ResultOf(d, rag)
  }

  /** A failing review scores 50, lists no issues and reports no knowledge-base use;
      a successful one reports whether the knowledge-base prompt was used. */
  lemma ReviewOutcome<J>(code: string, context: string, language: string, useRag: bool, ragContext: string,
                         chat: ReviewPrompt -> Option<string>, parse: string -> Option<J>,
                         decode: J -> Option<ReviewData>)
    ensures var rag := UsesRag(useRag, ragContext);
      var prompt := if rag then WithRag(code, context, language, ragContext) else WithoutRag(code, context, language);
      var r := Review(code, context, language, useRag, ragContext, chat, parse, decode);
      && (chat(prompt).None? ==> r.score == 50 && r.issues == [] && !r.ragUsed)
      && (chat(prompt).Some? && ExtractJson(chat(prompt).value, parse).None? ==> r.score == 50 && r.issues == [] && !r.ragUsed)
      && (chat(prompt).Some? && ExtractJson(chat(prompt).value, parse).Some?
          && decode(ExtractJson(chat(prompt).value, parse).value).Some? ==>
            r == ResultOf(decode(ExtractJson(chat(prompt).value, parse).value).value, rag))
  {
  }

  // =====================================================================
  // Formatting the result
  // =====================================================================

  /** One type group as shown: its type, how many issues it has, the ones listed. */
  datatype GroupView = GroupView(kind: string, total: nat, shown: seq<Issue>)

  /** What the formatter shows, before it is laid out as lines. */
  datatype ReviewView = ReviewView(score: int, summary: string, ragUsed: bool, strengths: seq<string>,
                                   groups: seq<GroupView>, improvements: seq<string>,
                                   similar: seq<string>, followUp: string)

  function IssueKind(i: Issue): string { i.kind }

  function GroupViews(gs: seq<Group<string, Issue>>): (vs: seq<GroupView>)
    ensures |vs| == |gs|
    ensures forall k :: 0 <= k < |gs| ==>
              vs[k] == GroupView(gs[k].key, |gs[k].members|, TakeSeq(gs[k].members, 3))
  {
    seq(|gs|, k requires 0 <= k < |gs| => GroupView(gs[k].key, |gs[k].members|, TakeSeq(gs[k].members, 3)))
  }

  function ViewOf(r: ReviewResult): ReviewView
  {
    ReviewView(r.score, r.summary, r.ragUsed, TakeSeq(r.strengths, 3),
               GroupViews(GroupBy(r.issues, IssueKind)), TakeSeq(r.improvements, 3),
               TakeSeq(r.similar, 2), r.followUp)
  }

  function SumTotals(vs: seq<GroupView>): nat
    decreases |vs|
  {
    if |vs| == 0 then 0 else vs[0].total + SumTotals(vs[1..])
  }

  lemma {:induction false} SumTotalsOfViews(gs: seq<Group<string, Issue>>)
    ensures SumTotals(GroupViews(gs)) == SumSizes(gs)
    decreases |gs|
  {
    if |gs| > 0 {
      SumTotalsOfViews(gs[1..]);
      assert GroupViews(gs)[1..] == GroupViews(gs[1..]);
    }
  }

  /** The formatter's limits: the first three strengths and improvements and
      the first two similar solutions, or all of a shorter list; issues grouped by type in
      order of first appearance, each group reporting its full size while
      listing at most its first three issues; the group sizes add up to the
      number of issues. */
  lemma ViewOfLimits(r: ReviewResult)
    ensures var v := ViewOf(r);
      && |v.strengths| == (if |r.strengths| <= 3 then |r.strengths| else 3)
      && v.strengths == r.strengths[..|v.strengths|]
      && |v.improvements| == (if |r.improvements| <= 3 then |r.improvements| else 3)
      && v.improvements == r.improvements[..|v.improvements|]
      && |v.similar| == (if |r.similar| <= 2 then |r.similar| else 2)
      && v.similar == r.similar[..|v.similar|]
      && Map(v.groups, (g: GroupView) => g.kind) == Dedup(Map(r.issues, IssueKind))
      && (forall k :: 0 <= k < |v.groups| ==>
            && v.groups[k].total == |Select(r.issues, IssueKind, v.groups[k].kind)| > 0
            && v.groups[k].shown == TakeSeq(Select(r.issues, IssueKind, v.groups[k].kind), 3))
      && SumTotals(v.groups) == |r.issues|
      && (|v.groups| == 0 <==> |r.issues| == 0)
  {
    var gs := GroupBy(r.issues, IssueKind);
    var v := ViewOf(r);
    GroupByCorrect(r.issues, IssueKind);
    SumTotalsOfViews(gs);
    assert Map(v.groups, (g: GroupView) => g.kind) == Keys(gs);
    if |r.issues| > 0 {
      assert IssueKind(r.issues[0]) in Dedup(Map(r.issues, IssueKind)) by {
        assert Map(r.issues, IssueKind)[0] == IssueKind(r.issues[0]);
      }
    }
  }

  const NoProblemsLine: string := "✅ **Проблем не обнаружено! Отличная работа!**"
  const IssuesHeaderLine: string := "❌ **Найденные проблемы:**"
  const FollowUpLabel: string := "💭 **Вопрос для уточнения:** "

  function Bullets(items: seq<string>): (ls: seq<string>)
    ensures |ls| == |items|
  {
    seq(|items|, k requires 0 <= k < |items| => "   • " + items[k])
  }

  function HeaderLines(v: ReviewView): seq<string>
  {
    [ "🔍 **Результат Code Review**", "",
      "📊 **Общая оценка:** " + IntToString(v.score) + "/100",
      "📝 **Резюме:** " + v.summary,
      "📚 **Использована база знаний:** " + (if v.ragUsed then "✅ Да" else "❌ Нет"),
      "" ]
  }

  function StrengthLines(strengths: seq<string>): seq<string>
  {
    if |strengths| == 0 then [] else ["✅ **Сильные стороны:**"] + Bullets(strengths) + [""]
  }

  /** The lines for the `n`-th listed issue (1-based). */
  function IssueItemLines(issue: Issue, n: nat): seq<string>
  {
    ["   " + NatToString(n) + ". " + issue.description]
    + (if issue.line.Some? && issue.line.value != 0 then ["      📍 Строка " + IntToString(issue.line.value)] else [])
    + ["      💡 **Рекомендация:** " + issue.recommendation]
    + (if issue.snippet.Some? && |issue.snippet.value| > 0
       then ["      📝 **Код:** `" + Take(issue.snippet.value, 100) + "...`"] else [])
    + ["      ⚠️  **Важность:** " + issue.severity]
  }

  function ItemLines(shown: seq<Issue>, n: nat): seq<string>
    decreases |shown|
  {
    if |shown| == 0 then [] else IssueItemLines(shown[0], n) + ItemLines(shown[1..], n + 1)
  }

  function GroupLines(g: GroupView): seq<string>
  {
    ["", "**" + Upper(g.kind) + "** (" + NatToString(g.total) + "):"] + ItemLines(g.shown, 1)
  }

  function GroupsLines(gs: seq<GroupView>): seq<string>
    decreases |gs|
  {
    if |gs| == 0 then [] else GroupLines(gs[0]) + GroupsLines(gs[1..])
  }

  /** The issues part: the grouped listing, or the "no problems" pair. */
  function IssueSection(groups: seq<GroupView>): (ls: seq<string>)
    ensures |ls| > 0
    ensures ls == [NoProblemsLine, ""] <==> |groups| == 0
  {
    if |groups| == 0 then [NoProblemsLine, ""] else [IssuesHeaderLine] + GroupsLines(groups)
  }

  function ImprovementLines(improvements: seq<string>): seq<string>
  {
    if |improvements| == 0 then [] else ["", "🚀 **Рекомендации по улучшению:**"] + Bullets(improvements)
  }

  function SimilarLines(similar: seq<string>): seq<string>
  {
    if |similar| == 0 then []
    else ["", "🔍 **Похожие подходы:**"]
         + seq(|similar|, k requires 0 <= k < |similar| => "   • " + Take(similar[k], 150) + "...")
  }

  function RenderLines(v: ReviewView): (ls: seq<string>)
    ensures |ls| > 0 && ls[|ls| - 1] == FollowUpLabel + v.followUp
  {
    HeaderLines(v) + StrengthLines(v.strengths) + IssueSection(v.groups) + ImprovementLines(v.improvements)
    + SimilarLines(v.similar) + ["", FollowUpLabel + v.followUp]
  }

  /** `format_review_response`. */
  function FormatReview(r: ReviewResult): string
  {
    Join(RenderLines(ViewOf(r)), "\n")
  }

  /** The reply always ends with the follow-up question, and its issue part
      is the "no problems" pair exactly when there are no issues. */
  lemma FormatReviewShape(r: ReviewResult)
    ensures EndsWith(FormatReview(r), FollowUpLabel + r.followUp)
    ensures IssueSection(ViewOf(r).groups) == [NoProblemsLine, ""] <==> |r.issues| == 0
  {
    JoinEndsWithLast(RenderLines(ViewOf(r)), "\n");
    ViewOfLimits(r);
  }

  // =====================================================================
  // Processing a message
  // =====================================================================

  /** The reply when no usable code was found. */
  const CodeNotFoundReply: string := Join([
    "",
    "                ❌ **Код не найден или слишком короткий**",
    "",
    "                Пожалуйста, отправьте код в формате:",
    "                ```",
    "                ваш код здесь",
    "                ```",
    "",
    "                Или опишите задачу и приложите код в том же сообщении.",
    "                "
  ], "\n")

  /** The reply, and the extraction handed to `review` when it was called. */
  datatype Processed = Processed(reply: string, reviewed: Option<Extraction>)

  /** `process_message`, with `review` as an oracle. */
  function ProcessMessage(message: string, review: Extraction -> ReviewResult): (p: Processed)
    ensures var e := ExtractCodeFromMessage(message);
      && (p.reviewed.None? <==> |Strip(e.code)| < 10)
      && (p.reviewed.None? ==> p.reply == CodeNotFoundReply)
      && (p.reviewed.Some? ==> p.reviewed.value == e && EndsWith(p.reply, FollowUpLabel + review(e).followUp))
  {
    var e := ExtractCodeFromMessage(message);
    if |Strip(e.code)| < 10 then Processed(CodeNotFoundReply, None)
    else
      FormatReviewShape(review(e));
      Processed(FormatReview(review(e)), Some(e))
  }
}

=== FILE: scenario_quality.dfy ===
/** The helpers of the scenario-quality test: the agent a step's expected
    agent names (used to report coverage), and the content check that lists
    the steps with an empty query, an empty agent or an unknown agent. The
    scenario file is a parameter. */
module ScenarioQuality {
  import opened Wrappers
  import opened Text
  import opened Collections
  import opened Metrics

  // ---------------------------------------------------------------------
  // Agent names
  // ---------------------------------------------------------------------

  /** The table of this helper: the handler names and "start". */
  function HandlerMapping(name: string): Option<string>
  {
    match name
    case "start_handler" => Some("coordinator")
    case "assessment_handler" => Some("assessor")
    case "planning_handler" => Some("planner")
    case "interview_handler" => Some("interviewer")
    case "review_handler" => Some("reviewer")
    case "general_handler" => Some("coordinator")
    case "start" => Some("coordinator")
    case _ => None
  }

  /** The text before the first arrow, lower-cased; unlike the accuracy
      test's helper, nothing is stripped after lower-casing. */
  function LoweredName(s: string): string
  {
    Lower(BeforeArrow(s))
  }

  /** `_extract_agent_name` as written: the `_handler` suffix is dropped
      before the table is consulted. */
  function ExtractAgentNameAsWritten(s: string): (r: Option<string>)
    ensures |s| == 0 ==> r.None?
    ensures r.Some? ==> r.value in {"coordinator", "assessor", "planner", "interviewer", "reviewer"}
  {
    if |s| == 0 then None else HandlerMapping(DropHandlerSuffix(LoweredName(s)))
  }

  /** The handler keys that name an agent other than the coordinator. */
  const SpecialistKeys: seq<string> := ["assessment_handler", "planning_handler", "interview_handler", "review_handler"]

  lemma SpecialistKeysAreHandlers(i: nat)
    requires i < |SpecialistKeys|
    ensures EndsWith(SpecialistKeys[i], HandlerSuffix)
  {
  }

  /** The keys of the table that give an agent other than the coordinator. */
  lemma SpecialistKeysExact(k: string)
    requires HandlerMapping(k).Some? && HandlerMapping(k).value != "coordinator"
    ensures k in SpecialistKeys
  {
  }

  /** A name that ends in `p` once its `p` is cut off ends in `p` twice, so a
      cut name is a handler key only when the original carried the suffix twice. */
  lemma SuffixTwice(l: string, key: string, p: string)
    requires EndsWith(key, p)
    requires EndsWith(l, p) ==> key + p == l
    requires !EndsWith(l, p) ==> key == l
    ensures EndsWith(l, p + p)
  {
    if EndsWith(l, p) {
      var cut := key[..|key| - |p|];
      assert key == cut + p;
      assert l == cut + (p + p);
    }
  }

  lemma CutToHandlerKey(l: string, i: nat)
    requires i < |SpecialistKeys| && DropHandlerSuffix(l) == SpecialistKeys[i]
    ensures EndsWith(l, HandlerSuffix + HandlerSuffix)
  {
    SpecialistKeysAreHandlers(i);
    SuffixTwice(l, SpecialistKeys[i], HandlerSuffix);
  }

  /** As written, the assessor, the planner, the interviewer and the
      reviewer are only recognised in names that end in `_handler_handler`. */
  lemma SpecialistsNeedDoubleSuffix(s: string)
    requires ExtractAgentNameAsWritten(s).Some? && ExtractAgentNameAsWritten(s).value != "coordinator"
    ensures EndsWith(LoweredName(s), HandlerSuffix + HandlerSuffix)
  {
    var key := DropHandlerSuffix(LoweredName(s));
    SpecialistKeysExact(key);
    var i :| 0 <= i < |SpecialistKeys| && SpecialistKeys[i] == key;
    CutToHandlerKey(LoweredName(s), i);
  }

  /** The keys of the accuracy test's table are left alone before the cut. */
  lemma LoweredNameOfKey(i: nat)
    requires i < |AgentKeys|
    ensures LoweredName(AgentKeys[i]) == AgentKeys[i]
  {
    AgentKeyLower(i);
    AgentKeyPlain(i);
    MissingCharNotContained(AgentKeys[i], Arrow, 0);
  }

  lemma AssessmentNotAKey()
    ensures HandlerMapping("assessment") == None
  {
  }

  /** The plain key "assessment_handler" is not recognised as written. */
  lemma AssessmentHandlerUnnamed()
    ensures HandlerMapping(AgentKeys[1]) == Some("assessor")
    ensures ExtractAgentNameAsWritten(AgentKeys[1]).None?
  {
    LoweredNameOfKey(1);
    AssessmentSuffixCut();
    AssessmentNotAKey();
    HandlerKeysShared(1);
  }

  /** `_extract_agent_name` with the table consulted first on the full
      lower-cased name and only then on the name without its suffix. */
  function ExtractAgentName(s: string): (r: Option<string>)
    ensures |s| == 0 ==> r.None?
    ensures |s| > 0 && HandlerMapping(LoweredName(s)).Some? ==> r == HandlerMapping(LoweredName(s))
    ensures |s| > 0 && HandlerMapping(LoweredName(s)).None? ==> r == ExtractAgentNameAsWritten(s)
    ensures r.Some? ==> r.value in {"coordinator", "assessor", "planner", "interviewer", "reviewer"}
  {
    if |s| == 0 then None
    else match HandlerMapping(LoweredName(s))
      case Some(a) => Some(a)
      case None => ExtractAgentNameAsWritten(s)
  }

  /** The first seven keys of the accuracy test's table are this helper's
      keys, with the same agents. */
  lemma HandlerKeysShared(i: nat)
    requires i < 7
    ensures HandlerMapping(AgentKeys[i]) == AgentMapping(AgentKeys[i])
    ensures HandlerMapping(AgentKeys[i]).Some?
  {
  }

  /** Every key of the table gives its agent, and the two helpers agree on it. */
  lemma ExtractAgentNameFollowsTable(i: nat)
    requires i < 7
    ensures ExtractAgentName(AgentKeys[i]) == HandlerMapping(AgentKeys[i])
    ensures ExtractAgentName(AgentKeys[i]) == Some(NormalizeAgent(AgentKeys[i]))
  {
    AgentKeyLower(i);
    AgentKeyPlain(i);
    MissingCharNotContained(AgentKeys[i], Arrow, 0);
    HandlerKeysShared(i);
    NormalizeAgentFollowsTable(i);
  }

  // ---------------------------------------------------------------------
  // Content validation
  // ---------------------------------------------------------------------

  /** The names the content check accepts: the agent names other than
      "start", then the six handler names, in the test's order. */
  const ValidAgents: seq<string> := NameKeys[1..] + HandlerKeys

  /** Python's `any(name in text for name in names)`. */
  function AnyContained(names: seq<string>, text: string): (b: bool)
    ensures b <==> exists i :: 0 <= i < |names| && Contains(text, names[i])
  {
    if |names| == 0 then false
    else
      var rest := AnyContained(names[1..], text);
      assert forall i :: 1 <= i < |names| ==> names[i] == names[1..][i - 1];
      Contains(text, names[0]) || rest
  }

  /** A step's agent is known when its lower-cased form contains a valid name. */
  predicate IsValidAgent(agent: string)
  {
    AnyContained(ValidAgents, Lower(agent))
  }

  /** Every valid name is known, in any letter case. */
  lemma ValidAgentsAccepted(i: nat)
    requires i < |ValidAgents|
    ensures IsValidAgent(ValidAgents[i]) && IsValidAgent(Upper(ValidAgents[i]))
  {
    var v := ValidAgents[i];
    if i < |NameKeys| - 1 {
      NameKeySnakeCase(i + 1);
    } else {
      HandlerKeySnakeCase(i - (|NameKeys| - 1));
    }
    LowerOfLowerAscii(v);
    LowerUpperRoundTrip(v);
    assert OccursAt(v, v, 0);
  }

  lemma ValidAgentsLong(i: nat)
    requires i < |ValidAgents|
    ensures |ValidAgents[i]| > |AgentKeys[6]|
  {
  }

  /** The two helpers disagree on "start": it names the coordinator, yet the
      content check reports it as an unknown agent. */
  lemma StartNamedButUnknown()
    ensures ExtractAgentName(AgentKeys[6]) == Some("coordinator")
    ensures ExtractAgentNameAsWritten(AgentKeys[6]) == Some("coordinator")
    ensures !IsValidAgent(AgentKeys[6])
  {
    ExtractAgentNameFollowsTable(6);
    AgentKeyLower(6);
    AgentKeyPlain(6);
    MissingCharNotContained(AgentKeys[6], Arrow, 0);
    assert !EndsWith(AgentKeys[6], HandlerSuffix);
    forall i | 0 <= i < |ValidAgents|
      ensures !Contains(Lower(AgentKeys[6]), ValidAgents[i])
    {
      ValidAgentsLong(i);
    }
  }

  /** A scenario step; a missing key is "". */
  datatype Step = Step(userInput: string, expectedAgent: string)

  /** A scenario: its name and its steps, either of which may be missing. */
  datatype Scenario = Scenario(name: Option<string>, steps: Option<seq<Step>>)

  /** What a reported problem is about; steps are numbered from 1. */
  datatype IssueKind = NoSteps | EmptySteps | EmptyInput(step: nat) | EmptyAgent(step: nat)
                     | UnknownAgent(step: nat, agent: string)

  datatype Issue = Issue(scenario: string, kind: IssueKind)

  /** An issue reports an unknown agent only for a non-empty, unknown one. */
  predicate Sound(x: Issue)
  {
    x.kind.UnknownAgent? ==> |x.kind.agent| > 0 && !IsValidAgent(x.kind.agent)
  }

  /** The problems of the `n`-th step of scenario `name`, given its query
      and its agent already stripped. */
  function CheckStep(name: string, n: nat, input: string, agent: string): (issues: seq<Issue>)
    ensures Issue(name, EmptyInput(n)) in issues <==> |input| == 0
    ensures Issue(name, EmptyAgent(n)) in issues <==> |agent| == 0
    ensures Issue(name, UnknownAgent(n, agent)) in issues <==> |agent| > 0 && !IsValidAgent(agent)
    ensures forall x :: x in issues ==>
      x.scenario == name && (x.kind == EmptyInput(n) || x.kind == EmptyAgent(n) || x.kind == UnknownAgent(n, agent))
    ensures forall x :: x in issues ==> Sound(x)
  {
    (if |input| == 0 then [Issue(name, EmptyInput(n))] else [])
    + (if |agent| == 0 then [Issue(name, EmptyAgent(n))] else [])
    + (if !IsValidAgent(agent) && |agent| > 0 then [Issue(name, UnknownAgent(n, agent))] else [])
  }

  /** The problems of the `n`-th step of scenario `name`. */
  function StepIssues(name: string, n: nat, st: Step): seq<Issue>
  {
    CheckStep(name, n, Strip(st.userInput), Strip(st.expectedAgent))
  }

  /** `StepIssues` for scenario `name`, as a function of the step number and the step. */
  function StepCheck(name: string): (nat, Step) -> seq<Issue>
  {
    (k: nat, st: Step) => StepIssues(name, k, st)
  }

  /** The problems of the steps `steps`, the first numbered `n`. */
  function StepsIssues(name: string, steps: seq<Step>, n: nat): seq<Issue>
  {
    FlatMapFrom(steps, n, StepCheck(name))
  }

  /** Every problem of a scenario's steps is sound and carries its name. */
  lemma StepsIssuesSound(name: string, steps: seq<Step>, n: nat)
    ensures forall x :: x in StepsIssues(name, steps, n) ==> Sound(x) && x.scenario == name
  {
    forall x | x in StepsIssues(name, steps, n)
      ensures Sound(x) && x.scenario == name
    {
      FlatMapFromMembers(steps, n, StepCheck(name), x);
    }
  }

  /** The name a scenario is reported under. */
  function ScenarioName(sc: Scenario, n: nat): string
  {
    sc.name.GetOr("Сценарий " + NatToString(n))
  }

  /** The problems of the `n`-th scenario. */
  function ScenarioIssues(sc: Scenario, n: nat): (issues: seq<Issue>)
    ensures sc.steps.None? ==> issues == [Issue(ScenarioName(sc, n), NoSteps)]
    ensures sc.steps == Some([]) ==> issues == [Issue(ScenarioName(sc, n), EmptySteps)]
    ensures forall x :: x in issues ==> Sound(x) && x.scenario == ScenarioName(sc, n)
  {
    var name := ScenarioName(sc, n);
    match sc.steps
    case None => [Issue(name, NoSteps)]
    case Some(steps) =>
      if |steps| == 0 then [Issue(name, EmptySteps)]
      else
        StepsIssuesSound(name, steps, 1);
        StepsIssues(name, steps, 1)
  }

  lemma ScenarioIssuesOfSteps(sc: Scenario, n: nat)
    requires sc.steps.Some? && |sc.steps.value| > 0
    ensures ScenarioIssues(sc, n) == StepsIssues(ScenarioName(sc, n), sc.steps.value, 1)
  {
  }

  /** `ScenarioIssues` as a function of the scenario number and the scenario. */
  const ScenarioCheck: (nat, Scenario) -> seq<Issue> := (k: nat, sc: Scenario) => ScenarioIssues(sc, k)

  /** `test_validate_scenario_content`'s list of problems. */
  function ValidateScenarios(scs: seq<Scenario>): seq<Issue>
  {
    FlatMapFrom(scs, 1, ScenarioCheck)
  }

  /** An unknown agent is reported only when it is non-empty and unknown. */
  lemma ValidateScenariosSound(scs: seq<Scenario>)
    ensures forall x :: x in ValidateScenarios(scs) ==> Sound(x)
  {
    forall x | x in ValidateScenarios(scs)
      ensures Sound(x)
    {
      FlatMapFromMembers(scs, 1, ScenarioCheck, x);
    }
  }

  /** Every problem of a step is among the problems of all scenarios. */
  lemma StepIssueReported(scs: seq<Scenario>, i: nat, j: nat, x: Issue)
    requires i < |scs| && scs[i].steps.Some? && j < |scs[i].steps.value|
    requires x in StepIssues(ScenarioName(scs[i], i + 1), j + 1, scs[i].steps.value[j])
    ensures x in ValidateScenarios(scs)
  {
    var name := ScenarioName(scs[i], i + 1);
    var steps := scs[i].steps.value;
    FlatMapFromIncludes(steps, 1, StepCheck(name), j, x);
    ScenarioIssuesOfSteps(scs[i], i + 1);
    FlatMapFromIncludes(scs, 1, ScenarioCheck, i, x);
  }

  /** A step with a blank query, a blank agent or an unknown agent is reported. */
  lemma StepProblemsReported(scs: seq<Scenario>, i: nat, j: nat)
    requires i < |scs| && scs[i].steps.Some? && j < |scs[i].steps.value|
    ensures var name := ScenarioName(scs[i], i + 1);
            var st := scs[i].steps.value[j];
      && (|Strip(st.userInput)| == 0 ==> Issue(name, EmptyInput(j + 1)) in ValidateScenarios(scs))
      && (|Strip(st.expectedAgent)| == 0 ==> Issue(name, EmptyAgent(j + 1)) in ValidateScenarios(scs))
      && (|Strip(st.expectedAgent)| > 0 && !IsValidAgent(Strip(st.expectedAgent)) ==>
            Issue(name, UnknownAgent(j + 1, Strip(st.expectedAgent))) in ValidateScenarios(scs))
  {
    var name := ScenarioName(scs[i], i + 1);
    var st := scs[i].steps.value[j];
    var input := Strip(st.userInput);
    var agent := Strip(st.expectedAgent);
    var issues := CheckStep(name, j + 1, input, agent);
    assert StepIssues(name, j + 1, st) == issues;
    if |input| == 0 {
      StepIssueReported(scs, i, j, Issue(name, EmptyInput(j + 1)));
    }
    if |agent| == 0 {
      StepIssueReported(scs, i, j, Issue(name, EmptyAgent(j + 1)));
    }
    if |agent| > 0 && !IsValidAgent(agent) {
      StepIssueReported(scs, i, j, Issue(name, UnknownAgent(j + 1, agent)));
    }
  }
}

=== FILE: start.dfy ===
/** The onboarding dialogue: `/begin` asks for a level and a track, and the
    next message sets both before the experience question. */
module Start {
  import opened Wrappers
  import opened Text
  import opened Flow

  /** One handler call: the next state, the replies, and the level and
      track written to the user's profile (if any). */
  datatype StartTurn = StartTurn(fsm: Fsm, replies: seq<string>, profile: Option<(string, string)>)

  const BeginPrompt: string :=
    "<b>🎯 Начнем подготовку!</b>\n\nУкажите ваш уровень и направление:\n<code>уровень направление</code>\n\n"
    + "<b>Пример:</b> <code>junior backend</code>\n<b>Уровни:</b> junior, middle, senior\n"
    + "<b>Направления:</b> backend, frontend, python, java, data"

  const NeedBothReply: string := "❌ Укажите уровень И направление\nПример: <code>junior backend</code>"

  function UnsupportedLevelReply(level: string): string
  {
    "❌ Уровень '" + level + "' не поддерживается"
  }

  function LevelSetReply(level: string, track: string): string
  {
    "✅ <b>Установлено: " + level + " " + track + "</b>\n\nТеперь опишите ваш опыт (2-3 предложения):\n\n"
    + "<b>Пример:</b>\nИзучал Python 6 месяцев, знаю основы ООП, решал задачи на LeetCode."
  }

  /** `cmd_begin`. */
  function CmdBegin(fsm: Fsm): (t: StartTurn)
    ensures t.fsm.state == WaitingLevelTrack && t.fsm.data == fsm.data
    ensures t.replies == [BeginPrompt] && t.profile.None?
  {
    StartTurn(SetState(fsm, WaitingLevelTrack), [BeginPrompt], None)
  }

  /** The tokens of the reply: stripped, lower-cased, split on blanks. */
  function Tokens(message: string): (ws: seq<string>)
    ensures forall i :: 0 <= i < |ws| ==> IsWord(ws[i])
  {
    Words(Lower(Strip(message)))
  }

  /** `process_level_track` once the reply is split into `parts`. */
  function LevelTrackTurn(fsm: Fsm, parts: seq<string>, validLevels: seq<string>, sessionId: int): (t: StartTurn)
    ensures |t.replies| == 1
    ensures t.profile.Some? <==> |parts| >= 2 && parts[0] in validLevels
    ensures t.profile.None? ==> t.fsm == fsm
    ensures |parts| < 2 ==> t.replies == [NeedBothReply]
    ensures |parts| >= 2 && parts[0] !in validLevels ==> t.replies == [UnsupportedLevelReply(parts[0])]
    ensures t.profile.Some? ==>
      && t.profile.value == (parts[0], parts[1])
      && t.fsm.state == WaitingExperience
      && t.fsm.data == fsm.data.(level := Some(parts[0]), track := Some(parts[1]), sessionId := Some(sessionId))
      && t.replies == [LevelSetReply(parts[0], parts[1])]
  {
    if |parts| < 2 then StartTurn(fsm, [NeedBothReply], None)
    else
      var level, track := parts[0], parts[1];
      if level !in validLevels then StartTurn(fsm, [UnsupportedLevelReply(level)], None)
      else
        var data := fsm.data.(level := Some(level), track := Some(track), sessionId := Some(sessionId));
        StartTurn(Fsm(WaitingExperience, data), [LevelSetReply(level, track)], Some((level, track)))
  }

  /** `process_level_track`; the valid levels come from the configuration
      and `sessionId` is the id of the session it opens. */
  function ProcessLevelTrack(fsm: Fsm, message: string, validLevels: seq<string>, sessionId: int): (t: StartTurn)
    ensures |t.replies| == 1
    ensures t.profile.Some? <==> |Tokens(message)| >= 2 && Tokens(message)[0] in validLevels
    ensures t.profile.None? ==> t.fsm == fsm
    ensures |Tokens(message)| < 2 ==> t.replies == [NeedBothReply]
    ensures |Tokens(message)| >= 2 && Tokens(message)[0] !in validLevels ==>
      t.replies == [UnsupportedLevelReply(Tokens(message)[0])]
    ensures t.profile.Some? ==>
      && t.profile.value == (Tokens(message)[0], Tokens(message)[1])
      && t.fsm.state == WaitingExperience
      && t.fsm.data == fsm.data.(level := Some(Tokens(message)[0]), track := Some(Tokens(message)[1]),
                                 sessionId := Some(sessionId))
      && t.replies == [LevelSetReply(Tokens(message)[0], Tokens(message)[1])]
  {
    LevelTrackTurn(fsm, Tokens(message), validLevels, sessionId)
  }

  /** Stripping and lower-casing a lower-case join of words changes nothing,
      so its tokens are the words themselves. */
  lemma TokensOfJoin(ws: seq<string>)
    requires |ws| > 0 && forall i :: 0 <= i < |ws| ==> IsWord(ws[i])
    requires Lower(Join(ws, " ")) == Join(ws, " ")
    ensures Tokens(Join(ws, " ")) == ws
  {
    var m := Join(ws, " ");
    calc {
      Tokens(m);
      Words(Lower(Strip(m)));
      { StripJoinedWords(ws); }
      Words(Lower(m));
      Words(m);
      { WordsOfJoin(ws); }
      ws;
    }
  }

  /** Words joined by single spaces have no blank to strip. */
  lemma StripJoinedWords(ws: seq<string>)
    requires |ws| > 0 && forall i :: 0 <= i < |ws| ==> IsWord(ws[i])
    ensures Strip(Join(ws, " ")) == Join(ws, " ")
  {
    var m := Join(ws, " ");
    var first, last := ws[0], ws[|ws| - 1];
    assert IsWord(first) && IsWord(last);
    JoinStartsWithFirst(ws, " ");
    JoinEndsWithLast(ws, " ");
    assert m[0] == first[0] by {
      assert m[..|first|] == first;
    }
    assert m[|m| - 1] == last[|last| - 1] by {
      assert m[|m| - |last|..] == last;
    }
    StripUnchanged(m);
  }

  /** A lower-case `level track ...` with a valid level sets exactly that
      level and track; any further words are ignored. */
  lemma LevelAndTrackSet(fsm: Fsm, ws: seq<string>, validLevels: seq<string>, sessionId: int)
    requires |ws| >= 2 && forall i :: 0 <= i < |ws| ==> IsWord(ws[i])
    requires Lower(Join(ws, " ")) == Join(ws, " ")
    requires ws[0] in validLevels
    ensures var t := ProcessLevelTrack(fsm, Join(ws, " "), validLevels, sessionId);
      && t.profile == Some((ws[0], ws[1]))
      && t.fsm.data.level == Some(ws[0]) && t.fsm.data.track == Some(ws[1])
      && t.fsm.state == WaitingExperience
  {
    TokensOfJoin(ws);
    assert ProcessLevelTrack(fsm, Join(ws, " "), validLevels, sessionId) == LevelTrackTurn(fsm, ws, validLevels, sessionId);
  }

  /** A message that is a single word never sets a profile. */
  lemma OneWordRejected(fsm: Fsm, w: string, validLevels: seq<string>, sessionId: int)
    requires IsWord(w) && Lower(w) == w
    ensures ProcessLevelTrack(fsm, w, validLevels, sessionId) == StartTurn(fsm, [NeedBothReply], None)
  {
    assert Join([w], " ") == w;
    TokensOfJoin([w]);
  }
}

=== FILE: text.dfy ===
/** The handful of Python `str` operations the bot relies on, over
    `string` (a sequence of Unicode scalar values, like a Python `str`). */
module Text {

  // ---------------------------------------------------------------------
  // Whitespace, `strip`
  // ---------------------------------------------------------------------

  /** Python's `str.isspace` for a single character. */
  predicate IsSpace(c: char)
  {
    || c == ' ' || ('\t' <= c <= '\r') || ('\U{1C}' <= c <= '\U{1F}')
    || c == '\U{85}' || c == '\U{A0}' || c == '\U{1680}'
    || ('\U{2000}' <= c <= '\U{200A}') || c == '\U{2028}' || c == '\U{2029}'
    || c == '\U{202F}' || c == '\U{205F}' || c == '\U{3000}'
  }

  predicate AllSpace(s: string)
  {
    forall k :: 0 <= k < |s| ==> IsSpace(s[k])
  }

  /** `s.lstrip()`: the suffix of `s` left after dropping leading whitespace. */
  function TrimLeft(s: string): (r: string)
    ensures |r| <= |s| && r == s[|s| - |r|..]
    ensures AllSpace(s[..|s| - |r|])
    ensures |r| > 0 ==> !IsSpace(r[0])
    decreases |s|
  {
    if |s| > 0 && IsSpace(s[0]) then TrimLeft(s[1..]) else s
  }

  /** `s.rstrip()`: the prefix of `s` left after dropping trailing whitespace. */
  function TrimRight(s: string): (r: string)
    ensures |r| <= |s| && r == s[..|r|]
    ensures AllSpace(s[|r|..])
    ensures |r| > 0 ==> !IsSpace(r[|r| - 1])
    decreases |s|
  {
    if |s| > 0 && IsSpace(s[|s| - 1]) then TrimRight(s[..|s| - 1]) else s
  }

  /** `s.strip()`. */
  function Strip(s: string): (r: string)
    ensures |r| <= |s|
    ensures |r| > 0 ==> !IsSpace(r[0]) && !IsSpace(r[|r| - 1])
  {
    TrimRight(TrimLeft(s))
  }

  /** Stripping is exact: the result is a slice of `s` framed by whitespace only. */
  lemma StripIsSlice(s: string)
    ensures exists i :: 0 <= i <= |s| - |Strip(s)| && Strip(s) == s[i..i + |Strip(s)|]
                        && AllSpace(s[..i]) && AllSpace(s[i + |Strip(s)|..])
  {
    var l := TrimLeft(s);
    var i := |s| - |l|;
    var r := TrimRight(l);
    assert Strip(s) == r;
    assert AllSpace(s[..i]);
    SliceOfSuffix(s, i, |r|);
    assert AllSpace(s[i + |r|..]);
  }

  /** Slicing a suffix of `s` is slicing `s` itself. */
  lemma SliceOfSuffix<T>(s: seq<T>, i: nat, n: nat)
    requires i + n <= |s|
    ensures s[i..][..n] == s[i..i + n] && s[i..][n..] == s[i + n..]
  {
  }

  /** Stripping twice changes nothing. */
  lemma StripIdempotent(s: string)
    ensures Strip(Strip(s)) == Strip(s)
  {
    var r := Strip(s);
    if |r| > 0 {
      assert TrimLeft(r) == r;
      assert TrimRight(r) == r;
    }
  }

  /** A string with a non-blank character does not strip to "". */
  lemma StripNonEmpty(s: string, k: nat)
    requires k < |s| && !IsSpace(s[k])
    ensures |Strip(s)| > 0
  {
    var l := TrimLeft(s);
    assert k >= |s| - |l|;
    assert l[k - (|s| - |l|)] == s[k];
  }

  /** Leading blanks are exactly what `lstrip` removes. */
  lemma {:induction false} TrimLeftBlankPrefix(lead: string, x: string)
    requires AllSpace(lead) && |x| > 0 && !IsSpace(x[0])
    ensures TrimLeft(lead + x) == x
    decreases |lead|
  {
    if |lead| > 0 {
      assert (lead + x)[1..] == lead[1..] + x;
      TrimLeftBlankPrefix(lead[1..], x);
    } else {
      assert lead + x == x;
    }
  }

  /** Trailing blanks are exactly what `rstrip` removes. */
  lemma {:induction false} TrimRightBlankSuffix(x: string, trail: string)
    requires AllSpace(trail) && |x| > 0 && !IsSpace(x[|x| - 1])
    ensures TrimRight(x + trail) == x
    decreases |trail|
  {
    if |trail| > 0 {
      assert (x + trail)[..|x + trail| - 1] == x + trail[..|trail| - 1];
      TrimRightBlankSuffix(x, trail[..|trail| - 1]);
    } else {
      assert x + trail == x;
    }
  }

  /** Stripping `lead + j + trail` for blank `lead` and `trail` recovers `j`
      when `j` begins and ends with a non-blank character. */
  lemma StripFramed(lead: string, j: string, trail: string)
    requires AllSpace(lead) && AllSpace(trail)
    requires |j| > 0 && !IsSpace(j[0]) && !IsSpace(j[|j| - 1])
    ensures Strip(lead + j + trail) == j
  {
    assert lead + j + trail == lead + (j + trail);
    TrimLeftBlankPrefix(lead, j + trail);
    TrimRightBlankSuffix(j, trail);
  }

  /** A text that begins and ends with a non-blank character strips to itself. */
  lemma StripUnchanged(m: string)
    requires |m| > 0 && !IsSpace(m[0]) && !IsSpace(m[|m| - 1])
    ensures Strip(m) == m
  {
    assert "" + m + "" == m;
    StripFramed("", m, "");
  }

  // ---------------------------------------------------------------------
  // Case mapping (ASCII and the basic Cyrillic block)
  // ---------------------------------------------------------------------

  function LowerChar(c: char): char
  {
    if 'A' <= c <= 'Z' then (c as int + 32) as char
    else if '\U{410}' <= c <= '\U{42F}' then (c as int + 32) as char
    else if '\U{400}' <= c <= '\U{40F}' then (c as int + 80) as char
    else c
  }

  function UpperChar(c: char): char
  {
    if 'a' <= c <= 'z' then (c as int - 32) as char
    else if '\U{430}' <= c <= '\U{44F}' then (c as int - 32) as char
    else if '\U{450}' <= c <= '\U{45F}' then (c as int - 80) as char
    else c
  }

  /** `s.lower()`. */
  function Lower(s: string): (r: string)
    ensures |r| == |s|
    ensures forall k :: 0 <= k < |s| ==> r[k] == LowerChar(s[k])
  {
    seq(|s|, k requires 0 <= k < |s| => LowerChar(s[k]))
  }

  /** Lower-casing leaves a string of characters between `_` and `z` unchanged. */
  lemma LowerOfLowerAscii(s: string)
    requires forall k :: 0 <= k < |s| ==> '_' <= s[k] <= 'z'
    ensures Lower(s) == s
  {
    assert forall k :: 0 <= k < |s| ==> Lower(s)[k] == s[k];
  }

  /** `s.upper()`. */
  function Upper(s: string): (r: string)
    ensures |r| == |s|
    ensures forall k :: 0 <= k < |s| ==> r[k] == UpperChar(s[k])
  {
    seq(|s|, k requires 0 <= k < |s| => UpperChar(s[k]))
  }

  /** Lowercasing is idempotent and keeps whitespace where it was. */
  lemma LowerIdempotent(s: string)
    ensures Lower(Lower(s)) == Lower(s)
    ensures forall k :: 0 <= k < |s| ==> (IsSpace(Lower(s)[k]) <==> IsSpace(s[k]))
  {
  }

  /** Upper-casing a lower-case string and lowering it again gives it back. */
  lemma LowerUpperRoundTrip(s: string)
    requires Lower(s) == s
    ensures Lower(Upper(s)) == s
  {
    forall k | 0 <= k < |s|
      ensures LowerChar(UpperChar(s[k])) == s[k]
    {
      assert LowerChar(s[k]) == Lower(s)[k];
    }
  }

  // ---------------------------------------------------------------------
  // Prefixes, suffixes, substrings
  // ---------------------------------------------------------------------

  predicate StartsWith(s: string, p: string)
  {
    |p| <= |s| && s[..|p|] == p
  }

  predicate EndsWith(s: string, p: string)
  {
    |p| <= |s| && s[|s| - |p|..] == p
  }

  /** `sub` occurs in `s` starting at index `i`. */
  predicate OccursAt(s: string, sub: string, i: int)
  {
    0 <= i && i + |sub| <= |s| && s[i..i + |sub|] == sub
  }

  /** Python's `sub in s`. */
  function Contains(s: string, sub: string): (b: bool)
    ensures b <==> exists i :: OccursAt(s, sub, i)
    decreases |s|
  {
    if StartsWith(s, sub) then
      assert OccursAt(s, sub, 0);
      true
    else if |s| == 0 then
      false
    else
      var b := Contains(s[1..], sub);
      ShiftOccurrence(s, sub);
      b
  }

  lemma ShiftOccurrence(s: string, sub: string)
    requires |s| > 0 && !StartsWith(s, sub)
    ensures (exists i :: OccursAt(s, sub, i)) <==> (exists i :: OccursAt(s[1..], sub, i))
  {
    if i :| OccursAt(s, sub, i) {
      assert i != 0;
      assert s[1..][i - 1..i - 1 + |sub|] == s[i..i + |sub|];
      assert OccursAt(s[1..], sub, i - 1);
    }
    if i :| OccursAt(s[1..], sub, i) {
      assert s[1..][i..i + |sub|] == s[i + 1..i + 1 + |sub|];
      assert OccursAt(s, sub, i + 1);
    }
  }

  /** A substring using a character the text lacks cannot occur in it. */
  lemma MissingCharNotContained(s: string, sub: string, k: nat)
    requires k < |sub| && sub[k] !in s
    ensures !Contains(s, sub)
  {
    forall i | 0 <= i <= |s| - |sub|
      ensures !OccursAt(s, sub, i)
    {
      assert s[i..i + |sub|][k] == s[i + k];
      assert s[i + k] in s;
    }
  }

  /** Python's `s.count(sub)` for a non-empty `sub`: leftmost, non-overlapping occurrences. */
  function Count(s: string, sub: string): (n: nat)
    requires |sub| > 0
    ensures n <= |s|
    ensures n == 0 <==> !Contains(s, sub)
    decreases |s|
  {
    if StartsWith(s, sub) then
      assert OccursAt(s, sub, 0);
      1 + Count(s[|sub|..], sub)
    else if |s| == 0 then
      0
    else
      ShiftOccurrence(s, sub);
      Count(s[1..], sub)
  }

  /** Python's `s.replace(sub, "")`: every leftmost non-overlapping occurrence removed. */
  function RemoveAll(s: string, sub: string): string
    requires |sub| > 0
    decreases |s|
  {
    if StartsWith(s, sub) then RemoveAll(s[|sub|..], sub)
    else if |s| == 0 then ""
    else [s[0]] + RemoveAll(s[1..], sub)
  }

  /** `sub * n`: `n` copies of `sub` back to back. */
  function Repeat(sub: string, n: nat): string
  {
    if n == 0 then "" else sub + Repeat(sub, n - 1)
  }

  /** `replace(sub, "")` shortens the text by exactly `count(sub)` copies of `sub`. */
  lemma {:induction false} RemoveAllLength(s: string, sub: string)
    requires |sub| > 0
    ensures |RemoveAll(s, sub)| + |Repeat(sub, Count(s, sub))| == |s|
    decreases |s|
  {
    if StartsWith(s, sub) {
      var n := Count(s[|sub|..], sub);
      RemoveAllLength(s[|sub|..], sub);
      assert Count(s, sub) == 1 + n;
      assert |Repeat(sub, 1 + n)| == |sub| + |Repeat(sub, n)|;
    } else if |s| > 0 {
      RemoveAllLength(s[1..], sub);
      assert |RemoveAll(s, sub)| == 1 + |RemoveAll(s[1..], sub)|;
      assert Count(s, sub) == Count(s[1..], sub);
    }
  }

  /** `s[:n]` for `n >= 0`. */
  function Take(s: string, n: nat): (r: string)
    ensures |r| == if |s| <= n then |s| else n
    ensures StartsWith(s, r)
  {
    if |s| <= n then s else s[..n]
  }

  /** `s.split(sep)[0]`: everything before the first occurrence of `sep`. */
  function BeforeFirst(s: string, sep: string): (r: string)
    requires |sep| > 0
    ensures StartsWith(s, r)
    ensures |r| == |s| || StartsWith(s[|r|..], sep)
    ensures forall i :: 0 <= i < |r| ==> !StartsWith(s[i..], sep)
    decreases |s|
  {
    if StartsWith(s, sep) || |s| == 0 then ""
    else
      var r := BeforeFirst(s[1..], sep);
      assert forall i :: 1 <= i <= |s| ==> s[i..] == s[1..][i - 1..];
      [s[0]] + r
  }

  /** `s.split(sep)[1]` when `sep` occurs: the text after its first occurrence. */
  function AfterFirst(s: string, sep: string): (r: string)
    requires |sep| > 0
    ensures Contains(s, sep) ==> s == BeforeFirst(s, sep) + sep + r
  {
    var b := BeforeFirst(s, sep);
    if |b| + |sep| <= |s| then
      SplitAtPrefixes(s, b, sep);
      s[|b| + |sep|..]
    else
      BeforeFirstWhole(s, sep);
      ""
  }

  /** A prefix followed by `sep` splits the text in three. */
  lemma SplitAtPrefixes(s: string, b: string, sep: string)
    requires StartsWith(s, b) && |b| + |sep| <= |s|
    requires |b| == |s| || StartsWith(s[|b|..], sep)
    ensures s == b + sep + s[|b| + |sep|..]
  {
    assert s[|b|..][..|sep|] == s[|b|..|b| + |sep|];
    assert s == s[..|b|] + s[|b|..|b| + |sep|] + s[|b| + |sep|..];
  }

  /** When nothing follows the text before `sep`, `sep` does not occur. */
  lemma BeforeFirstWhole(s: string, sep: string)
    requires |sep| > 0 && |BeforeFirst(s, sep)| + |sep| > |s|
    ensures !Contains(s, sep)
  {
    var b := BeforeFirst(s, sep);
    assert |b| == |s|;
    forall i | OccursAt(s, sep, i)
      ensures false
    {
      assert i < |b|;
      OccurrenceIsPrefix(s, sep, i);
    }
  }

  lemma OccurrenceIsPrefix(s: string, sub: string, i: int)
    requires OccursAt(s, sub, i)
    ensures StartsWith(s[i..], sub)
  {
    assert s[i..][..|sub|] == s[i..i + |sub|];
  }

  // ---------------------------------------------------------------------
  // Splitting and joining
  // ---------------------------------------------------------------------

  /** `s.split(c)` for a one-character separator. */
  function Split(s: string, c: char): (parts: seq<string>)
    ensures |parts| >= 1
    ensures forall i :: 0 <= i < |parts| ==> c !in parts[i]
    decreases |s|
  {
    if |s| == 0 then [""]
    else
      var rest := Split(s[1..], c);
      if s[0] == c then [""] + rest
      else [[s[0]] + rest[0]] + rest[1..]
  }

  /** `sep.join(parts)`. */
  function Join(parts: seq<string>, sep: string): (r: string)
    decreases |parts|
  {
    if |parts| == 0 then ""
    else if |parts| == 1 then parts[0]
    else parts[0] + sep + Join(parts[1..], sep)
  }

  /** Joining the pieces of a split with the separator restores the text. */
  lemma {:induction false} JoinSplit(s: string, c: char)
    ensures Join(Split(s, c), [c]) == s
    decreases |s|
  {
    if |s| > 0 {
      JoinSplit(s[1..], c);
      var rest := Split(s[1..], c);
      if s[0] == c {
        assert Split(s, c) == [""] + rest;
      } else {
        var parts := Split(s, c);
        assert parts == [[s[0]] + rest[0]] + rest[1..];
        if |rest| == 1 {
          assert Join(rest, [c]) == rest[0];
        } else {
          assert Join(rest, [c]) == rest[0] + [c] + Join(rest[1..], [c]);
          assert parts[1..] == rest[1..];
        }
      }
    }
  }

  /** Splitting a join of separator-free pieces gives the pieces back. */
  lemma {:induction false} SplitJoin(parts: seq<string>, c: char)
    requires |parts| >= 1
    requires forall i :: 0 <= i < |parts| ==> c !in parts[i]
    ensures Split(Join(parts, [c]), c) == parts
    decreases |parts|, |parts[0]|
  {
    var p := parts[0];
    if |p| == 0 {
      if |parts| > 1 {
        SplitJoin(parts[1..], c);
        var s := Join(parts, [c]);
        assert s == [c] + Join(parts[1..], [c]);
        assert s[1..] == Join(parts[1..], [c]);
        assert Split(s, c) == [""] + parts[1..];
      }
    } else {
      var parts' := [p[1..]] + parts[1..];
      assert forall i :: 0 <= i < |parts'| ==> c !in parts'[i] by {
        assert forall x :: x in p[1..] ==> x in p;
      }
      SplitJoin(parts', c);
      var s := Join(parts, [c]);
      if |parts| == 1 {
        assert s == p;
        assert s[1..] == Join(parts', [c]);
      } else {
        assert s == p + [c] + Join(parts[1..], [c]);
        assert Join(parts', [c]) == p[1..] + [c] + Join(parts[1..], [c]);
        assert s[1..] == Join(parts', [c]);
      }
      assert s[0] == p[0] && s[0] != c;
      assert [p[0]] + p[1..] == p;
    }
  }

  /** The last element of a join is its tail: a joined text ends with its last piece. */
  lemma {:induction false} JoinEndsWithLast(parts: seq<string>, sep: string)
    requires |parts| >= 1
    ensures EndsWith(Join(parts, sep), parts[|parts| - 1])
    decreases |parts|
  {
    if |parts| > 1 {
      JoinEndsWithLast(parts[1..], sep);
      var j := Join(parts[1..], sep);
      var s := Join(parts, sep);
      var last := parts[|parts| - 1];
      assert s == parts[0] + sep + j;
      assert s[|s| - |last|..] == j[|j| - |last|..];
    }
  }

  /** An occurrence stays an occurrence when text is added around it. */
  lemma OccursInContext(x: string, a: string, y: string, sub: string, j: int)
    requires OccursAt(a, sub, j)
    ensures OccursAt(x + a + y, sub, |x| + j)
  {
    assert (x + a + y)[|x| + j..|x| + j + |sub|] == a[j..j + |sub|];
  }

  /** A text contains whatever is written in its middle. */
  lemma ContainsMiddle(head: string, mid: string, tail: string)
    ensures Contains(head + mid + tail, mid)
  {
    assert OccursAt(mid, mid, 0);
    OccursInContext(head, mid, tail, mid, 0);
  }

  /** Every piece of a join occurs in the joined text. */
  lemma {:induction false} JoinContainsPart(parts: seq<string>, sep: string, i: nat)
    requires i < |parts|
    ensures Contains(Join(parts, sep), parts[i])
    decreases |parts|
  {
    if |parts| == 1 {
      assert OccursAt(parts[0], parts[0], 0);
    } else if i == 0 {
      assert Join(parts, sep) == "" + parts[0] + (sep + Join(parts[1..], sep));
      assert OccursAt(parts[0], parts[0], 0);
      OccursInContext("", parts[0], sep + Join(parts[1..], sep), parts[0], 0);
    } else {
      JoinContainsPart(parts[1..], sep, i - 1);
      var j :| OccursAt(Join(parts[1..], sep), parts[i], j);
      assert Join(parts, sep) == parts[0] + sep + Join(parts[1..], sep) + "";
      OccursInContext(parts[0] + sep, Join(parts[1..], sep), "", parts[i], j);
    }
  }

  /** Every piece of a join occurs in any text the join is written into. */
  lemma JoinedPartInContext(head: string, parts: seq<string>, sep: string, tail: string, i: nat)
    requires i < |parts|
    ensures Contains(head + Join(parts, sep) + tail, parts[i])
  {
    JoinContainsPart(parts, sep, i);
    var k :| OccursAt(Join(parts, sep), parts[i], k);
    OccursInContext(head, Join(parts, sep), tail, parts[i], k);
  }

  /** A run of non-blank characters at the front of `s`. */
  function NonSpacePrefix(s: string): (w: string)
    ensures StartsWith(s, w)
    ensures forall k :: 0 <= k < |w| ==> !IsSpace(w[k])
    ensures |w| < |s| ==> IsSpace(s[|w|])
    decreases |s|
  {
    if |s| == 0 || IsSpace(s[0]) then "" else [s[0]] + NonSpacePrefix(s[1..])
  }

  /** Python's `s.split()` with no argument: the maximal runs of non-blank characters. */
  function Words(s: string): (ws: seq<string>)
    ensures forall i :: 0 <= i < |ws| ==> IsWord(ws[i])
    decreases |s|
  {
    var t := TrimLeft(s);
    if |t| == 0 then []
    else
      var w := NonSpacePrefix(t);
      assert IsWord(w);
      [w] + Words(t[|w|..])
  }

  /** A non-empty run of non-blank characters. */
  predicate IsWord(w: string)
  {
    |w| > 0 && forall k :: 0 <= k < |w| ==> !IsSpace(w[k])
  }

  /** `s.split()` is empty exactly for blank text. */
  lemma WordsEmptyIffBlank(s: string)
    ensures |Words(s)| == 0 <==> |Strip(s)| == 0
  {
    var t := TrimLeft(s);
    if |t| > 0 {
      assert !IsSpace(t[0]);
      StripNonEmpty(t, 0);
      assert TrimLeft(t) == t;
    }
  }

  /** A word followed by a blank (or nothing) is its own non-blank prefix. */
  lemma {:induction false} NonSpacePrefixOfWord(w: string, rest: string)
    requires IsWord(w) && (|rest| == 0 || IsSpace(rest[0]))
    ensures NonSpacePrefix(w + rest) == w
    decreases |w|
  {
    assert (w + rest)[0] == w[0];
    if |w| > 1 {
      assert (w + rest)[1..] == w[1..] + rest;
      NonSpacePrefixOfWord(w[1..], rest);
      assert [w[0]] + w[1..] == w;
    } else {
      assert (w + rest)[1..] == rest;
      assert [w[0]] == w;
    }
  }

  /** A leading word is split off first. */
  lemma WordsOfWordThen(w: string, rest: string)
    requires IsWord(w) && (|rest| == 0 || IsSpace(rest[0]))
    ensures Words(w + rest) == [w] + Words(rest)
  {
    var s := w + rest;
    assert s[0] == w[0];
    assert TrimLeft(s) == s;
    NonSpacePrefixOfWord(w, rest);
    assert s[|w|..] == rest;
  }

  /** A blank in front of a word changes nothing. */
  lemma WordsAfterBlank(j: string)
    requires |j| > 0 && !IsSpace(j[0])
    ensures Words(" " + j) == Words(j)
  {
    assert (" " + j)[1..] == j;
    assert TrimLeft(" " + j) == TrimLeft(j);
  }

  /** Splitting words joined by single spaces gives the words back. */
  lemma {:induction false} WordsOfJoin(ws: seq<string>)
    requires forall i :: 0 <= i < |ws| ==> IsWord(ws[i])
    ensures Words(Join(ws, " ")) == ws
    decreases |ws|
  {
    if |ws| == 1 {
      WordsOfWordThen(ws[0], "");
      assert ws[0] + "" == Join(ws, " ");
    } else if |ws| > 1 {
      var j := Join(ws[1..], " ");
      JoinStartsWithFirst(ws[1..], " ");
      assert j[0] == ws[1][0];
      calc {
        Words(Join(ws, " "));
        { assert Join(ws, " ") == ws[0] + " " + j == ws[0] + (" " + j); }
        Words(ws[0] + (" " + j));
        { WordsOfWordThen(ws[0], " " + j); }
        [ws[0]] + Words(" " + j);
        { WordsAfterBlank(j); }
        [ws[0]] + Words(j);
        { WordsOfJoin(ws[1..]); }
        [ws[0]] + ws[1..];
        ws;
      }
    }
  }

  /** A join starts with its first piece. */
  lemma JoinStartsWithFirst(parts: seq<string>, sep: string)
    requires |parts| >= 1
    ensures StartsWith(Join(parts, sep), parts[0])
  {
    var j := Join(parts, sep);
    if |parts| > 1 {
      assert j == parts[0] + (sep + Join(parts[1..], sep));
    }
    assert j[..|parts[0]|] == parts[0];
  }

  /** The first whitespace-separated token of `s` (used when `s.split()` is non-empty). */
  function FirstWord(s: string): (w: string)
    ensures |Words(s)| > 0 ==> w == Words(s)[0]
  {
    NonSpacePrefix(TrimLeft(s))
  }

  // ---------------------------------------------------------------------
  // Integers rendered as in an f-string
  // ---------------------------------------------------------------------

  predicate IsDigit(c: char) { '0' <= c <= '9' }

  /** `str(n)` for a natural number: decimal digits, no leading zero. */
  function NatToString(n: nat): (r: string)
    ensures |r| >= 1
    ensures forall k :: 0 <= k < |r| ==> IsDigit(r[k])
    ensures |r| > 1 ==> r[0] != '0'
    decreases n
  {
    var d := ['0' + (n % 10) as char];
    if n < 10 then d else NatToString(n / 10) + d
  }

  /** `str(i)` for any integer. */
  function IntToString(i: int): (r: string)
    ensures |r| >= 1
    ensures i < 0 <==> r[0] == '-'
  {
    if i < 0 then "-" + NatToString(-i) else NatToString(i)
  }

  /** The value of a string of decimal digits. */
  function DigitsValue(s: string): nat
    requires forall k :: 0 <= k < |s| ==> IsDigit(s[k])
    decreases |s|
  {
    if |s| == 0 then 0
    else
      assert IsDigit(s[|s| - 1]);
      10 * DigitsValue(s[..|s| - 1]) + (s[|s| - 1] as int - '0' as int)
  }

  /** Reading back the digits of `str(n)` gives `n`. */
  lemma {:induction false} NatToStringRoundTrip(n: nat)
    ensures DigitsValue(NatToString(n)) == n
    decreases n
  {
    var r := NatToString(n);
    if n >= 10 {
      NatToStringRoundTrip(n / 10);
      assert r[..|r| - 1] == NatToString(n / 10);
    }
  }

  // ---------------------------------------------------------------------
  // Fixed-size chunks
  // ---------------------------------------------------------------------

  function Concat(parts: seq<string>): string
    decreases |parts|
  {
    if |parts| == 0 then "" else parts[0] + Concat(parts[1..])
  }

  /** `[s[i:i + n] for i in range(0, len(s), n)]`. */
  function Chunks(s: string, n: nat): (parts: seq<string>)
    requires n > 0
    ensures Concat(parts) == s
    ensures forall i :: 0 <= i < |parts| ==> 0 < |parts[i]| <= n
    ensures forall i :: 0 <= i < |parts| - 1 ==> |parts[i]| == n
    decreases |s|
  {
    if |s| == 0 then []
    else if |s| <= n then [s]
    else
      var rest := Chunks(s[n..], n);
      assert s == s[..n] + s[n..];
      [s[..n]] + rest
  }
}

=== FILE: wrappers.dfy ===
/** Optional values: a missing dictionary key, a `None` return, or an
    oracle call that raised. */
module Wrappers {

  datatype Option<+T> = None | Some(value: T) {

    /** The wrapped value, or `default` when there is none (Python's `d.get(k, default)`). */
    function GetOr(default: T): (r: T)
      ensures Some? ==> r == value
      ensures None? ==> r == default
    {
      match this
      case Some(v) => v
      case None => default
    }
  }
}
